=== FILE: README.md ===
# Data-shaping pipeline of the generic table reader

A Dafny model of the data pipeline behind a Streamlit data-exploration app
("Leitor & Analisador de Dados"). An uploaded CSV, Excel or JSON/NDJSON file
is read into a table. The table is cleaned and its columns are classified as
numeric or text. Date columns are detected. The app then summarises the
table, filters its rows, and aggregates them by category or by time period
for bar, line and pie charts, optionally cut to the Top N.

pandas is abstracted away. A `Table` is a header of named, typed columns and
a list of labelled rows of tagged cells: `Int`, `Str`, `Bool`, `Time` (an
epoch count) and `Missing`. Everything is a pure function over immutable
values. The foreign parsers are parameters of the model:

- `pd.read_csv` for one (encoding, separator) attempt;
- `pd.ExcelFile` / `pd.read_excel`;
- `json.loads`;
- `pd.json_normalize`;
- `pd.to_datetime`, as a parse probe;
- the resample bucket function.

Modules follow the program's structure:

- `Ingest` (`ingest.dfy`) models `read_any`, `_read_csv`, `_read_excel` and `_read_json` of
  `ingest.py`, and the inline readers and extension dispatch of `app.py`.
- `Cleaning` (`clean.dfy`) models `_clean` and the app's inline `Unnamed` drop.
- `Inference` (`inference.dfy`) models `infer_types`, `detect_datetime_cols` and
  `ensure_datetime`.
- `Stats` (`stats.dfy`) models `basic_stats`.
- `Reductions`, `Grouping` and `Aggregation` model `aggregate` and `time_aggregate`.
- `Ranking`, `Filters` and `Charts` model the app's Top-N cut, its row filters
  and the data the "Gerar gráfico" button hands to the plotting code.
- `Tables`, `Text`, `Seqs`, `Sorting` and `Wrappers` hold shared definitions.

In several places the code behaves differently from what its names, docstrings or
library calls suggest at first sight; the model follows the code:

- pandas' `is_numeric_dtype` is true for boolean columns. So `infer_types`
  and `basic_stats` treat a boolean column as numeric, not as text.
- `_clean` in `ingest.py` does not do what its docstring says (see
  "## Findings"). The library readers are modelled twice: as written
  (`CleanAsWritten`, `ReadCsvAsWritten`, ...), and as intended (`Clean`,
  `ReadCsv`, ...). The intended ones are what the app's own readers plus
  `_clean` would give, and the rest of the model uses them.
- `aggregate` raises when the renamed output would hold two columns with the
  same name; the model returns the error `DuplicateColumn`, which the app
  shows as its "Falha" message.
- `groupby` sorts its keys; it does not keep encounter order. The model
  groups in first-encounter order, but no contract depends on the order of
  groups in `aggregate`.
- The app's inline JSON reader calls `json_normalize` inside the `try`. A
  document that parses but does not normalise therefore falls back to the
  line-by-line reading there, but fails in `ingest.py`
  (`AppJsonRetriesWhereLibraryFails`).
- The app's inline clean-up does not strip column names. A placeholder
  column named `" Unnamed: 0"` survives it, while `_clean` drops it
  (`InlineCleanKeepsPaddedPlaceholder`, `CleanDropsPaddedPlaceholder`).

## Model

| member | source | states |
|---|---|---|
| `Ingest.Route` | ingest.py:56-63 | A lower-cased name ending in `.csv` goes to CSV; otherwise `.xlsx`/`.xls` go to Excel, then `.json` to JSON; a name with none of these endings, and only such a name, is an `UnsupportedFormat` error |
| `Ingest.RouteIgnoresCase` | ingest.py:56 | Routing a name and routing its lower-cased form give the same answer |
| `Ingest.StrategyOrder` | ingest.py:93-94 | The CSV attempts are exactly the 8 pairs: utf-8 before latin-1, and within each encoding the separators comma, semicolon, tab, pipe |
| `Ingest.FirstSuccess` | ingest.py:93-103 | The fold over attempts returns nothing exactly when every attempt fails; otherwise it returns the index and table of the first attempt that parses, with every earlier attempt failing |
| `Ingest.ReadCsv` | ingest.py:93-103 | Fails (and only with `CsvUndetected`) exactly when all 8 attempts fail; otherwise returns the cleaned table of the first attempt that parses |
| `Ingest.CsvCommaUtf8Wins` | ingest.py:93-98 | If utf-8 with `,` parses, its cleaned table is the result, whatever the other attempts give |
| `Ingest.CsvLatin1OnlyAfterUtf8` | ingest.py:93-98 | A latin-1 reading is used only when all four utf-8 attempts failed |
| `Ingest.AppReadCsv` | app.py:57-66 | Same 8 attempts in the same order; returns the first success uncleaned; fails exactly when all fail |
| `Ingest.ReadCsvCleansAppReading` | ingest.py:93-103 | The intended library CSV reader is the app's reader followed by `_clean`: same success, same failure |
| `Ingest.ReadCsvAsWritten` | ingest.py:93-103 | With `_clean` inside the `try`, an attempt counts only if it parses and its clean-up does not raise; the reader fails exactly when every parsed attempt has a column, and anything it returns has no column |
| `Ingest.CsvAsWrittenFailsWhereIntendedReads` | ingest.py:93-103 | When utf-8/comma parses and every parsed attempt has a column, the intended reader returns the utf-8/comma table cleaned while the reader as written raises `CsvUndetected` |
| `Ingest.CsvTwoColumnSample` | ingest.py:93-103 | The file `a,b` / `1,2`: the intended reader returns a table with columns, the reader as written fails with `CsvUndetected` |
| `Ingest.ReadExcel` | ingest.py:124-127 | Succeeds exactly when the workbook opens, has a sheet and its first sheet reads; the result is that sheet, cleaned |
| `Ingest.AppReadExcel` | app.py:69-72 | Succeeds exactly when the workbook opens and the chosen sheet reads; the result is that sheet as read |
| `Ingest.ReadExcelCleansFirstSheet` | ingest.py:124-127 | The intended library Excel reader is the app's reading of the first sheet followed by `_clean` |
| `Ingest.ReadExcelAsWritten` | ingest.py:124-127 | Failures of the intended reader are kept; otherwise it succeeds exactly when the first sheet has no column, and then agrees with the intended reader; a first sheet with a column raises `Unalignable` |
| `Ingest.NonBlankIffStripNonEmpty` | ingest.py:158 | A line counts as non-blank exactly when its `strip()` is non-empty |
| `Ingest.ParseLinesFails` | ingest.py:158 | The line-by-line reading fails exactly when some non-blank line does not parse |
| `Ingest.ParseLinesRecords` | ingest.py:158 | A successful line-by-line reading has one record per non-blank line, in order, each the parse of that line |
| `Ingest.ParseLinesSkipsBlank` | ingest.py:158 | Inserting a whitespace-only line anywhere does not change the line-by-line reading |
| `Ingest.JsonDocument` | ingest.py:149-158 | If the stripped text parses, a lone object is wrapped into a one-element list and any other value is kept; if it does not parse, the document is the list of per-line records, or nothing when a line fails |
| `Ingest.ReadJson` | ingest.py:149-160 | Succeeds exactly when the document is obtained and normalises; the result is the normalised table, cleaned; failure is `JsonUnreadable` |
| `Ingest.ReadJsonAsWritten` | ingest.py:149-160 | Failures of the intended reader are kept; otherwise it succeeds exactly when the normalised table has no column, and then agrees with the intended reader; a normalised table with a column raises `Unalignable` |
| `Ingest.ReadJsonLineRows` | ingest.py:156-160 | When the whole text is not one JSON document, a successful reading has one row per non-blank line and no line failed to parse, given a normaliser that makes one row per record |
| `Ingest.JsonObjectIsOneRow` | ingest.py:152-155 | A whole document that is one JSON object reads as a one-row table, given a normaliser that makes one row per record |
| `Ingest.AppReadJson` | app.py:75-82 | The whole document is used when it parses and normalises; otherwise it succeeds exactly when every non-blank line parses and the record list normalises |
| `Ingest.AppJsonRetriesWhereLibraryFails` | app.py:77-82 | A whole document that parses to a non-object but does not normalise fails in the library reader and succeeds in the app reader when its lines parse |
| `Ingest.ReadAny` | ingest.py:38-63 | An unknown extension gives `UnsupportedFormat` and nothing else does; each format uses its reader; every table read has stripped, non-placeholder column names and rows labelled 0..n-1 |
| `Ingest.ReadAnyAsWritten` | ingest.py:38-63 | The same routing to the readers as written; an unknown extension gives `UnsupportedFormat` and nothing else does; any table it returns has no column |
| `Ingest.ReadAnyAsWrittenLosesColumns` | ingest.py:38-63 | Whenever the intended `read_any` returns a table with a column, `read_any` as written does not return it |
| `Ingest.AppLoad` | app.py:87-104 | The app routes the same way, reads with its inline readers and then drops placeholder columns, so no loaded column name starts with `Unnamed` |
| `Text.Strip` | ingest.py:177 | The result is a slice `s[a..b]` of the input whose two cut-off ends are whitespace only, and it neither starts nor ends with whitespace |
| `Text.StripIdempotent` | ingest.py:177 | Stripping twice is stripping once |
| `Text.StripEmptyIffBlank` | ingest.py:158 | A string strips to nothing exactly when all its characters are whitespace |
| `Text.SplitLines` | ingest.py:158 | No line contains a line break, and there are no lines exactly when the text is empty |
| `Text.SplitLinesRoundTrip` | ingest.py:158 | Putting back each line's terminator (`\n`, `\r`, `\r\n` or another `str.splitlines` boundary; none after the last line) gives the text back |
| `Cleaning.StripNames` | ingest.py:177 | Every column keeps its position and type, with its name stripped; rows are untouched |
| `Cleaning.DropPlaceholders` | app.py:104 | The header keeps exactly the columns whose name does not start with `Unnamed`, in order; every row keeps the same columns and its label |
| `Cleaning.ResetIndex` | ingest.py:179 | Same header and same rows in the same order, labelled 0..n-1 |
| `Cleaning.Clean` | ingest.py:177-179 | Row count unchanged and rows labelled 0..n-1; every output name is stripped and does not start with `Unnamed`; every column whose stripped name does not start with `Unnamed` is kept; surviving columns keep their relative order; each row keeps exactly the cells of the kept columns |
| `Cleaning.CleanAsWritten` | ingest.py:177-179 | `_clean` as written: the boolean mask indexes the columns by position while `.loc` looks labels up by name, so it succeeds exactly when the table has no column, and then equals the intended clean-up |
| `Cleaning.CleanAsWrittenLosesColumns` | ingest.py:177-178 | A table with a column whose stripped name is not a placeholder has a column after the intended clean-up, and raises in the clean-up as written |
| `Cleaning.CleanIdempotent` | ingest.py:177-179 | Cleaning a cleaned table changes nothing |
| `Cleaning.InlineCleanOnStrippedNames` | app.py:104 | When no name has surrounding whitespace, the app's inline drop plus re-labelling equals `_clean` |
| `Cleaning.InlineCleanKeepsPaddedPlaceholder` | app.py:104 | A column named `" Unnamed: 0"` survives the app's inline clean-up |
| `Cleaning.CleanDropsPaddedPlaceholder` | ingest.py:177-178 | The same column is dropped by `_clean`, which strips before matching |
| `Inference.InferTypes` | utils.py:10-12 | Numeric and text names are disjoint; every column is in one of them; every listed name is a column; numeric holds exactly the names of numeric-typed columns; both lists follow column order |
| `Inference.HintScanSound` | utils.py:76-84 | Every name the scan appends has a date hint in its lower-cased name, belongs to a column the probe accepts, and was not listed before |
| `Inference.HintScanComplete` | utils.py:77-84 | Every column with a date hint that the probe accepts ends up listed |
| `Inference.DetectDatetimeCols` | utils.py:64-90 | No name repeats; a name is listed exactly when its column is datetime-typed or is hinted and fully parses; all datetime-typed names come before the others; the datetime-typed names, and separately the others, follow column order |
| `Inference.CoerceDate` | utils.py:96 | The result is a timestamp or missing; it is a timestamp, the parsed one, exactly when the cell is present and parses |
| `Inference.EnsureDatetime` | utils.py:92-96 | A datetime series comes back unchanged; any other is converted cell by cell by the given parser, with unparseable values becoming missing; the length is kept |
| `Inference.EnsureDatetimeIdempotent` | utils.py:94-96 | Converting a converted series changes nothing |
| `Inference.EnsureDatetimeMissing` | utils.py:96 | After converting a non-datetime series, a cell is missing exactly when it was missing or did not parse |
| `Stats.MissingInCounts` | utils.py:25 | The missing count of a list of cells is the number of occurrences of `Missing` in it |
| `Stats.ColumnsEqualRows` | utils.py:25 | Summing missing cells column by column gives the same total as summing row by row |
| `Stats.NullsTotal` | utils.py:25 | The per-column sum equals the row-by-row missing count, and is zero exactly when no cell is missing |
| `Stats.RowStep` | utils.py:26 | A row is a repeat exactly when its cells appeared in an earlier row; each row adds its contents to the distinct rows and at most one repeat |
| `Stats.CountDuplicates` | utils.py:26 | A table without columns counts 0; otherwise the count is the number of rows equal to some earlier row, and repeats plus distinct rows make up all rows |
| `Stats.NumberSummary` | utils.py:29 | Count of present values; minimum and maximum are NaN exactly when none is present; otherwise min <= mean <= max and min <= median <= max |
| `Stats.Summarise` | utils.py:29 | An integer column is summarised by numbers and a boolean one by count and distinct values; the count never exceeds the row count |
| `Stats.DescribeNum` | utils.py:28-29 | None exactly when no column is numeric; otherwise one summary per described column, named after it; with no boolean columns every numeric column is described |
| `Stats.ValueCounts` | utils.py:34 | Each distinct text is listed once with its number of occurrences; every text is listed; counts do not increase down the list |
| `Stats.TopValues` | utils.py:34 | At most `n` entries, each a text of the column with its true count, with counts non-increasing |
| `Stats.TopValuesDistinct` | utils.py:34 | No text is listed twice |
| `Stats.TopValuesCutoff` | utils.py:34 | A text left out of the top `n` occurs no more often than any text listed |
| `Stats.TopValuesShortIsAll` | utils.py:34 | A list shorter than `n` leaves no text out |
| `Stats.ColumnTexts` | utils.py:34 | One text per row, the `astype(str)` text of its cell, so a missing cell counts as a category of its own |
| `Stats.TopCategories` | utils.py:31-36 | At most 10 entries |
| `Stats.TopCategoriesFirstTen` | utils.py:31-36 | The entries are, in table order, those of the first at most ten non-numeric columns; any non-numeric column left out lies to the right of ten listed ones |
| `Stats.BasicStats` | utils.py:14-37 | Shape is (rows, columns); the null total is the number of missing cells, zero exactly when none is; the duplicate count is 0 without columns and otherwise the number of rows repeating an earlier one, which with the distinct rows make up all rows; `describe` is the numeric summary, None exactly when no column is numeric; the category entries are those of the first ten text columns |
| `Reductions.LabelRoundTrip` | utils.py:44-51 | Every reduction is found again from its Portuguese label, and each label is one the app offers |
| `Reductions.HowMapUnknownIsSum` | utils.py:56 | A label outside the app's list selects the sum |
| `Reductions.Reduce` | utils.py:56-57 | NaN exactly for mean, median, min and max of a group with no values; sum is the total of the present values (0 for none); count is their number; max is a present value no smaller than any other, min one no larger; the mean times the count is the total; mean and median lie between min and max, and an odd-sized median is a present value |
| `Reductions.MeanOf` | utils.py:57 | The mean of a non-empty list lies between its minimum and maximum, and times the length gives the total |
| `Grouping.GroupBy` | utils.py:52-58 | Each distinct key occurs once; every output key is some row's key and every row's key is output; each group's value is computed from exactly the rows carrying its key |
| `Grouping.SizesAddUp` | utils.py:53 | Group sizes add up to the number of rows |
| `Grouping.SumsAddUp` | utils.py:57 | Group sums add up to the sum of all present values |
| `Grouping.CountsAddUp` | utils.py:57 | Group counts add up to the number of present values |
| `Aggregation.Aggregate` | utils.py:39-59 | Fails with `DuplicateColumn` exactly when the renamed output would have two `x` columns: in count mode (no `y`, or `contagem`) when `x` is `valor`, otherwise when `x` is `y`; else one `x`/`valor` row per distinct key, missing keys included, a group's value being in count mode the number of rows with its key and otherwise the chosen reduction of exactly those rows' values |
| `Aggregation.AggregateCountsAddUp` | utils.py:52-55 | In count mode the per-key counts add up to the row count |
| `Aggregation.AggregateSumsAddUp` | utils.py:56-58 | In sum mode the group sums add up to the sum of the value column |
| `Aggregation.AggregateUnknownHowIsSum` | utils.py:56 | An unknown `how` aggregates exactly like `soma` |
| `Aggregation.Stamped` | utils.py:114-122 | One (period, value) entry per row with a known date after conversion, each row's entry present |
| `Aggregation.StampedSound` | utils.py:114-122 | Every entry comes from a row with a known date, with that row's period and value |
| `Aggregation.Calendar` | utils.py:119-122 | The consecutive periods from the lowest key to the highest, each once; every key is among them; empty exactly when there is no key |
| `Aggregation.TimeAggregate` | utils.py:99-127 | Fails with `NoDates` exactly when the table has rows but none has a known date, since `resample` cannot lay bins between missing ends; otherwise succeeds with the resampled periods, empty exactly when the table has no rows, every dated row's period being output |
| `Aggregation.Resampled` | utils.py:114-127 | Empty exactly when no row has a known date; otherwise the consecutive periods from the first occupied one to the last, so every dated row's period is output; each period's value is the count or reduction of exactly its rows, with the same count-mode rule as `aggregate` |
| `Aggregation.TimeAggregateEmptyPeriods` | utils.py:118-122 | A period without dated rows is worth 0 in count mode and under `soma`, and NaN under `média`, `mediana`, `máximo` and `mínimo` |
| `Aggregation.TimeCountsAddUp` | utils.py:118-119 | In count mode the per-period counts add up to the number of rows with a known date |
| `Aggregation.TimeAggregateUnknownHowIsSum` | utils.py:118-122 | An unknown `how` aggregates by period exactly like `soma` |
| `Sorting.SortBy` | app.py:315 | The result is sorted ascending by the key and is a permutation of the input; the Top-N ranking uses it with `valor` descending, `value_counts` (utils.py:34) with the count descending, and the median with the value ascending |
| `Ranking.SortDesc` | app.py:315 | A permutation of the input with no row outranking an earlier one: numbers descending, NaN last |
| `Ranking.RankedCut` | app.py:315 | A prefix of a ranked list stays ranked, and nothing after the cut outranks anything before it |
| `Ranking.TopN` | app.py:314-315 | `n <= 0` keeps every row; otherwise exactly min(n, rows) rows, drawn from the input, ranked, with no row left out outranking a row kept |
| `Ranking.TopNLargeKeepsAll` | app.py:314-315 | A Top-N at least as large as the input keeps every row |
| `Filters.SecondFilterOptions` | app.py:226-229 | The second selector offers `(nenhum)` then every text column except the first choice, in order, and never the first choice |
| `Filters.CategoricalFilter` | app.py:221-224 | An empty selection changes nothing; otherwise a row is kept, as often as it occurs, exactly when its cell's text is selected; survivors keep their order and the header |
| `Filters.CategoricalFiltersCommute` | app.py:221-238 | The two categorical filters give the same rows in either order |
| `Filters.RangeFilter` | app.py:250-252 | A row is kept, as often as it occurs, exactly when its value is a number within `[lo, hi]`, both ends included; survivors keep their order |
| `Filters.ColumnRange` | app.py:248 | The slider bounds are the column's smallest and largest values, which bound every value; none when the column has no number |
| `Filters.FullRangeDropsOnlyMissing` | app.py:248-252 | The untouched slider drops exactly the rows without a number in the column |
| `Filters.ApplyFilters` | app.py:202-252 | The filter panel keeps the header and, in order, exactly the rows passing all three filters: each row occurs as often as in the input if it passes the categorical filters and the range, and not at all otherwise; nothing changes when every selector reads `(nenhum)` |
| `Filters.ApplyFiltersSwapCategorical` | app.py:210-238 | Swapping the two categorical selectors with their selections gives the same rows |
| `Charts.ChartInput` | app.py:304-333 | In time mode fails exactly when the table has rows but none has a known date; otherwise fails exactly when a category aggregation fails; bar, line, pie and time-series charts get grouped rows, all of them when `topn <= 0` and otherwise exactly min(`topn`, groups) of them, ranked, drawn from the groups, with no group left out outranking one kept; other kinds get the filtered table unchanged |
| `Charts.ChartInputLargeTopIsAll` | app.py:314-315 | A `topn` at least the number of groups keeps every group |

## Left out

- Streamlit widgets, page layout, styling, the preview, the CSV and PNG
  downloads: presentation only. The widgets' choices are parameters.
- Reading bytes from the upload and `seek`: file plumbing.
- The parsing done by `pd.read_csv`, `pd.ExcelFile`/`pd.read_excel`,
  `json.loads`, `pd.json_normalize` and `pd.to_datetime`. These are library
  code, so they are parameters of the model. The flattening of nested JSON
  keys is not modelled.
- UTF-8 decoding with `errors="ignore"`: the JSON readers start from the decoded text.
- `memory_mb`, and the standard deviation, quartiles and `round(3)` of
  `describe()`. These are float and memory introspection. The model's
  summary has the count, mean, minimum, median and maximum, computed exactly over reals.
  When every numeric column is boolean, `describe()` also reports the most
  frequent value (`top`) and its count (`freq`); the model's summary of such
  a column has only the count and the number of distinct values.
- Float columns and cells. Cells are integers, text, booleans, timestamps or missing.
- `Reductions.Reduce`: mean and median are exact reals, not IEEE doubles.
  The median's rank is not stated: the contract gives its bounds, and its
  membership among the values only when their number is odd.
- `Aggregation.TimeAggregate`: periods are whole numbers handed out by an
  abstract `bucket(freq, date)`, consecutive periods being consecutive
  numbers; `Charts.AsTimePoints` labels each period with an abstract
  `start(freq, period)`. Calendar rules for `D`, `W`, `M`, `Q` and `Y` are not modelled.
  The temporary `_dt` column is not modelled, so a table that already has a
  column named `_dt` is treated as if it had not.
- `Inference.EnsureDatetime`: `to_datetime(..., infer_datetime_format=True)`
  guesses one format from the first non-null value and applies it to the
  whole series, so a cell that another format would read can become NaT.
  The model parses each cell on its own with the `parse` parameter, which
  stands for pandas' reading of that cell; the format shared across a
  series is not modelled. The same holds for the date column of
  `Aggregation.TimeAggregate` and for the probe of `detect_datetime_cols`.
- `Aggregation.Aggregate`: the order of groups is not stated, since `groupby` sorts keys.
- `Ranking.TopN`: the order among rows with equal `valor` is not stated.
- `Tables.CellText`: a timestamp's text is `@` followed by its epoch count,
  not pandas' date format. Only equality of texts matters to the filters and
  counts. Every missing cell reads `nan`, whereas `astype(str)` writes `NaT`
  for a missing timestamp and `None` for a JSON null in an object column;
  the model does not tell these apart from `nan`.
- `Text.Lower`: folds ASCII letters only; Python's `str.lower` folds all of Unicode.
- Chart construction by `viz.plot_generic` and the palette: their behaviour
  is outside the pipeline; the model stops at the data handed to it.
- Column names are taken to be strings already, so `str(c)` is the identity.

## Findings

In `_clean` the mask `~pd.Series(df.columns)...` is a Series indexed by
position 0..n-1, and `.loc` aligns a boolean Series against the column
labels, which are names. No name is a position, so on every table with at
least one column the mask cannot be aligned and pandas raises. Every library
reader calls `_clean`. The app has its own readers and an inline clean-up
with a plain array mask, so the app itself is not affected.

| source | as written | input that shows it | evidently intended | confidence | as-written member | corrected member |
|---|---|---|---|---|---|---|
| ingest.py:178 | the boolean Series mask is aligned on column names and raises for any table with a column | the CSV `a,b` / `1,2` read into columns `a`, `b` | drop the columns whose stripped name starts with `Unnamed`, keep the others | high; not executed | `Cleaning.CleanAsWritten`, `Cleaning.CleanAsWrittenLosesColumns` | `Cleaning.Clean` |
| ingest.py:93-103 | `_clean` runs inside the `try`, so its error makes every attempt fail and the reader raises "CSV com encoding/separador não detectado." | the CSV `a,b` / `1,2` | return the first attempt that parses, cleaned | high; not executed | `Ingest.ReadCsvAsWritten`, `Ingest.CsvAsWrittenFailsWhereIntendedReads`, `Ingest.CsvTwoColumnSample` | `Ingest.ReadCsv` |
| ingest.py:124-127 | the first sheet is read, then `_clean` raises on it | a workbook whose first sheet has columns `a`, `b` | the first sheet, cleaned | high; not executed | `Ingest.ReadExcelAsWritten` | `Ingest.ReadExcel` |
| ingest.py:149-160 | the records are normalised, then `_clean` raises on the table | the JSON `[{"a": 1, "b": 2}]` | the normalised table, cleaned | high; not executed | `Ingest.ReadJsonAsWritten` | `Ingest.ReadJson` |
| ingest.py:38-63 | every reader it routes to fails on a table with a column, so it returns only tables without columns | `data.csv` holding `a,b` / `1,2` | the routed reader's cleaned table | high; not executed | `Ingest.ReadAnyAsWritten`, `Ingest.ReadAnyAsWrittenLosesColumns` | `Ingest.ReadAny` |

=== FILE: aggregate.dfy ===
/** `aggregate` and `time_aggregate`: the two-column tables ("x", "valor")
    behind the bar, line and pie charts. */
module Aggregation {
  import opened Wrappers
  import opened Seqs
  import opened Tables
  import opened Inference
  import opened Reductions
  import opened Grouping

  /** A cell as an input to a reduction; missing and non-numeric cells are
      skipped the way NaN is. */
  function ValueOf(c: Cell): Option<real> {
    match NumericValue(c)
    case Some(n) => Some(n as real)
    case None => None
  }

  function Values(cells: seq<Cell>): (r: seq<Option<real>>)
    ensures |r| == |cells|
    ensures forall i :: 0 <= i < |cells| ==> r[i] == ValueOf(cells[i])
  {
    seq(|cells|, i requires 0 <= i < |cells| => ValueOf(cells[i]))
  }

  /** Without a value column, or with "contagem", rows are counted with
      `size()`, so a row counts even where the value column is missing. */
  predicate CountsRows(y: Option<string>, how: string) {
    y.None? || how == "contagem"
  }

  function ModeOf(y: Option<string>, how: string): Mode {
    if CountsRows(y, how) then Size else Apply(HowMap(how))
  }

  /** The cells of the column called `x`. */
  function Named(t: Table, x: string): (r: seq<Cell>)
    requires x in Names(t.header)
    ensures |r| == |t.rows|
  {
    Column(t, ColumnIndex(t.header, x))
  }

  /** The values a request reduces: the value column's numbers, or nothing
      when rows are only counted. */
  function ValueColumn(t: Table, y: Option<string>, how: string): (r: seq<Option<real>>)
    requires y.Some? ==> y.value in Names(t.header)
    ensures |r| == |t.rows|
  {
    if CountsRows(y, how) then seq(|t.rows|, i => None)
    else Values(Named(t, y.value))
  }

  /** `reset_index()` inserts the group key as a column beside the values:
      the value column is called "valor" when rows are counted and keeps the
      name `y` otherwise. */
  function ValueName(y: Option<string>, how: string): string {
    if CountsRows(y, how) then "valor" else y.value
  }

  /** pandas refuses to insert a column whose name is taken
      ("cannot insert x, already exists"). */
  datatype AggError = DuplicateColumn(name: string) | NoDates

  /** `aggregate(df, x, y, how)`: one row per distinct value of column `x`
      (missing values forming their own group). When rows are counted a
      group's value is the number of rows holding its key; otherwise it is
      the chosen reduction of exactly those rows' values. It fails when the
      key column's name is the value column's, which the app allows by
      offering numeric columns for both axes. */
  function Aggregate(t: Table, x: string, y: Option<string>, how: string): (r: Result<seq<Point<Cell>>, AggError>)
    requires x in Names(t.header)
    requires y.Some? ==> y.value in Names(t.header)
    ensures r.Failure? <==> (if CountsRows(y, how) then x == "valor" else x == y.value)
    ensures r.Failure? ==> r.error == DuplicateColumn(x)
    ensures r.Success? ==> NoDuplicates(Xs(r.value))
    ensures r.Success? ==> forall g :: 0 <= g < |r.value| ==> r.value[g].x in Named(t, x)
    ensures r.Success? ==> forall i :: 0 <= i < |t.rows| ==> Named(t, x)[i] in Xs(r.value)
    ensures r.Success? && CountsRows(y, how) ==>
      forall g :: 0 <= g < |r.value| ==> r.value[g].value == Num(multiset(Named(t, x))[r.value[g].x] as real)
    ensures r.Success? && !CountsRows(y, how) ==>
      forall g :: 0 <= g < |r.value| ==>
        r.value[g].value == Reduce(HowMap(how), Members(Named(t, x), ValueColumn(t, y, how), r.value[g].x))
  {
    if x == ValueName(y, how) then Failure(DuplicateColumn(x))
    else Success(GroupBy(Named(t, x), ValueColumn(t, y, how), ModeOf(y, how)))
  }

  /** Counting groups accounts for every row exactly once. */
  lemma AggregateCountsAddUp(t: Table, x: string, y: Option<string>, how: string)
    requires x in Names(t.header)
    requires y.Some? ==> y.value in Names(t.header)
    requires CountsRows(y, how)
    ensures Aggregate(t, x, y, how).Success? ==> PointsTotal(Aggregate(t, x, y, how).value) == |t.rows| as real
  {
    SizesAddUp(Named(t, x), ValueColumn(t, y, how));
  }

  /** The group sums add up to the sum of the whole value column. */
  lemma AggregateSumsAddUp(t: Table, x: string, y: string, how: string)
    requires x in Names(t.header) && y in Names(t.header)
    requires HowMap(how) == Sum && how != "contagem"
    ensures Aggregate(t, x, Some(y), how).Success? ==>
      PointsTotal(Aggregate(t, x, Some(y), how).value) == Total(Present(Values(Named(t, y))))
  {
    SumsAddUp(Named(t, x), ValueColumn(t, Some(y), how));
  }

  /** An unknown label aggregates exactly as "soma" does. */
  lemma AggregateUnknownHowIsSum(t: Table, x: string, y: Option<string>, how: string)
    requires x in Names(t.header)
    requires y.Some? ==> y.value in Names(t.header)
    requires how !in Labels
    ensures Aggregate(t, x, y, how) == Aggregate(t, x, y, "soma")
  {
    HowMapUnknownIsSum(how);
    assert CountsRows(y, how) == CountsRows(y, "soma");
    assert ValueName(y, how) == ValueName(y, "soma");
    assert ValueColumn(t, y, how) == ValueColumn(t, y, "soma");
  }

  // ---------------------------------------------------------- by period

  predicate IsTime(c: Cell) { c.Time? }

  /** The date column after `ensure_datetime`. */
  function Dates(t: Table, dateCol: string, parse: Cell -> Option<int>): (r: seq<Cell>)
    requires dateCol in Names(t.header)
    ensures |r| == |t.rows|
  {
    var j := ColumnIndex(t.header, dateCol);
    EnsureDatetime(Series(t.header[j].dtype, Column(t, j)), parse).values
  }

  /** The period and value of every row whose date is known, in row order;
      a row whose date is missing belongs to no period (`StampedSound`). */
  function Stamped(dates: seq<Cell>, vals: seq<Option<real>>, freq: string, bucket: (string, int) -> int): (r: seq<(int, Option<real>)>)
    requires |dates| == |vals|
    ensures |r| == |Filter(dates, IsTime)|
    ensures forall i :: 0 <= i < |dates| && dates[i].Time? ==> (bucket(freq, dates[i].ns), vals[i]) in r
  {
    if |dates| == 0 then []
    else
      var rest := Stamped(dates[1..], vals[1..], freq, bucket);
      var head := if dates[0].Time? then [(bucket(freq, dates[0].ns), vals[0])] else [];
      assert forall i :: 1 <= i < |dates| ==> dates[i] == dates[1..][i - 1] && vals[i] == vals[1..][i - 1];
      head + rest
  }

  /** `e` is the (period, value) entry of some row with a known date. */
  predicate FromDatedRow(dates: seq<Cell>, vals: seq<Option<real>>, freq: string, bucket: (string, int) -> int,
                         e: (int, Option<real>))
    requires |dates| == |vals|
  {
    exists i :: 0 <= i < |dates| && dates[i].Time? && e == (bucket(freq, dates[i].ns), vals[i])
  }

  /** Every stamped entry comes from a row with a known date. */
  lemma StampedSound(dates: seq<Cell>, vals: seq<Option<real>>, freq: string, bucket: (string, int) -> int)
    requires |dates| == |vals|
    ensures forall k :: 0 <= k < |Stamped(dates, vals, freq, bucket)| ==>
      FromDatedRow(dates, vals, freq, bucket, Stamped(dates, vals, freq, bucket)[k])
  {
    var st := Stamped(dates, vals, freq, bucket);
    forall k | 0 <= k < |st|
      ensures FromDatedRow(dates, vals, freq, bucket, st[k])
    {
      var i := StampedEntry(dates, vals, freq, bucket, k);
      assert dates[i].Time? && st[k] == (bucket(freq, dates[i].ns), vals[i]);
    }
  }

  /** The row entry `k` of the stamped list comes from. */
  lemma {:induction false} StampedEntry(dates: seq<Cell>, vals: seq<Option<real>>, freq: string, bucket: (string, int) -> int, k: nat)
    returns (i: nat)
    requires |dates| == |vals| && k < |Stamped(dates, vals, freq, bucket)|
    ensures i < |dates| && dates[i].Time? && Stamped(dates, vals, freq, bucket)[k] == (bucket(freq, dates[i].ns), vals[i])
    decreases |dates|
  {
    var rest := Stamped(dates[1..], vals[1..], freq, bucket);
    var head := if dates[0].Time? then [(bucket(freq, dates[0].ns), vals[0])] else [];
    assert Stamped(dates, vals, freq, bucket) == head + rest;
    if k < |head| {
      i := 0;
    } else {
      var m := StampedEntry(dates[1..], vals[1..], freq, bucket, k - |head|);
      assert dates[1..][m] == dates[m + 1] && vals[1..][m] == vals[m + 1];
      i := m + 1;
    }
  }

  /** The periods of a list of (period, value) stamps, in order. */
  function Keys(st: seq<(int, Option<real>)>): (r: seq<int>)
    ensures |r| == |st|
    ensures forall k :: 0 <= k < |st| ==> r[k] == st[k].0
  {
    seq(|st|, k requires 0 <= k < |st| => st[k].0)
  }

  function StampValues(st: seq<(int, Option<real>)>): (r: seq<Option<real>>)
    ensures |r| == |st|
    ensures forall k :: 0 <= k < |st| ==> r[k] == st[k].1
  {
    seq(|st|, k requires 0 <= k < |st| => st[k].1)
  }

  /** The rows of a time aggregation that carry a known date. */
  function Periods(t: Table, dateCol: string, y: Option<string>, how: string, freq: string,
                   parse: Cell -> Option<int>, bucket: (string, int) -> int): seq<(int, Option<real>)>
    requires dateCol in Names(t.header)
    requires y.Some? ==> y.value in Names(t.header)
  {
    Stamped(Dates(t, dateCol, parse), ValueColumn(t, y, how), freq, bucket)
  }

  // `Lowest` and `Highest` are `Reductions.MinOf` and `MaxOf` over `int`
  // periods instead of `real` values: Dafny has no ordering bound on type
  // parameters that one generic definition could use.

  /** The earliest of some periods. */
  function Lowest(ks: seq<int>): (r: int)
    requires |ks| > 0
    ensures r in ks && forall k :: k in ks ==> r <= k
  {
    if |ks| == 1 then ks[0]
    else
      var m := Lowest(ks[1..]);
      assert forall k :: k in ks ==> k == ks[0] || k in ks[1..];
      if ks[0] <= m then ks[0] else m
  }

  /** The latest of some periods. */
  function Highest(ks: seq<int>): (r: int)
    requires |ks| > 0
    ensures r in ks && forall k :: k in ks ==> k <= r
  {
    if |ks| == 1 then ks[0]
    else
      var m := Highest(ks[1..]);
      assert forall k :: k in ks ==> k == ks[0] || k in ks[1..];
      if ks[0] >= m then ks[0] else m
  }

  /** The consecutive periods `lo`, `lo + 1`, ..., `hi`. */
  function Span(lo: int, hi: int): (r: seq<int>)
    requires lo <= hi
    ensures |r| == hi - lo + 1
    ensures forall g :: 0 <= g < |r| ==> r[g] == lo + g
  {
    seq(hi - lo + 1, g => lo + g)
  }

  /** The periods `resample` reports: every period from the earliest occupied
      one to the latest, occupied or not; none when no row is dated. */
  function Calendar(keys: seq<int>): (r: seq<int>)
    ensures |r| == 0 <==> |keys| == 0
    ensures |r| > 0 ==> r[0] in keys && r[|r| - 1] in keys
    ensures forall g :: 0 <= g < |r| ==> r[g] == r[0] + g
    ensures forall k :: k in keys ==> k in r
    ensures NoDuplicates(r)
  {
    if |keys| == 0 then []
    else
      var lo, hi := Lowest(keys), Highest(keys);
      var r := Span(lo, hi);
      forall k | k in keys
        ensures k in r
      {
        assert r[k - lo] == k;
      }
      r
  }

  /** `time_aggregate`. `resample` lays its bins from the earliest to the
      latest date. When the table has rows but none of them has a known date,
      both ends are NaT and pandas refuses to build the bins (`NoDates`); a
      table without rows gives an empty result. */
  function TimeAggregate(t: Table, dateCol: string, y: Option<string>, how: string, freq: string,
                         parse: Cell -> Option<int>, bucket: (string, int) -> int): (r: Result<seq<Point<int>>, AggError>)
    requires dateCol in Names(t.header)
    requires y.Some? ==> y.value in Names(t.header)
    ensures r.Failure? <==> |t.rows| > 0 && NoneDated(Dates(t, dateCol, parse))
    ensures r.Failure? ==> r.error == NoDates
    ensures r.Success? ==> (|r.value| == 0 <==> |t.rows| == 0)
    ensures r.Success? ==> r.value == Resampled(t, dateCol, y, how, freq, parse, bucket)
    ensures r.Success? ==> forall i :: 0 <= i < |t.rows| && Dates(t, dateCol, parse)[i].Time? ==>
      bucket(freq, Dates(t, dateCol, parse)[i].ns) in Xs(r.value)
  {
    if |t.rows| > 0 && NoneDated(Dates(t, dateCol, parse)) then Failure(NoDates)
    else Success(Resampled(t, dateCol, y, how, freq, parse, bucket))
  }

  /** The bins of `time_aggregate` when they can be built: the rows with a
      known date grouped by the period `bucket(freq, date)` they fall in.
      Periods are numbered so that consecutive periods have consecutive
      numbers. As `resample` does, the output has one row for every period
      from the earliest to the latest occupied one, in increasing order,
      empty periods included. A period's value is the count of its rows or
      the chosen reduction of exactly their values (`TimeAggregateEmptyPeriods`
      for the empty ones). */
  function Resampled(t: Table, dateCol: string, y: Option<string>, how: string, freq: string,
                     parse: Cell -> Option<int>, bucket: (string, int) -> int): (r: seq<Point<int>>)
    requires dateCol in Names(t.header)
    requires y.Some? ==> y.value in Names(t.header)
    ensures |r| == 0 <==> NoneDated(Dates(t, dateCol, parse))
    ensures forall g :: 0 <= g < |r| ==> r[g].x == r[0].x + g
    ensures |r| > 0 ==> (r[0].x in Keys(Periods(t, dateCol, y, how, freq, parse, bucket))
                         && r[|r| - 1].x in Keys(Periods(t, dateCol, y, how, freq, parse, bucket)))
    ensures forall i :: 0 <= i < |t.rows| && Dates(t, dateCol, parse)[i].Time? ==>
      bucket(freq, Dates(t, dateCol, parse)[i].ns) in Xs(r)
    ensures forall g :: 0 <= g < |r| ==>
      r[g].value == GroupValue(ModeOf(y, how), Members(Keys(Periods(t, dateCol, y, how, freq, parse, bucket)),
                                                       StampValues(Periods(t, dateCol, y, how, freq, parse, bucket)), r[g].x))
  {
    PeriodsFacts(t, dateCol, y, how, freq, parse, bucket);
    ByPeriod(Periods(t, dateCol, y, how, freq, parse, bucket), ModeOf(y, how))
  }

  /** The stamps of a time aggregation: none exactly when no row is dated,
      and the period of every dated row among them. */
  lemma PeriodsFacts(t: Table, dateCol: string, y: Option<string>, how: string, freq: string,
                     parse: Cell -> Option<int>, bucket: (string, int) -> int)
    requires dateCol in Names(t.header)
    requires y.Some? ==> y.value in Names(t.header)
    ensures |Periods(t, dateCol, y, how, freq, parse, bucket)| == 0 <==> NoneDated(Dates(t, dateCol, parse))
    ensures forall i :: 0 <= i < |t.rows| && Dates(t, dateCol, parse)[i].Time? ==>
      bucket(freq, Dates(t, dateCol, parse)[i].ns) in Keys(Periods(t, dateCol, y, how, freq, parse, bucket))
  {
    var dates, vals := Dates(t, dateCol, parse), ValueColumn(t, y, how);
    StampedKeys(dates, vals, freq, bucket);
    NoDatedRows(dates, vals, freq, bucket);
  }

  /** One output row per period of the calendar of the stamps, with the
      group value of exactly the stamps of that period. */
  function ByPeriod(st: seq<(int, Option<real>)>, mode: Mode): (r: seq<Point<int>>)
    ensures |r| == 0 <==> |st| == 0
    ensures forall g :: 0 <= g < |r| ==> r[g].x == r[0].x + g
    ensures |r| > 0 ==> r[0].x in Keys(st) && r[|r| - 1].x in Keys(st)
    ensures forall k :: k in Keys(st) ==> k in Xs(r)
    ensures forall g :: 0 <= g < |r| ==> r[g].value == GroupValue(mode, Members(Keys(st), StampValues(st), r[g].x))
  {
    var ds := Calendar(Keys(st));
    var r := Groups(Keys(st), StampValues(st), ds, mode);
    assert Xs(r) == ds;
    r
  }

  /** No date is known. */
  predicate NoneDated(dates: seq<Cell>) {
    forall i :: 0 <= i < |dates| ==> !dates[i].Time?
  }

  /** There are no stamps exactly when no row is dated. */
  lemma NoDatedRows(dates: seq<Cell>, vals: seq<Option<real>>, freq: string, bucket: (string, int) -> int)
    requires |dates| == |vals|
    ensures |Stamped(dates, vals, freq, bucket)| == 0 <==> NoneDated(dates)
  {
    var st := Stamped(dates, vals, freq, bucket);
    if |st| > 0 {
      var i := StampedEntry(dates, vals, freq, bucket, 0);
    } else {
      StampedKeys(dates, vals, freq, bucket);
    }
  }

  /** The period of every row with a known date is among the stamped keys. */
  lemma StampedKeys(dates: seq<Cell>, vals: seq<Option<real>>, freq: string, bucket: (string, int) -> int)
    requires |dates| == |vals|
    ensures forall i :: 0 <= i < |dates| && dates[i].Time? ==> bucket(freq, dates[i].ns) in Keys(Stamped(dates, vals, freq, bucket))
  {
    var st := Stamped(dates, vals, freq, bucket);
    forall i | 0 <= i < |dates| && dates[i].Time?
      ensures bucket(freq, dates[i].ns) in Keys(st)
    {
      assert (bucket(freq, dates[i].ns), vals[i]) in st;
      var k :| 0 <= k < |st| && st[k] == (bucket(freq, dates[i].ns), vals[i]);
      assert Keys(st)[k] == bucket(freq, dates[i].ns);
    }
  }

  /** A period without rows counts 0 and sums to 0; its mean, median, maximum
      and minimum are NaN. */
  lemma TimeAggregateEmptyPeriods(t: Table, dateCol: string, y: Option<string>, how: string, freq: string,
                                  parse: Cell -> Option<int>, bucket: (string, int) -> int)
    requires dateCol in Names(t.header)
    requires y.Some? ==> y.value in Names(t.header)
    ensures var a := TimeAggregate(t, dateCol, y, how, freq, parse, bucket);
      a.Success? ==> forall g :: 0 <= g < |a.value| && a.value[g].x !in Keys(Periods(t, dateCol, y, how, freq, parse, bucket)) ==>
        a.value[g].value == if CountsRows(y, how) || HowMap(how) == Sum then Num(0.0) else NaN
  {
    var st := Periods(t, dateCol, y, how, freq, parse, bucket);
    var mode := ModeOf(y, how);
    var r := Resampled(t, dateCol, y, how, freq, parse, bucket);
    ResampledByPeriod(t, dateCol, y, how, freq, parse, bucket);
    ByPeriodEmpty(st, mode);
    ZeroModes(y, how);
    forall g | 0 <= g < |r| && r[g].x !in Keys(st)
      ensures r[g].value == if CountsRows(y, how) || HowMap(how) == Sum then Num(0.0) else NaN
    {
      assert r[g].value == if mode == Size || mode == Apply(Sum) || mode == Apply(Count) then Num(0.0) else NaN;
    }
  }

  /** The modes in which an empty group is worth 0 rather than NaN. */
  lemma ZeroModes(y: Option<string>, how: string)
    ensures var mode := ModeOf(y, how);
      (mode == Size || mode == Apply(Sum) || mode == Apply(Count)) <==> (CountsRows(y, how) || HowMap(how) == Sum)
  {
  }

  lemma ResampledByPeriod(t: Table, dateCol: string, y: Option<string>, how: string, freq: string,
                          parse: Cell -> Option<int>, bucket: (string, int) -> int)
    requires dateCol in Names(t.header)
    requires y.Some? ==> y.value in Names(t.header)
    ensures Resampled(t, dateCol, y, how, freq, parse, bucket)
         == ByPeriod(Periods(t, dateCol, y, how, freq, parse, bucket), ModeOf(y, how))
  {
  }

  /** The value of every period of the calendar that no stamp falls in. */
  lemma ByPeriodEmpty(st: seq<(int, Option<real>)>, mode: Mode)
    ensures var r := ByPeriod(st, mode);
      forall g :: 0 <= g < |r| && r[g].x !in Keys(st) ==>
        r[g].value == if mode == Size || mode == Apply(Sum) || mode == Apply(Count) then Num(0.0) else NaN
  {
    var r := ByPeriod(st, mode);
    forall g | 0 <= g < |r| && r[g].x !in Keys(st)
      ensures r[g].value == if mode == Size || mode == Apply(Sum) || mode == Apply(Count) then Num(0.0) else NaN
    {
      EmptyGroupValue(Keys(st), StampValues(st), r[g].x, mode);
    }
  }

  /** The group of a key no row carries: 0 rows, a sum of 0, NaN otherwise. */
  lemma EmptyGroupValue(keys: seq<int>, vals: seq<Option<real>>, k: int, mode: Mode)
    requires |keys| == |vals| && k !in keys
    ensures GroupValue(mode, Members(keys, vals, k)) ==
      if mode == Size || mode == Apply(Sum) || mode == Apply(Count) then Num(0.0) else NaN
  {
    var m := Members(keys, vals, k);
    assert k !in multiset(keys);
    assert |m| == 0;
    assert Present(m) == [];
  }

  /** Counting by period accounts for every row with a known date exactly once. */
  lemma TimeCountsAddUp(t: Table, dateCol: string, y: Option<string>, how: string, freq: string,
                        parse: Cell -> Option<int>, bucket: (string, int) -> int)
    requires dateCol in Names(t.header)
    requires y.Some? ==> y.value in Names(t.header)
    requires CountsRows(y, how)
    ensures TimeAggregate(t, dateCol, y, how, freq, parse, bucket).Success? ==>
      PointsTotal(TimeAggregate(t, dateCol, y, how, freq, parse, bucket).value)
         == |Filter(Dates(t, dateCol, parse), IsTime)| as real
  {
    var st := Periods(t, dateCol, y, how, freq, parse, bucket);
    var keys, vals := Keys(st), StampValues(st);
    var ds := Calendar(keys);
    forall d | d in ds
      ensures GroupValue(Size, Members(keys, vals, d)) == Num(Weight(Members(keys, vals, d), One))
    {
      WeightOne(Members(keys, vals, d));
    }
    PointsTotalGroups(keys, vals, ds, Size, One);
    GroupWeightsCover(keys, vals, ds, One);
    WeightOne(vals);
  }

  /** An unknown label aggregates by period exactly as "soma" does. */
  lemma TimeAggregateUnknownHowIsSum(t: Table, dateCol: string, y: Option<string>, how: string, freq: string,
                                     parse: Cell -> Option<int>, bucket: (string, int) -> int)
    requires dateCol in Names(t.header)
    requires y.Some? ==> y.value in Names(t.header)
    requires how !in Labels
    ensures TimeAggregate(t, dateCol, y, how, freq, parse, bucket)
         == TimeAggregate(t, dateCol, y, "soma", freq, parse, bucket)
  {
    HowMapUnknownIsSum(how);
    assert CountsRows(y, how) == CountsRows(y, "soma");
    assert ModeOf(y, how) == ModeOf(y, "soma");
    assert ValueColumn(t, y, how) == ValueColumn(t, y, "soma");
    assert Periods(t, dateCol, y, how, freq, parse, bucket) == Periods(t, dateCol, y, "soma", freq, parse, bucket);
  }
}

=== FILE: charts.dfy ===
/** What the "generate chart" button hands to the plotting code: the grouped
    ("x", "valor") rows for bar, line and pie charts, optionally grouped by
    period and cut to the top N, or the filtered table itself otherwise. */
module Charts {
  import opened Wrappers
  import opened Tables
  import opened Reductions
  import opened Grouping
  import opened Ranking
  import opened Aggregation
  import opened Filters

  /** The chart kinds whose data are aggregated and offered a Top-N cut. */
  predicate Aggregates(kind: string) {
    kind == "Barras" || kind == "Linha" || kind == "Pizza"
  }

  /** The chart kinds that may be drawn as a time series. */
  predicate AllowsTime(kind: string) {
    kind == "Linha" || kind == "Barras"
  }

  /** The value column picked in the Y selector, if any. */
  function YColumn(y: string): Option<string> {
    if y == NoChoice then None else Some(y)
  }

  /** The chart settings read from the page. */
  datatype Request = Request(
    kind: string, useTime: bool, dateCol: string, freq: string,
    x: string, y: string, how: string, topn: int)

  predicate ValidRequest(t: Table, q: Request) {
    (q.useTime ==> AllowsTime(q.kind) && q.dateCol in Names(t.header)) &&
    (!q.useTime && Aggregates(q.kind) ==> q.x in Names(t.header)) &&
    (q.y != NoChoice ==> q.y in Names(t.header))
  }

  datatype ChartData = Grouped(points: seq<Point<Cell>>) | Plain(table: Table)

  /** Period number `k` shown on the x axis as the timestamp `start(freq, k)`
      that `resample` labels it with. */
  function AsTimePoints(ps: seq<Point<int>>, freq: string, start: (string, int) -> int): (r: seq<Point<Cell>>)
    ensures |r| == |ps|
    ensures forall i :: 0 <= i < |ps| ==> r[i] == Point(Time(start(freq, ps[i].x)), ps[i].value)
  {
    seq(|ps|, i requires 0 <= i < |ps| => Point(Time(start(freq, ps[i].x)), ps[i].value))
  }

  /** The chart data, before the Top-N cut: by period, or by category, which
      can fail (`Aggregate`). */
  function AllGroups(t: Table, q: Request, parse: Cell -> Option<int>, bucket: (string, int) -> int,
                     start: (string, int) -> int): (r: Result<seq<Point<Cell>>, AggError>)
    requires ValidRequest(t, q)
    requires q.useTime || Aggregates(q.kind)
    ensures r.Failure? <==> if q.useTime then TimeAggregate(t, q.dateCol, YColumn(q.y), q.how, q.freq, parse, bucket).Failure?
                            else Aggregate(t, q.x, YColumn(q.y), q.how).Failure?
  {
    var y := YColumn(q.y);
    assert y.Some? ==> y.value in Names(t.header);
    if q.useTime then
      match TimeAggregate(t, q.dateCol, y, q.how, q.freq, parse, bucket)
      case Failure(e) => Failure(e)
      case Success(ps) => Success(AsTimePoints(ps, q.freq, start))
    else Aggregate(t, q.x, y, q.how)
  }

  /** The data the chart is drawn from. Bar, line and pie charts get grouped
      rows, cut to the `topn` best when `topn` is positive and all groups
      otherwise; the other kinds get the filtered table unchanged. A failed
      aggregation is the "Falha" the page shows. */
  function ChartInput(t: Table, q: Request, parse: Cell -> Option<int>, bucket: (string, int) -> int,
                      start: (string, int) -> int): (r: Result<ChartData, AggError>)
    requires ValidRequest(t, q)
    ensures q.useTime ==> (r.Failure? <==> |t.rows| > 0 && NoneDated(Dates(t, q.dateCol, parse)))
    ensures !q.useTime ==> (r.Failure? <==> Aggregates(q.kind) && Aggregate(t, q.x, YColumn(q.y), q.how).Failure?)
    ensures r.Success? ==> (r.value.Plain? <==> !q.useTime && !Aggregates(q.kind))
    ensures r.Success? && r.value.Plain? ==> r.value.table == t
    ensures r.Success? && r.value.Grouped? ==>
      var all := AllGroups(t, q, parse, bucket, start);
      all.Success? && TopCut(all.value, r.value.points, q.topn)
  {
    if q.useTime || Aggregates(q.kind) then
      match AllGroups(t, q, parse, bucket, start)
      case Failure(e) => Failure(e)
      case Success(gs) => Success(Grouped(TopN(gs, q.topn)))
    else Success(Plain(t))
  }

  /** A Top-N at least as large as the number of groups keeps every group. */
  lemma ChartInputLargeTopIsAll(t: Table, q: Request, parse: Cell -> Option<int>, bucket: (string, int) -> int,
                                start: (string, int) -> int)
    requires ValidRequest(t, q)
    requires q.useTime || Aggregates(q.kind)
    ensures var r := ChartInput(t, q, parse, bucket, start);
      var all := AllGroups(t, q, parse, bucket, start);
      r.Success? && all.Success? && q.topn >= |all.value| ==> multiset(r.value.points) == multiset(all.value)
  {
    var all := AllGroups(t, q, parse, bucket, start);
    if all.Success? && q.topn >= |all.value| {
      TopNLargeKeepsAll(all.value, q.topn);
    }
  }
}

=== FILE: clean.dfy ===
/** The light clean-up applied to every freshly parsed table: trimmed column
    names, no `Unnamed...` placeholder columns, rows re-labelled 0..n-1. */
module Cleaning {
  import opened Text
  import opened Seqs
  import opened Wrappers
  import opened Tables

  /** pandas names index-like columns written by an earlier export `Unnamed: <k>`;
      the regular expression `^Unnamed` matches any name with that prefix. */
  predicate IsPlaceholder(name: string) {
    StartsWith(name, "Unnamed")
  }

  predicate IsKept(h: Header) {
    !IsPlaceholder(h.name)
  }

  function KeepMask(hs: seq<Header>): (r: seq<bool>)
    ensures |r| == |hs|
    ensures forall j :: 0 <= j < |hs| ==> r[j] == IsKept(hs[j])
  {
    seq(|hs|, j requires 0 <= j < |hs| => IsKept(hs[j]))
  }

  function StripHeader(h: Header): Header {
    Header(Strip(h.name), h.dtype)
  }

  /** `df.columns = [str(c).strip() for c in df.columns]`. */
  function StripNames(t: Table): (r: Table)
    ensures |r.header| == |t.header| && r.rows == t.rows
    ensures forall j :: 0 <= j < |t.header| ==> r.header[j] == StripHeader(t.header[j])
  {
    Frame(seq(|t.header|, j requires 0 <= j < |t.header| => StripHeader(t.header[j])), t.rows)
  }

  /** `df.loc[:, ~names.str.match("^Unnamed")]`: drops the placeholder columns from
      the header and from every row alike, keeping row labels. */
  function DropPlaceholders(t: Table): (r: Table)
    ensures r.header == Filter(t.header, IsKept)
    ensures |r.rows| == |t.rows|
    ensures forall i :: 0 <= i < |t.rows| ==>
      r.rows[i] == Row(t.rows[i].index, Select(t.rows[i].cells, KeepMask(t.header)))
  {
    var mask := KeepMask(t.header);
    SelectByPredicate(t.header, mask, IsKept);
    var rows := seq(|t.rows|, i requires 0 <= i < |t.rows| =>
      Row(t.rows[i].index, Select(t.rows[i].cells, mask)));
    Frame(Select(t.header, mask), rows)
  }

  /** `reset_index(drop=True)`. */
  function ResetIndex(t: Table): (r: Table)
    ensures r.header == t.header && |r.rows| == |t.rows|
    ensures forall i :: 0 <= i < |t.rows| ==> r.rows[i] == Row(i, t.rows[i].cells)
  {
    Frame(t.header, Reindex(t.rows))
  }

  /** The clean-up of the reading library: strip names, drop placeholders,
      reset the index. */
  function Clean(t: Table): (r: Table)
    ensures |r.rows| == |t.rows|
    ensures forall i :: 0 <= i < |r.rows| ==> r.rows[i].index == i
    ensures forall h :: h in r.header ==> IsStripped(h.name) && !IsPlaceholder(h.name)
    ensures forall j :: 0 <= j < |t.header| && !IsPlaceholder(Strip(t.header[j].name)) ==>
      StripHeader(t.header[j]) in r.header
    ensures SubsequenceOf(r.header, StripNames(t).header)
    ensures forall i :: 0 <= i < |t.rows| ==>
      r.rows[i].cells == Select(t.rows[i].cells, KeepMask(StripNames(t).header))
  {
    CleanFacts(t);
    ResetIndex(DropPlaceholders(StripNames(t)))
  }

  lemma {:induction false} CleanFacts(t: Table)
    ensures var r := ResetIndex(DropPlaceholders(StripNames(t)));
      && (forall h :: h in r.header ==> IsStripped(h.name) && !IsPlaceholder(h.name))
      && (forall j :: 0 <= j < |t.header| && !IsPlaceholder(Strip(t.header[j].name)) ==>
            StripHeader(t.header[j]) in r.header)
      && SubsequenceOf(r.header, StripNames(t).header)
  {
    var s := StripNames(t);
    FilterIsSubsequence(s.header, IsKept);
    KeptNamesComplete(t);
    KeptNamesSound(t);
  }

  lemma KeptNamesComplete(t: Table)
    ensures forall j :: 0 <= j < |t.header| && !IsPlaceholder(Strip(t.header[j].name)) ==>
      StripHeader(t.header[j]) in Filter(StripNames(t).header, IsKept)
  {
    var s := StripNames(t);
    forall j | 0 <= j < |t.header| && !IsPlaceholder(Strip(t.header[j].name))
      ensures StripHeader(t.header[j]) in Filter(s.header, IsKept)
    {
      assert s.header[j] in s.header;
      FilterComplete(s.header, IsKept, s.header[j]);
    }
  }

  lemma KeptNamesSound(t: Table)
    ensures forall h :: h in Filter(StripNames(t).header, IsKept) ==> IsStripped(h.name) && !IsPlaceholder(h.name)
  {
    var s := StripNames(t);
    forall h | h in Filter(s.header, IsKept)
      ensures IsStripped(h.name) && !IsPlaceholder(h.name)
    {
      assert h in s.header && IsKept(h);
      var j :| 0 <= j < |s.header| && s.header[j] == h;
      assert h == StripHeader(t.header[j]);
    }
  }

  /** Names without surrounding whitespace are left as they are. */
  lemma {:induction false} StripNamesNoop(t: Table)
    requires forall h :: h in t.header ==> IsStripped(h.name)
    ensures StripNames(t) == t
  {
    forall j | 0 <= j < |t.header|
      ensures StripNames(t).header[j] == t.header[j]
    {
      assert t.header[j] in t.header;
      StripStripped(t.header[j].name);
    }
  }

  /** Without placeholder columns nothing is dropped. */
  lemma {:induction false} DropNoop(t: Table)
    requires forall h :: h in t.header ==> IsKept(h)
    ensures DropPlaceholders(t) == t
  {
    FilterAllKept(t.header, IsKept);
    var mask := KeepMask(t.header);
    forall j | 0 <= j < |mask|
      ensures mask[j]
    {
      assert t.header[j] in t.header;
    }
    forall i | 0 <= i < |t.rows|
      ensures Select(t.rows[i].cells, mask) == t.rows[i].cells
    {
      SelectAllKept(t.rows[i].cells, mask);
    }
  }

  /** Rows already labelled 0..n-1 keep their labels. */
  lemma ResetNoop(t: Table)
    requires forall i :: 0 <= i < |t.rows| ==> t.rows[i].index == i
    ensures ResetIndex(t) == t
  {
    assert ResetIndex(t).rows == t.rows;
  }

  /** Cleaning twice is cleaning once. */
  lemma {:induction false} CleanIdempotent(t: Table)
    ensures Clean(Clean(t)) == Clean(t)
  {
    var c := Clean(t);
    StripNamesNoop(c);
    DropNoop(c);
    ResetNoop(c);
  }

  /** The application's inline clean-up (no strip, no re-labelling) agrees with
      `Clean` up to row labels when the names carry no surrounding whitespace. */
  lemma {:induction false} InlineCleanOnStrippedNames(t: Table)
    requires forall h :: h in t.header ==> IsStripped(h.name)
    ensures Clean(t) == ResetIndex(DropPlaceholders(t))
  {
    StripNamesNoop(t);
  }

  /** A placeholder name with a leading space survives the application's inline
      clean-up ... */
  lemma InlineCleanKeepsPaddedPlaceholder(t: Table)
    requires t.header == [Header(" Unnamed: 0", IntType)]
    ensures |DropPlaceholders(t).header| == 1
  {
    var padded := " Unnamed: 0";
    assert !IsPlaceholder(padded) by {
      assert padded[..7][0] == ' ';
    }
    assert Filter(t.header, IsKept) == [t.header[0]];
  }

  /** ... while `Clean` strips the name first and then drops the column. */
  lemma CleanDropsPaddedPlaceholder(t: Table)
    requires t.header == [Header(" Unnamed: 0", IntType)]
    ensures |Clean(t).header| == 0
  {
    StripPadded();
    var s := StripNames(t);
    assert s.header == [Header("Unnamed: 0", IntType)];
    assert IsPlaceholder("Unnamed: 0");
    assert Filter(s.header, IsKept) == [];
    assert Clean(t).header == DropPlaceholders(s).header;
  }

  lemma StripPadded()
    ensures Strip(" Unnamed: 0") == "Unnamed: 0"
  {
    var padded := " Unnamed: 0";
    var name := padded[1..];
    assert name == "Unnamed: 0";
    assert TrimStart(name) == name by {
      assert !IsSpace(name[0]);
    }
    assert TrimStart(padded) == name;
    assert TrimEnd(name) == name by {
      assert !IsSpace(name[|name| - 1]);
    }
  }

  // ---------------------------------------------------------- as written

  /** An axis label as pandas compares labels when it aligns two axes: the
      default index of a freshly built Series holds the positions 0..n-1, the
      column axis holds the (string) column names. */
  datatype Label = Position(k: int) | Name(s: string)

  /** The labels of a default index: the positions 0..n-1. */
  function PositionLabels(n: nat): (r: seq<Label>)
    ensures |r| == n
    ensures forall k :: 0 <= k < n ==> r[k] == Position(k)
  {
    seq(n, k => Position(k))
  }

  /** The labels of a column axis: the names, in order. */
  function NameLabels(hs: seq<Header>): (r: seq<Label>)
    ensures |r| == |hs|
    ensures forall j :: 0 <= j < |hs| ==> r[j] == Name(hs[j].name)
  {
    seq(|hs|, j requires 0 <= j < |hs| => Name(hs[j].name))
  }

  /** `.loc` with a boolean Series aligns the Series' labels against the axis:
      it goes through only when every axis label is found among the key's
      labels, and raises `IndexingError` ("Unalignable boolean Series")
      otherwise. */
  predicate Aligns(axis: seq<Label>, key: seq<Label>) {
    forall a :: a in axis ==> a in key
  }

  /** `_clean` as written: the mask `~pd.Series(df.columns)...` is a Series
      indexed by positions, while `.loc[:, mask]` aligns it against the column
      names. The clean-up therefore goes through (None standing for the raised
      `IndexingError`) only for a table without columns. */
  function CleanAsWritten(t: Table): (r: Option<Table>)
    ensures r.Some? <==> |t.header| == 0
    ensures r.Some? ==> r.value == Clean(t)
  {
    var s := StripNames(t);
    var axis, key := NameLabels(s.header), PositionLabels(|s.header|);
    NamesNeverAlign(axis, key);
    if Aligns(axis, key) then Some(Clean(t))
    else None
  }

  /** Names are never found among positions, so only an empty axis aligns. */
  lemma NamesNeverAlign(axis: seq<Label>, key: seq<Label>)
    requires forall k :: 0 <= k < |axis| ==> axis[k].Name?
    requires forall k :: 0 <= k < |key| ==> key[k].Position?
    ensures Aligns(axis, key) <==> |axis| == 0
  {
    if |axis| > 0 {
      assert axis[0] in axis && axis[0] !in key;
    }
  }

  /** Every table that has a column the intended clean-up keeps is lost by the
      clean-up as written. */
  lemma CleanAsWrittenLosesColumns(t: Table, j: nat)
    requires j < |t.header| && !IsPlaceholder(Strip(t.header[j].name))
    ensures CleanAsWritten(t).None?
    ensures |Clean(t).header| > 0
  {
    assert StripHeader(t.header[j]) in Clean(t).header;
  }
}

=== FILE: filters.dfy ===
/** The optional row filters of the chart page: up to two categorical
    filters on text columns and one inclusive range on a numeric column.
    Rows keep their index labels. */
module Filters {
  import opened Wrappers
  import opened Seqs
  import opened Tables
  import opened Reductions
  import opened Aggregation

  /** The selector entry meaning "no column". */
  const NoChoice: string := "(nenhum)"

  /** The options of the second categorical selector: every text column except
      the one chosen first, in order, after "(nenhum)". */
  function SecondFilterOptions(text: seq<string>, first: string): (r: seq<string>)
    ensures |r| >= 1 && r[0] == NoChoice
    ensures forall k :: 1 <= k < |r| ==> r[k] in text && r[k] != first
    ensures forall c :: c in text && c != first ==> c in r
    ensures SubsequenceOf(r[1..], text)
  {
    var rest := Filter(text, c => c != first);
    forall c | c in text && c != first
      ensures c in rest
    {
      FilterComplete(text, c => c != first, c);
    }
    FilterIsSubsequence(text, c => c != first);
    var r := [NoChoice] + rest;
    assert r[1..] == rest;
    forall k | 1 <= k < |r|
      ensures r[k] in text && r[k] != first
    {
      assert r[k] == rest[k - 1] && rest[k - 1] in rest;
    }
    r
  }

  /** The text of the row's cell in column `j` is among the selected values. */
  predicate TextIn(j: nat, sel: seq<string>, row: Row) {
    j < |row.cells| && CellText(row.cells[j]) in sel
  }

  /** Filtering the rows of a table keeps it rectangular. */
  function KeepRows(t: Table, p: Row -> bool): (r: Table)
    ensures r.header == t.header
    ensures r.rows == Filter(t.rows, p)
  {
    var rows := Filter(t.rows, p);
    assert forall i :: 0 <= i < |rows| ==> rows[i] in t.rows;
    Frame(t.header, rows)
  }

  /** `df[df[col].astype(str).isin(sel)]`, applied only when some value is
      selected: with a selection, a row is kept, as many times as it occurs,
      exactly when its text is selected; the survivors keep their order. */
  function CategoricalFilter(t: Table, col: string, sel: seq<string>): (r: Table)
    requires col in Names(t.header)
    ensures r.header == t.header
    ensures |sel| == 0 ==> r == t
    ensures SubsequenceOf(r.rows, t.rows)
    ensures |sel| > 0 ==> forall x: Row ::
      multiset(r.rows)[x] == if TextIn(ColumnIndex(t.header, col), sel, x) then multiset(t.rows)[x] else 0
  {
    if |sel| == 0 then
      SubsequenceOfSelf(t.rows);
      t
    else
      var p := x => TextIn(ColumnIndex(t.header, col), sel, x);
      FilterIsSubsequence(t.rows, p);
      forall x: Row
        ensures multiset(Filter(t.rows, p))[x] == if p(x) then multiset(t.rows)[x] else 0
      {
        FilterCounts(t.rows, p, x);
      }
      KeepRows(t, p)
  }

  /** The two categorical filters can be applied in either order. */
  lemma CategoricalFiltersCommute(t: Table, a: string, sa: seq<string>, b: string, sb: seq<string>)
    requires a in Names(t.header) && b in Names(t.header)
    ensures CategoricalFilter(CategoricalFilter(t, a, sa), b, sb)
         == CategoricalFilter(CategoricalFilter(t, b, sb), a, sa)
  {
    if |sa| > 0 && |sb| > 0 {
      var p := x => TextIn(ColumnIndex(t.header, a), sa, x);
      var q := x => TextIn(ColumnIndex(t.header, b), sb, x);
      FilterCommute(t.rows, p, q);
    }
  }

  // ---------------------------------------------------------- numeric range

  /** The row's value in column `j` is a number within [lo, hi]; a missing
      value compares false and drops the row. */
  predicate InRange(j: nat, lo: real, hi: real, row: Row) {
    j < |row.cells| && ValueOf(row.cells[j]).Some? && lo <= ValueOf(row.cells[j]).value <= hi
  }

  predicate HasNumber(j: nat, row: Row) {
    j < |row.cells| && ValueOf(row.cells[j]).Some?
  }

  /** `df[(df[col] >= lo) & (df[col] <= hi)]`: a row is kept, as many times as
      it occurs, exactly when its value lies within the closed range. */
  function RangeFilter(t: Table, col: string, lo: real, hi: real): (r: Table)
    requires col in Names(t.header)
    ensures r.header == t.header
    ensures SubsequenceOf(r.rows, t.rows)
    ensures forall x: Row ::
      multiset(r.rows)[x] == if InRange(ColumnIndex(t.header, col), lo, hi, x) then multiset(t.rows)[x] else 0
  {
    var p := x => InRange(ColumnIndex(t.header, col), lo, hi, x);
    FilterIsSubsequence(t.rows, p);
    forall x: Row
      ensures multiset(Filter(t.rows, p))[x] == if p(x) then multiset(t.rows)[x] else 0
    {
      FilterCounts(t.rows, p, x);
    }
    KeepRows(t, p)
  }

  /** The slider's bounds: the smallest and largest value of the column, or
      nothing when the column holds no number. */
  function ColumnRange(t: Table, col: string): (r: Option<(real, real)>)
    requires col in Names(t.header)
    ensures r.None? <==> |Present(Values(Named(t, col)))| == 0
    ensures r.Some? ==> forall v :: v in Present(Values(Named(t, col))) ==> r.value.0 <= v <= r.value.1
    ensures r.Some? ==> r.value.0 in Present(Values(Named(t, col))) && r.value.1 in Present(Values(Named(t, col)))
  {
    var vs := Present(Values(Named(t, col)));
    if |vs| == 0 then None else Some((MinOf(vs), MaxOf(vs)))
  }

  /** The untouched slider, whose bounds come from the whole table, drops
      from any filtered version of it exactly the rows without a number. */
  lemma FullRangeDropsOnlyMissing(t: Table, f: Table, col: string)
    requires col in Names(t.header)
    requires f.header == t.header && SubsequenceOf(f.rows, t.rows)
    requires ColumnRange(t, col).Some?
    ensures RangeFilter(f, col, ColumnRange(t, col).value.0, ColumnRange(t, col).value.1).rows
         == Filter(f.rows, x => HasNumber(ColumnIndex(t.header, col), x))
  {
    var j := ColumnIndex(t.header, col);
    var (lo, hi) := ColumnRange(t, col).value;
    var vs := Values(Named(t, col));
    SubsequenceMembers(f.rows, t.rows);
    forall x | x in f.rows
      ensures InRange(j, lo, hi, x) == HasNumber(j, x)
    {
      var i :| 0 <= i < |t.rows| && t.rows[i] == x;
      if HasNumber(j, x) {
        assert vs[i] == ValueOf(x.cells[j]);
        assert vs[i].value in Present(vs);
      }
    }
    FilterCongruent(f.rows, x => InRange(j, lo, hi, x), x => HasNumber(j, x));
  }

  // ---------------------------------------------------------- the filter panel

  /** What the filter panel was set to: a column (or "(nenhum)") and the
      selected values for each categorical filter, and a column (or
      "(nenhum)") and the slider's interval for the numeric filter. */
  datatype Selection = Selection(
    cat1: string, vals1: seq<string>,
    cat2: string, vals2: seq<string>,
    num: string, lo: real, hi: real)

  predicate ValidSelection(t: Table, s: Selection) {
    (s.cat1 == NoChoice || s.cat1 in Names(t.header)) &&
    (s.cat2 == NoChoice || s.cat2 in Names(t.header)) &&
    (s.num == NoChoice || s.num in Names(t.header))
  }

  /** A categorical selector as a row condition: true when it is off. */
  predicate CategoricalPasses(t: Table, col: string, sel: seq<string>, x: Row) {
    col != NoChoice && col in Names(t.header) && |sel| > 0 ==> TextIn(ColumnIndex(t.header, col), sel, x)
  }

  /** The numeric selector as a row condition: true when it is off. */
  predicate RangePasses(t: Table, col: string, lo: real, hi: real, x: Row) {
    col != NoChoice && col in Names(t.header) ==> InRange(ColumnIndex(t.header, col), lo, hi, x)
  }

  /** Whether a row survives every active filter of the panel: a categorical
      filter is active when it names a column and some value is selected, the
      numeric one when it names a column. */
  predicate PassesFilters(t: Table, s: Selection, x: Row) {
    CategoricalPasses(t, s.cat1, s.vals1, x) && CategoricalPasses(t, s.cat2, s.vals2, x)
    && RangePasses(t, s.num, s.lo, s.hi, x)
  }

  /** `PassesFilters` as the condition of a single pass over the rows. */
  function Passing(t: Table, s: Selection): Row -> bool {
    x => PassesFilters(t, s, x)
  }

  /** A categorical stage keeps the rows its condition accepts. */
  lemma CategoricalStage(f: Table, t: Table, col: string, sel: seq<string>, p: Row -> bool)
    requires f.header == t.header && (col == NoChoice || col in Names(t.header))
    requires forall x :: p(x) == CategoricalPasses(t, col, sel, x)
    ensures (if col != NoChoice then CategoricalFilter(f, col, sel) else f).rows == Filter(f.rows, p)
  {
    if col == NoChoice || |sel| == 0 {
      FilterAllKept(f.rows, p);
    } else {
      FilterCongruent(f.rows, x => TextIn(ColumnIndex(t.header, col), sel, x), p);
    }
  }

  /** The range stage keeps the rows its condition accepts. */
  lemma RangeStage(f: Table, t: Table, col: string, lo: real, hi: real, p: Row -> bool)
    requires f.header == t.header && (col == NoChoice || col in Names(t.header))
    requires forall x :: p(x) == RangePasses(t, col, lo, hi, x)
    ensures (if col != NoChoice then RangeFilter(f, col, lo, hi) else f).rows == Filter(f.rows, p)
  {
    if col == NoChoice {
      FilterAllKept(f.rows, p);
    } else {
      FilterCongruent(f.rows, x => InRange(ColumnIndex(t.header, col), lo, hi, x), p);
    }
  }

  /** The filters in the order the page applies them. */
  function Stages(t: Table, s: Selection): (r: Table)
    requires ValidSelection(t, s)
    ensures r.header == t.header
  {
    var f1 := if s.cat1 != NoChoice then CategoricalFilter(t, s.cat1, s.vals1) else t;
    var f2 := if s.cat2 != NoChoice then CategoricalFilter(f1, s.cat2, s.vals2) else f1;
    if s.num != NoChoice then RangeFilter(f2, s.num, s.lo, s.hi) else f2
  }

  /** The stages one after another keep what a single pass keeps. */
  lemma StagesArePass(t: Table, s: Selection)
    requires ValidSelection(t, s)
    ensures Stages(t, s).rows == Filter(t.rows, Passing(t, s))
  {
    var p1 := x => CategoricalPasses(t, s.cat1, s.vals1, x);
    var p2 := x => CategoricalPasses(t, s.cat2, s.vals2, x);
    var p3 := x => RangePasses(t, s.num, s.lo, s.hi, x);
    var f1 := if s.cat1 != NoChoice then CategoricalFilter(t, s.cat1, s.vals1) else t;
    var f2 := if s.cat2 != NoChoice then CategoricalFilter(f1, s.cat2, s.vals2) else f1;
    CategoricalStage(t, t, s.cat1, s.vals1, p1);
    CategoricalStage(f1, t, s.cat2, s.vals2, p2);
    RangeStage(f2, t, s.num, s.lo, s.hi, p3);
    var p12 := x => p1(x) && p2(x);
    FilterFuse(t.rows, p1, p2, p12);
    FilterFuse(t.rows, p12, p3, Passing(t, s));
  }

  /** The filter panel applied to a table. The result keeps the header, and
      the stages one after another keep the same rows, in the same order, as
      a single pass keeping the rows that pass every active filter: each such
      row as many times as it occurs, no other row. With every selector at
      "(nenhum)" the input comes back unchanged. */
  function ApplyFilters(t: Table, s: Selection): (r: Table)
    requires ValidSelection(t, s)
    ensures r.header == t.header
    ensures r.rows == Filter(t.rows, Passing(t, s))
    ensures SubsequenceOf(r.rows, t.rows)
    ensures s.cat1 == NoChoice && s.cat2 == NoChoice && s.num == NoChoice ==> r == t
    ensures forall x: Row ::
      multiset(r.rows)[x] == if PassesFilters(t, s, x) then multiset(t.rows)[x] else 0
  {
    StagesArePass(t, s);
    FilterIsSubsequence(t.rows, Passing(t, s));
    forall x: Row
      ensures multiset(Filter(t.rows, Passing(t, s)))[x] == if PassesFilters(t, s, x) then multiset(t.rows)[x] else 0
    {
      FilterCounts(t.rows, Passing(t, s), x);
    }
    if s.cat1 == NoChoice && s.cat2 == NoChoice && s.num == NoChoice then
      FilterAllKept(t.rows, Passing(t, s));
      Stages(t, s)
    else
      Stages(t, s)
  }

  /** The page's two categorical filters can trade places: swapping the
      first selector's column and values with the second's keeps the same rows. */
  lemma {:induction false} ApplyFiltersSwapCategorical(t: Table, s: Selection)
    requires ValidSelection(t, s)
    ensures ApplyFilters(t, s)
         == ApplyFilters(t, s.(cat1 := s.cat2, vals1 := s.vals2, cat2 := s.cat1, vals2 := s.vals1))
  {
    var s' := s.(cat1 := s.cat2, vals1 := s.vals2, cat2 := s.cat1, vals2 := s.vals1);
    FilterCongruent(t.rows, Passing(t, s), Passing(t, s'));
  }
}

=== FILE: grouping.dfy ===
/** `groupby(key, dropna=False)` followed by `size()` or `agg(f)`: one output
    row per distinct key, missing keys forming a group of their own. */
module Grouping {
  import opened Wrappers
  import opened Seqs
  import opened Reductions

  /** One output row of an aggregation: the group key ("x") and its value ("valor"). */
  datatype Point<K> = Point(x: K, value: Value)

  /** `size()` counts a group's rows; `agg(f)` reduces the group's present values. */
  datatype Mode = Size | Apply(f: Func)

  /** The keys of a list of output rows. */
  function Xs<K>(ps: seq<Point<K>>): (r: seq<K>)
    ensures |r| == |ps|
    ensures forall g :: 0 <= g < |ps| ==> r[g] == ps[g].x
  {
    seq(|ps|, g requires 0 <= g < |ps| => ps[g].x)
  }

  /** The values of the rows whose key is `k`, in row order. */
  function Members<K(==)>(keys: seq<K>, vals: seq<Option<real>>, k: K): (r: seq<Option<real>>)
    requires |keys| == |vals|
    ensures |r| == multiset(keys)[k]
  {
    if |keys| == 0 then []
    else
      assert keys == [keys[0]] + keys[1..];
      (if keys[0] == k then [vals[0]] else []) + Members(keys[1..], vals[1..], k)
  }

  /** What one group turns into. */
  function GroupValue(mode: Mode, members: seq<Option<real>>): Value {
    match mode
    case Size => Num(|members| as real)
    case Apply(f) => Reduce(f, members)
  }

  /** The output rows for the keys `ds`, in that order. */
  function Groups<K(==)>(keys: seq<K>, vals: seq<Option<real>>, ds: seq<K>, mode: Mode): (r: seq<Point<K>>)
    requires |keys| == |vals|
    ensures Xs(r) == ds
    ensures forall g :: 0 <= g < |r| ==> r[g].value == GroupValue(mode, Members(keys, vals, r[g].x))
  {
    if |ds| == 0 then []
    else [Point(ds[0], GroupValue(mode, Members(keys, vals, ds[0])))] + Groups(keys, vals, ds[1..], mode)
  }

  /** Groups the rows by key. Each distinct key appears exactly once, every
      output key is some row's key, and each group's value is computed from
      exactly the rows carrying that key. Groups appear in first-encounter order. */
  function GroupBy<K(==)>(keys: seq<K>, vals: seq<Option<real>>, mode: Mode): (r: seq<Point<K>>)
    requires |keys| == |vals|
    ensures NoDuplicates(Xs(r))
    ensures forall g :: 0 <= g < |r| ==> r[g].x in keys
    ensures forall i :: 0 <= i < |keys| ==> keys[i] in Xs(r)
    ensures forall g :: 0 <= g < |r| ==> r[g].value == GroupValue(mode, Members(keys, vals, r[g].x))
  {
    var ds := Dedup(keys);
    var r := Groups(keys, vals, ds, mode);
    assert forall g :: 0 <= g < |r| ==> r[g].x == ds[g];
    r
  }

  // ---------------------------------------------------------- totals

  /** The sum of the numeric output values; NaN rows add nothing. */
  function PointsTotal<K>(ps: seq<Point<K>>): real {
    if |ps| == 0 then 0.0
    else (if ps[0].value.Num? then ps[0].value.x else 0.0) + PointsTotal(ps[1..])
  }

  /** A per-value weight summed over a list of values. */
  function Weight(vs: seq<Option<real>>, w: Option<real> -> real): real {
    if |vs| == 0 then 0.0 else w(vs[0]) + Weight(vs[1..], w)
  }

  function One(v: Option<real>): real { 1.0 }

  function ValueOrZero(v: Option<real>): real { if v.Some? then v.value else 0.0 }

  function PresentFlag(v: Option<real>): real { if v.Some? then 1.0 else 0.0 }

  lemma {:induction false} WeightAppend(a: seq<Option<real>>, b: seq<Option<real>>, w: Option<real> -> real)
    ensures Weight(a + b, w) == Weight(a, w) + Weight(b, w)
  {
    if |a| == 0 {
      assert a + b == b;
    } else {
      assert (a + b)[1..] == a[1..] + b;
      WeightAppend(a[1..], b, w);
    }
  }

  /** The group weights of the keys `ds`, added up. */
  function GroupWeights<K(==)>(keys: seq<K>, vals: seq<Option<real>>, ds: seq<K>, w: Option<real> -> real): real
    requires |keys| == |vals|
  {
    if |ds| == 0 then 0.0 else Weight(Members(keys, vals, ds[0]), w) + GroupWeights(keys, vals, ds[1..], w)
  }

  /** Removing the first row takes its weight off the group of its key, if
      that key is listed. */
  lemma {:induction false} GroupWeightsFirstRow<K>(keys: seq<K>, vals: seq<Option<real>>, ds: seq<K>, w: Option<real> -> real)
    requires |keys| == |vals| && |keys| > 0
    requires NoDuplicates(ds)
    ensures GroupWeights(keys, vals, ds, w)
         == (if keys[0] in ds then w(vals[0]) else 0.0) + GroupWeights(keys[1..], vals[1..], ds, w)
  {
    if |ds| > 0 {
      GroupWeightsFirstRow(keys, vals, ds[1..], w);
      var head := if keys[0] == ds[0] then [vals[0]] else [];
      assert Members(keys, vals, ds[0]) == head + Members(keys[1..], vals[1..], ds[0]);
      WeightAppend(head, Members(keys[1..], vals[1..], ds[0]), w);
      assert Weight(head, w) == if keys[0] == ds[0] then w(vals[0]) else 0.0 by {
        if keys[0] == ds[0] {
          assert head[1..] == [];
        }
      }
      assert keys[0] in ds <==> keys[0] == ds[0] || keys[0] in ds[1..] by {
        assert ds == [ds[0]] + ds[1..];
      }
      assert keys[0] == ds[0] ==> keys[0] !in ds[1..];
    }
  }

  /** Over a duplicate-free list of keys covering every row, the group weights
      add up to the weight of all rows: every row is in exactly one group. */
  lemma {:induction false} GroupWeightsCover<K>(keys: seq<K>, vals: seq<Option<real>>, ds: seq<K>, w: Option<real> -> real)
    requires |keys| == |vals|
    requires NoDuplicates(ds)
    requires forall i :: 0 <= i < |keys| ==> keys[i] in ds
    ensures GroupWeights(keys, vals, ds, w) == Weight(vals, w)
  {
    if |keys| == 0 {
      GroupWeightsEmpty(keys, vals, ds, w);
    } else {
      GroupWeightsFirstRow(keys, vals, ds, w);
      assert keys[0] in ds;
      assert forall i :: 0 <= i < |keys[1..]| ==> keys[1..][i] in ds by {
        forall i | 0 <= i < |keys[1..]|
          ensures keys[1..][i] in ds
        {
          assert keys[1..][i] == keys[i + 1];
        }
      }
      GroupWeightsCover(keys[1..], vals[1..], ds, w);
      assert Weight(vals, w) == w(vals[0]) + Weight(vals[1..], w);
    }
  }

  lemma {:induction false} GroupWeightsEmpty<K>(keys: seq<K>, vals: seq<Option<real>>, ds: seq<K>, w: Option<real> -> real)
    requires |keys| == |vals| == 0
    ensures GroupWeights(keys, vals, ds, w) == 0.0
  {
    if |ds| > 0 {
      GroupWeightsEmpty(keys, vals, ds[1..], w);
    }
  }

  /** When every group's value is its weight, the output total is the sum of the group weights. */
  lemma {:induction false} PointsTotalGroups<K>(keys: seq<K>, vals: seq<Option<real>>, ds: seq<K>, mode: Mode, w: Option<real> -> real)
    requires |keys| == |vals|
    requires forall d :: d in ds ==> GroupValue(mode, Members(keys, vals, d)) == Num(Weight(Members(keys, vals, d), w))
    ensures PointsTotal(Groups(keys, vals, ds, mode)) == GroupWeights(keys, vals, ds, w)
  {
    if |ds| > 0 {
      var m := Members(keys, vals, ds[0]);
      assert ds[0] in ds;
      var v := GroupValue(mode, m);
      assert v == Num(Weight(m, w));
      assert forall d :: d in ds[1..] ==> d in ds;
      PointsTotalGroups(keys, vals, ds[1..], mode, w);
      var rest := Groups(keys, vals, ds[1..], mode);
      assert Groups(keys, vals, ds, mode) == [Point(ds[0], v)] + rest;
      PointsTotalCons(Point(ds[0], v), rest);
    }
  }

  /** One unfolding of `PointsTotal` on a first row and the rest. */
  lemma PointsTotalCons<K>(p: Point<K>, rest: seq<Point<K>>)
    ensures PointsTotal([p] + rest) == (if p.value.Num? then p.value.x else 0.0) + PointsTotal(rest)
  {
    assert ([p] + rest)[0] == p && ([p] + rest)[1..] == rest;
  }

  lemma {:induction false} WeightOne(vs: seq<Option<real>>)
    ensures Weight(vs, One) == |vs| as real
  {
    if |vs| > 0 {
      WeightOne(vs[1..]);
    }
  }

  lemma {:induction false} WeightValues(vs: seq<Option<real>>)
    ensures Weight(vs, ValueOrZero) == Total(Present(vs))
    ensures Weight(vs, PresentFlag) == |Present(vs)| as real
  {
    if |vs| > 0 {
      WeightValues(vs[1..]);
      var head: seq<real> := if vs[0].Some? then [vs[0].value] else [];
      TotalAppend(head, Present(vs[1..]));
    }
  }

  lemma {:induction false} TotalAppend(a: seq<real>, b: seq<real>)
    ensures Total(a + b) == Total(a) + Total(b)
  {
    if |a| == 0 {
      assert a + b == b;
    } else {
      assert (a + b)[1..] == a[1..] + b;
      TotalAppend(a[1..], b);
    }
  }

  /** The group sizes add up to the number of rows. */
  lemma SizesAddUp<K>(keys: seq<K>, vals: seq<Option<real>>)
    requires |keys| == |vals|
    ensures PointsTotal(GroupBy(keys, vals, Size)) == |keys| as real
  {
    var ds := Dedup(keys);
    forall d | d in ds
      ensures GroupValue(Size, Members(keys, vals, d)) == Num(Weight(Members(keys, vals, d), One))
    {
      WeightOne(Members(keys, vals, d));
    }
    PointsTotalGroups(keys, vals, ds, Size, One);
    GroupWeightsCover(keys, vals, ds, One);
    WeightOne(vals);
  }

  /** The group sums add up to the sum of all present values. */
  lemma SumsAddUp<K>(keys: seq<K>, vals: seq<Option<real>>)
    requires |keys| == |vals|
    ensures PointsTotal(GroupBy(keys, vals, Apply(Sum))) == Total(Present(vals))
  {
    var ds := Dedup(keys);
    forall d | d in ds
      ensures GroupValue(Apply(Sum), Members(keys, vals, d)) == Num(Weight(Members(keys, vals, d), ValueOrZero))
    {
      WeightValues(Members(keys, vals, d));
    }
    PointsTotalGroups(keys, vals, ds, Apply(Sum), ValueOrZero);
    GroupWeightsCover(keys, vals, ds, ValueOrZero);
    WeightValues(vals);
  }

  /** The group counts add up to the number of present values. */
  lemma CountsAddUp<K>(keys: seq<K>, vals: seq<Option<real>>)
    requires |keys| == |vals|
    ensures PointsTotal(GroupBy(keys, vals, Apply(Count))) == |Present(vals)| as real
  {
    var ds := Dedup(keys);
    forall d | d in ds
      ensures GroupValue(Apply(Count), Members(keys, vals, d)) == Num(Weight(Members(keys, vals, d), PresentFlag))
    {
      WeightValues(Members(keys, vals, d));
    }
    PointsTotalGroups(keys, vals, ds, Apply(Count), PresentFlag);
    GroupWeightsCover(keys, vals, ds, PresentFlag);
    WeightValues(vals);
  }
}

=== FILE: inference.dfy ===
/** Column classification (numeric vs. text), datetime-column detection and
    the lenient datetime conversion. */
module Inference {
  import opened Wrappers
  import opened Text
  import opened Seqs
  import opened Tables

  predicate IsNumericColumn(h: Header) {
    IsNumericType(h.dtype)
  }

  /** The names of the numeric columns, in column order. */
  function NumericNames(t: Table): seq<string> {
    Names(Filter(t.header, IsNumericColumn))
  }

  /** The two lists `infer_types` returns. */
  datatype ColumnKinds = ColumnKinds(numeric: seq<string>, text: seq<string>)

  /** Numeric columns by dtype; text is every column whose name is not numeric. */
  function InferTypes(t: Table): (r: ColumnKinds)
    ensures forall n :: n in r.numeric ==> n !in r.text
    ensures forall j :: 0 <= j < |t.header| ==> t.header[j].name in r.numeric || t.header[j].name in r.text
    ensures forall n :: n in r.numeric || n in r.text ==> n in Names(t.header)
    ensures forall j :: 0 <= j < |t.header| && IsNumericType(t.header[j].dtype) ==> t.header[j].name in r.numeric
    ensures forall n :: n in r.numeric ==> exists j :: 0 <= j < |t.header| && t.header[j].name == n && IsNumericType(t.header[j].dtype)
    ensures SubsequenceOf(r.numeric, Names(t.header)) && SubsequenceOf(r.text, Names(t.header))
  {
    var numeric := NumericNames(t);
    var text := Filter(Names(t.header), n => n !in numeric);
    NumericNamesFacts(t);
    FilterIsSubsequence(Names(t.header), n => n !in numeric);
    forall j | 0 <= j < |t.header|
      ensures t.header[j].name in numeric || t.header[j].name in text
    {
      if t.header[j].name !in numeric {
        FilterComplete(Names(t.header), n => n !in numeric, t.header[j].name);
      }
    }
    SubsequenceMembers(numeric, Names(t.header));
    ColumnKinds(numeric, text)
  }

  lemma {:induction false} NumericNamesFacts(t: Table)
    ensures SubsequenceOf(NumericNames(t), Names(t.header))
    ensures forall j :: 0 <= j < |t.header| && IsNumericType(t.header[j].dtype) ==> t.header[j].name in NumericNames(t)
    ensures forall n :: n in NumericNames(t) ==>
      exists j :: 0 <= j < |t.header| && t.header[j].name == n && IsNumericType(t.header[j].dtype)
  {
    NamesOfFilter(t.header, IsNumericColumn);
  }

  /** Names of the columns kept by a filter over headers: in order, complete,
      and each name belongs to a kept column. */
  lemma NamesOfFilter(hs: seq<Header>, p: Header -> bool)
    ensures SubsequenceOf(Names(Filter(hs, p)), Names(hs))
    ensures forall j :: 0 <= j < |hs| && p(hs[j]) ==> hs[j].name in Names(Filter(hs, p))
    ensures forall n :: n in Names(Filter(hs, p)) ==> exists j :: 0 <= j < |hs| && hs[j].name == n && p(hs[j])
  {
    NamesOfFilterOrdered(hs, p);
    NamesOfFilterComplete(hs, p);
    NamesOfFilterSound(hs, p);
  }

  lemma {:induction false} NamesOfFilterOrdered(hs: seq<Header>, p: Header -> bool)
    ensures SubsequenceOf(Names(Filter(hs, p)), Names(hs))
    decreases |hs|
  {
    if |hs| > 0 {
      NamesOfFilterOrdered(hs[1..], p);
      var tail := Names(Filter(hs[1..], p));
      var a := Names(Filter(hs, p));
      var b := Names(hs);
      assert b[0] == hs[0].name && b[1..] == Names(hs[1..]);
      if p(hs[0]) {
        assert a == [hs[0].name] + tail;
        assert a[0] == b[0] && a[1..] == tail;
      } else {
        assert a == tail;
      }
    }
  }

  lemma {:induction false} NamesOfFilterComplete(hs: seq<Header>, p: Header -> bool)
    ensures forall j :: 0 <= j < |hs| && p(hs[j]) ==> hs[j].name in Names(Filter(hs, p))
    decreases |hs|
  {
    if |hs| > 0 {
      NamesOfFilterComplete(hs[1..], p);
      var tail := Names(Filter(hs[1..], p));
      var head := if p(hs[0]) then [hs[0].name] else [];
      assert Names(Filter(hs, p)) == head + tail;
      forall j | 0 < j < |hs| && p(hs[j])
        ensures hs[j].name in Names(Filter(hs, p))
      {
        assert hs[1..][j - 1] == hs[j];
        assert hs[j].name in tail;
      }
    }
  }

  lemma {:induction false} NamesOfFilterSound(hs: seq<Header>, p: Header -> bool)
    ensures forall n :: n in Names(Filter(hs, p)) ==> exists j :: 0 <= j < |hs| && hs[j].name == n && p(hs[j])
    decreases |hs|
  {
    if |hs| > 0 {
      NamesOfFilterSound(hs[1..], p);
      var tail := Names(Filter(hs[1..], p));
      var head := if p(hs[0]) then [hs[0].name] else [];
      assert Names(Filter(hs, p)) == head + tail;
      forall n | n in Names(Filter(hs, p))
        ensures exists j :: 0 <= j < |hs| && hs[j].name == n && p(hs[j])
      {
        if n !in head {
          assert n in tail;
          var j :| 0 <= j < |hs[1..]| && hs[1..][j].name == n && p(hs[1..][j]);
          assert hs[j + 1].name == n;
        }
      }
    }
  }

  // ------------------------------------------------------------ datetimes

  /** The lower-case name fragments that suggest a date column ("data" is Portuguese for date). */
  const DateHints: seq<string> := ["data", "date", "created", "updated", "timestamp", "time", "dt_", "_dt"]

  predicate HasDateHint(name: string) {
    exists k :: 0 <= k < |DateHints| && Contains(Lower(name), DateHints[k])
  }

  /** Some column of this name already has the datetime dtype. */
  predicate IsDateTyped(t: Table, name: string) {
    exists j :: 0 <= j < |t.header| && t.header[j].name == name && t.header[j].dtype == DateTimeType
  }

  /** Some column of this name is hinted by its name and parses entirely as dates. */
  predicate IsHintedParsable(t: Table, probe: seq<Cell> -> bool, name: string) {
    exists j :: 0 <= j < |t.header| && t.header[j].name == name
      && HasDateHint(name) && probe(Column(t, j))
  }

  predicate IsDateTimeColumn(h: Header) {
    h.dtype == DateTimeType
  }

  /** First loop: names of the datetime-typed columns, in column order. */
  function DateTypedNames(t: Table): seq<string> {
    Names(Filter(t.header, IsDateTimeColumn))
  }

  /** Second loop, from column `j` on: append each hinted, not yet listed name
      whose column the probe accepts. The candidates found so far stay in
      front (`HintScanSound`, `HintScanComplete` for the appended part). */
  function HintScan(t: Table, probe: seq<Cell> -> bool, j: nat, cands: seq<string>): (r: seq<string>)
    requires j <= |t.header|
    ensures |r| >= |cands| && r[..|cands|] == cands
    decreases |t.header| - j
  {
    if j == |t.header| then cands
    else
      var name := t.header[j].name;
      var next := if HasDateHint(name) && name !in cands && probe(Column(t, j)) then cands + [name] else cands;
      var r := HintScan(t, probe, j + 1, next);
      assert r[..|cands|] == cands by {
        assert r[..|next|] == next;
        assert next[..|cands|] == cands;
      }
      r
  }

  /** Every appended name is hinted and parses, and none was listed before. */
  lemma {:induction false} HintScanSound(t: Table, probe: seq<Cell> -> bool, j: nat, cands: seq<string>)
    requires j <= |t.header|
    ensures forall i :: |cands| <= i < |HintScan(t, probe, j, cands)| ==>
      HintScan(t, probe, j, cands)[i] !in cands
    ensures forall i :: |cands| <= i < |HintScan(t, probe, j, cands)| ==>
      IsHintedParsable(t, probe, HintScan(t, probe, j, cands)[i])
    decreases |t.header| - j
  {
    if j < |t.header| {
      var name := t.header[j].name;
      var next := if HasDateHint(name) && name !in cands && probe(Column(t, j)) then cands + [name] else cands;
      HintScanSound(t, probe, j + 1, next);
      var r := HintScan(t, probe, j, cands);
      assert r == HintScan(t, probe, j + 1, next);
      forall i | |cands| <= i < |r|
        ensures r[i] !in cands && IsHintedParsable(t, probe, r[i])
      {
        if i < |next| {
          assert r[..|next|] == next;
          assert r[i] == name;
        }
      }
    }
  }

  /** The earlier candidates are all still listed. */
  lemma HintScanKeeps(t: Table, probe: seq<Cell> -> bool, j: nat, cands: seq<string>)
    requires j <= |t.header|
    ensures forall n :: n in cands ==> n in HintScan(t, probe, j, cands)
  {
    var r := HintScan(t, probe, j, cands);
    forall n | n in cands
      ensures n in r
    {
      var i :| 0 <= i < |cands| && cands[i] == n;
      assert r[..|cands|][i] == n;
    }
  }

  /** Every hinted column from `j` on that parses ends up in the result. */
  lemma {:induction false} HintScanComplete(t: Table, probe: seq<Cell> -> bool, j: nat, cands: seq<string>)
    requires j <= |t.header|
    ensures forall k :: j <= k < |t.header| && HasDateHint(t.header[k].name) && probe(Column(t, k)) ==>
      t.header[k].name in HintScan(t, probe, j, cands)
    decreases |t.header| - j
  {
    if j < |t.header| {
      var name := t.header[j].name;
      var next := if HasDateHint(name) && name !in cands && probe(Column(t, j)) then cands + [name] else cands;
      HintScanComplete(t, probe, j + 1, next);
      assert HintScan(t, probe, j, cands) == HintScan(t, probe, j + 1, next);
      if HasDateHint(name) && probe(Column(t, j)) {
        HintScanKeeps(t, probe, j + 1, next);
        if name in cands {
          HintScanKeeps(t, probe, j + 1, cands);
        }
        assert name in next;
      }
    }
  }

  /** The names the scan appends follow column order. */
  lemma {:induction false} HintScanOrder(t: Table, probe: seq<Cell> -> bool, j: nat, cands: seq<string>)
    requires j <= |t.header|
    ensures SubsequenceOf(HintScan(t, probe, j, cands)[|cands|..], Names(t.header)[j..])
    decreases |t.header| - j
  {
    var names := Names(t.header);
    var r := HintScan(t, probe, j, cands);
    if j == |t.header| {
      assert r[|cands|..] == [];
    } else {
      var name := t.header[j].name;
      var next := if HasDateHint(name) && name !in cands && probe(Column(t, j)) then cands + [name] else cands;
      HintScanOrder(t, probe, j + 1, next);
      assert r == HintScan(t, probe, j + 1, next);
      var tail := names[j..];
      assert tail[1..] == names[j + 1..];
      assert r[..|next|] == next;
      if |next| > |cands| {
        assert r[|cands|..][0] == next[|cands|] == name == tail[0];
        assert r[|cands|..][1..] == r[|next|..];
      } else {
        assert r[|cands|..] == r[|next|..];
      }
    }
  }

  /** `detect_datetime_cols` with the parse attempt as the predicate `probe`
      over a column's cells. The datetime-typed names come first, then the
      hinted ones, each part in column order. */
  function DetectDatetimeCols(t: Table, probe: seq<Cell> -> bool): (r: seq<string>)
    ensures NoDuplicates(r)
    ensures forall n :: n in r <==> IsDateTyped(t, n) || IsHintedParsable(t, probe, n)
    ensures PFirst(r, n => IsDateTyped(t, n))
    ensures SubsequenceOf(Filter(r, n => IsDateTyped(t, n)), Names(t.header))
    ensures SubsequenceOf(Filter(r, n => !IsDateTyped(t, n)), Names(t.header))
  {
    var typed := DateTypedNames(t);
    var cands := HintScan(t, probe, 0, typed);
    DetectFacts(t, probe);
    DetectTypedOrder(t, probe, n => IsDateTyped(t, n));
    DetectHintedOrder(t, probe, n => !IsDateTyped(t, n));
    Dedup(cands)
  }

  lemma {:induction false} DetectFacts(t: Table, probe: seq<Cell> -> bool)
    ensures var r := Dedup(HintScan(t, probe, 0, DateTypedNames(t)));
      && (forall n :: n in r <==> IsDateTyped(t, n) || IsHintedParsable(t, probe, n))
      && PFirst(r, n => IsDateTyped(t, n))
  {
    DateTypedNamesFacts(t);
    DetectMembers(t, probe);
    DetectOrder(t, probe);
  }

  /** The scan's list is the datetime-typed names followed by the appended
      hinted ones; both parts follow column order, and only the first part
      is datetime-typed. */
  lemma {:induction false} DetectParts(t: Table, probe: seq<Cell> -> bool)
    ensures var typed := DateTypedNames(t);
      HintScan(t, probe, 0, typed) == typed + HintScan(t, probe, 0, typed)[|typed|..]
    ensures forall n :: n in DateTypedNames(t) ==> IsDateTyped(t, n)
    ensures forall n :: n in HintScan(t, probe, 0, DateTypedNames(t))[|DateTypedNames(t)|..] ==> !IsDateTyped(t, n)
    ensures SubsequenceOf(DateTypedNames(t), Names(t.header))
    ensures SubsequenceOf(HintScan(t, probe, 0, DateTypedNames(t))[|DateTypedNames(t)|..], Names(t.header))
  {
    var typed := DateTypedNames(t);
    var cands := HintScan(t, probe, 0, typed);
    var app := cands[|typed|..];
    assert cands[..|typed|] == typed;
    assert cands == typed + app;
    DateTypedNamesFacts(t);
    HintScanSound(t, probe, 0, typed);
    forall n | n in app
      ensures !IsDateTyped(t, n)
    {
      var i :| 0 <= i < |app| && app[i] == n;
      assert cands[|typed| + i] == n;
    }
    HintScanOrder(t, probe, 0, typed);
    assert Names(t.header)[0..] == Names(t.header);
    NamesOfFilter(t.header, IsDateTimeColumn);
  }

  /** The datetime-typed part of the detected names follows column order. */
  lemma {:induction false} DetectTypedOrder(t: Table, probe: seq<Cell> -> bool, keep: string -> bool)
    requires forall n :: keep(n) == IsDateTyped(t, n)
    ensures SubsequenceOf(Filter(Dedup(HintScan(t, probe, 0, DateTypedNames(t))), keep), Names(t.header))
  {
    var typed := DateTypedNames(t);
    var cands := HintScan(t, probe, 0, typed);
    var app := cands[|typed|..];
    DetectParts(t, probe);
    FilterAppend(typed, app, keep);
    FilterAllKept(typed, keep);
    FilterNoneKept(app, keep);
    assert Filter(cands, keep) == typed;
    FilterDedupSubsequence(cands, keep, Names(t.header));
  }

  /** The hinted part of the detected names follows column order. */
  lemma {:induction false} DetectHintedOrder(t: Table, probe: seq<Cell> -> bool, keep: string -> bool)
    requires forall n :: keep(n) == !IsDateTyped(t, n)
    ensures SubsequenceOf(Filter(Dedup(HintScan(t, probe, 0, DateTypedNames(t))), keep), Names(t.header))
  {
    var typed := DateTypedNames(t);
    var cands := HintScan(t, probe, 0, typed);
    var app := cands[|typed|..];
    DetectParts(t, probe);
    FilterAppend(typed, app, keep);
    FilterNoneKept(typed, keep);
    FilterAllKept(app, keep);
    assert Filter(cands, keep) == app;
    FilterDedupSubsequence(cands, keep, Names(t.header));
  }

  /** The first loop lists exactly the datetime-typed names. */
  lemma DateTypedNamesFacts(t: Table)
    ensures forall n :: n in DateTypedNames(t) <==> IsDateTyped(t, n)
  {
    NamesOfFilter(t.header, IsDateTimeColumn);
  }

  lemma {:induction false} DetectMembers(t: Table, probe: seq<Cell> -> bool)
    requires forall n :: n in DateTypedNames(t) <==> IsDateTyped(t, n)
    ensures var r := Dedup(HintScan(t, probe, 0, DateTypedNames(t)));
      forall n :: n in r <==> IsDateTyped(t, n) || IsHintedParsable(t, probe, n)
  {
    var typed := DateTypedNames(t);
    var cands := HintScan(t, probe, 0, typed);
    var r := Dedup(cands);
    HintScanSound(t, probe, 0, typed);
    HintScanComplete(t, probe, 0, typed);
    HintScanKeeps(t, probe, 0, typed);
    forall n | n in r
      ensures IsDateTyped(t, n) || IsHintedParsable(t, probe, n)
    {
      var i :| 0 <= i < |cands| && cands[i] == n;
      if i < |typed| {
        assert cands[..|typed|][i] == n;
      }
    }
    forall n | IsDateTyped(t, n) || IsHintedParsable(t, probe, n)
      ensures n in r
    {
      if IsHintedParsable(t, probe, n) {
        var j :| 0 <= j < |t.header| && t.header[j].name == n && HasDateHint(n) && probe(Column(t, j));
      }
      assert n in cands;
      var i :| 0 <= i < |cands| && cands[i] == n;
    }
  }

  lemma {:induction false} DetectOrder(t: Table, probe: seq<Cell> -> bool)
    requires forall n :: n in DateTypedNames(t) <==> IsDateTyped(t, n)
    ensures PFirst(Dedup(HintScan(t, probe, 0, DateTypedNames(t))), n => IsDateTyped(t, n))
  {
    var typed := DateTypedNames(t);
    var cands := HintScan(t, probe, 0, typed);
    var isDate := (n: string) => IsDateTyped(t, n);
    HintScanSound(t, probe, 0, typed);
    forall i, k | 0 <= i < k < |cands| && isDate(cands[k])
      ensures isDate(cands[i])
    {
      assert IsDateTyped(t, cands[k]);
      assert cands[k] in typed;
      assert cands[..|typed|][i] == cands[i];
      assert IsDateTyped(t, typed[i]);
    }
    DedupIsSubsequence(cands);
    PFirstSubsequence(Dedup(cands), cands, isDate);
  }

  // ---------------------------------------------------------- conversion

  /** A column taken on its own, as `df[c]` gives it. */
  datatype Series = Series(dtype: DType, values: seq<Cell>)

  /** `to_datetime(..., errors="coerce")` of one cell: missing stays missing and
      an unparseable value becomes missing instead of raising. */
  function CoerceDate(c: Cell, parse: Cell -> Option<int>): (r: Cell)
    ensures r.Time? || r.Missing?
    ensures r.Time? <==> !c.Missing? && parse(c).Some?
    ensures r.Time? ==> r == Time(parse(c).value)
  {
    if c.Missing? then Missing
    else match parse(c)
      case Some(ns) => Time(ns)
      case None => Missing
  }

  /** `ensure_datetime`: a datetime series is returned as it is; any other is
      converted cell by cell without ever failing. */
  function EnsureDatetime(s: Series, parse: Cell -> Option<int>): (r: Series)
    ensures r.dtype == DateTimeType
    ensures |r.values| == |s.values|
    ensures s.dtype == DateTimeType ==> r == s
    ensures s.dtype != DateTimeType ==>
      forall i :: 0 <= i < |s.values| ==> r.values[i] == CoerceDate(s.values[i], parse)
  {
    if s.dtype == DateTimeType then s
    else Series(DateTimeType, seq(|s.values|, i requires 0 <= i < |s.values| => CoerceDate(s.values[i], parse)))
  }

  /** Converting twice changes nothing the first conversion did not. */
  lemma EnsureDatetimeIdempotent(s: Series, parse: Cell -> Option<int>)
    ensures EnsureDatetime(EnsureDatetime(s, parse), parse) == EnsureDatetime(s, parse)
  {
  }

  /** After a conversion of a non-datetime series, a cell is missing exactly
      when it was missing or could not be parsed. */
  lemma {:induction false} EnsureDatetimeMissing(s: Series, parse: Cell -> Option<int>, i: nat)
    requires s.dtype != DateTimeType && i < |s.values|
    ensures EnsureDatetime(s, parse).values[i].Missing? <==> s.values[i].Missing? || parse(s.values[i]).None?
  {
  }
}

=== FILE: ingest.dfy ===
/** Reading an uploaded file into a table: routing by extension, the CSV
    encoding/separator fallback, the Excel first-sheet reader and the
    JSON-then-NDJSON reader. The foreign parsers are parameters. */
module Ingest {
  import opened Wrappers
  import opened Text
  import opened Seqs
  import opened Tables
  import opened Cleaning

  datatype Format = Csv | Excel | Json

  /** Why a file could not be read. `Unalignable` is the `IndexingError` the
      library's clean-up raises as written (`CleanAsWritten`). */
  datatype ReadError = UnsupportedFormat | CsvUndetected | ExcelUnreadable | JsonUnreadable | Unalignable

  /** The reader chosen for a file name, compared case-insensitively. */
  function Route(fileName: string): (r: Result<Format, ReadError>)
    ensures r == Success(Csv) <==> EndsWith(Lower(fileName), ".csv")
    ensures r == Success(Excel) <==>
      !EndsWith(Lower(fileName), ".csv")
      && (EndsWith(Lower(fileName), ".xlsx") || EndsWith(Lower(fileName), ".xls"))
    ensures r == Success(Json) ==> EndsWith(Lower(fileName), ".json")
    ensures r.Failure? <==>
      !EndsWith(Lower(fileName), ".csv") && !EndsWith(Lower(fileName), ".xlsx")
      && !EndsWith(Lower(fileName), ".xls") && !EndsWith(Lower(fileName), ".json")
    ensures r.Failure? ==> r.error == UnsupportedFormat
  {
    var name := Lower(fileName);
    if EndsWith(name, ".csv") then Success(Csv)
    else if EndsWith(name, ".xlsx") || EndsWith(name, ".xls") then Success(Excel)
    else if EndsWith(name, ".json") then Success(Json)
    else Failure(UnsupportedFormat)
  }

  /** Routing depends only on the lower-cased name. */
  lemma {:induction false} RouteIgnoresCase(fileName: string)
    ensures Route(fileName) == Route(Lower(fileName))
  {
    LowerIdempotent(fileName);
  }

  // ---------------------------------------------------------------- CSV

  datatype Encoding = Utf8 | Latin1

  /** One attempt of the CSV reader: an encoding and a field separator. */
  datatype Strategy = Strategy(encoding: Encoding, separator: char)

  const Encodings: seq<Encoding> := [Utf8, Latin1]
  const Separators: seq<char> := [',', ';', '\t', '|']

  /** The strategies for one encoding, one per separator, in separator order. */
  function WithEncoding(enc: Encoding, seps: seq<char>): (r: seq<Strategy>)
    ensures |r| == |seps|
    ensures forall j :: 0 <= j < |seps| ==> r[j] == Strategy(enc, seps[j])
  {
    seq(|seps|, j requires 0 <= j < |seps| => Strategy(enc, seps[j]))
  }

  /** The nested loop "for each encoding, for each separator" as one list:
      all separators of the first encoding come first. */
  function Product(encs: seq<Encoding>, seps: seq<char>): (r: seq<Strategy>)
    ensures forall k :: 0 <= k < |r| ==> r[k].encoding in encs && r[k].separator in seps
    ensures |encs| > 0 ==>
      |r| >= |seps| && r[..|seps|] == WithEncoding(encs[0], seps) && r[|seps|..] == Product(encs[1..], seps)
  {
    if |encs| == 0 then []
    else
      var rest := Product(encs[1..], seps);
      assert forall k :: 0 <= k < |rest| ==> rest[k].encoding in encs;
      WithEncoding(encs[0], seps) + rest
  }

  /** The eight CSV attempts in the order they are tried. */
  function Strategies(): seq<Strategy> {
    Product(Encodings, Separators)
  }

  /** utf-8 is tried before latin-1, and the separators in the order , ; tab |. */
  lemma StrategyOrder()
    ensures Strategies() == [
      Strategy(Utf8, ','), Strategy(Utf8, ';'), Strategy(Utf8, '\t'), Strategy(Utf8, '|'),
      Strategy(Latin1, ','), Strategy(Latin1, ';'), Strategy(Latin1, '\t'), Strategy(Latin1, '|')]
  {
    assert Encodings[1..] == [Latin1];
    assert [Latin1][1..] == [];
    ProductCons(Encodings, Separators);
    ProductCons([Latin1], Separators);
    SeparatorsFor(Utf8);
    SeparatorsFor(Latin1);
    assert Product([Latin1], Separators) == WithEncoding(Latin1, Separators) + [];
  }

  /** One unfolding of `Product`. */
  lemma ProductCons(encs: seq<Encoding>, seps: seq<char>)
    requires |encs| > 0
    ensures Product(encs, seps) == WithEncoding(encs[0], seps) + Product(encs[1..], seps)
  {
  }

  /** The four attempts of one encoding. */
  lemma SeparatorsFor(enc: Encoding)
    ensures WithEncoding(enc, Separators)
         == [Strategy(enc, ','), Strategy(enc, ';'), Strategy(enc, '\t'), Strategy(enc, '|')]
  {
  }

  /** Position `k` holds the first strategy the parser accepts. */
  predicate FirstAccepted(strats: seq<Strategy>, parse: Strategy -> Option<Table>, k: int) {
    0 <= k < |strats| && parse(strats[k]).Some?
    && forall i :: 0 <= i < k ==> parse(strats[i]).None?
  }

  /** Try the strategies in order and stop at the first that parses: the fold
      that replaces the source's try/except ladder. */
  function FirstSuccess(strats: seq<Strategy>, parse: Strategy -> Option<Table>): (r: Option<(nat, Table)>)
    ensures r.None? <==> forall i :: 0 <= i < |strats| ==> parse(strats[i]).None?
    ensures r.Some? ==>
      FirstAccepted(strats, parse, r.value.0) && parse(strats[r.value.0]) == Some(r.value.1)
  {
    if |strats| == 0 then None
    else match parse(strats[0])
      case Some(t) => Some((0, t))
      case None =>
        match FirstSuccess(strats[1..], parse)
        case None => None
        case Some((k, t)) => Some((k + 1, t))
  }

  /** The application's inline CSV reader: the first accepted strategy's table, as parsed. */
  function AppReadCsv(parse: Strategy -> Option<Table>): (r: Result<Table, ReadError>)
    ensures r.Failure? <==> forall i :: 0 <= i < |Strategies()| ==> parse(Strategies()[i]).None?
    ensures r.Failure? ==> r.error == CsvUndetected
    ensures r.Success? ==>
      exists k :: FirstAccepted(Strategies(), parse, k) && r.value == parse(Strategies()[k]).value
  {
    match FirstSuccess(Strategies(), parse)
    case Some((_, t)) => Success(t)
    case None => Failure(CsvUndetected)
  }

  /** The library's CSV reader: like `AppReadCsv`, then cleaned. */
  function ReadCsv(parse: Strategy -> Option<Table>): (r: Result<Table, ReadError>)
    ensures r.Failure? <==> forall i :: 0 <= i < |Strategies()| ==> parse(Strategies()[i]).None?
    ensures r.Failure? ==> r.error == CsvUndetected
    ensures r.Success? ==>
      exists k :: FirstAccepted(Strategies(), parse, k) && r.value == Clean(parse(Strategies()[k]).value)
  {
    match FirstSuccess(Strategies(), parse)
    case Some((_, t)) => Success(Clean(t))
    case None => Failure(CsvUndetected)
  }

  /** When utf-8 with a comma parses, that reading is the result, whatever the
      other strategies would give. */
  lemma CsvCommaUtf8Wins(parse: Strategy -> Option<Table>)
    requires parse(Strategy(Utf8, ',')).Some?
    ensures ReadCsv(parse) == Success(Clean(parse(Strategy(Utf8, ',')).value))
  {
    StrategyOrder();
    assert FirstAccepted(Strategies(), parse, 0);
  }

  /** A latin-1 reading is only ever used after all four utf-8 attempts failed. */
  lemma CsvLatin1OnlyAfterUtf8(parse: Strategy -> Option<Table>, k: int)
    requires FirstAccepted(Strategies(), parse, k)
    requires Strategies()[k].encoding == Latin1
    ensures forall sep :: sep in Separators ==> parse(Strategy(Utf8, sep)).None?
  {
    StrategyOrder();
    assert k >= 4;
    assert Strategies()[..4] == [Strategy(Utf8, ','), Strategy(Utf8, ';'), Strategy(Utf8, '\t'), Strategy(Utf8, '|')];
  }

  /** A reader's table passed through the library's clean-up. */
  function MapClean(r: Result<Table, ReadError>): Result<Table, ReadError> {
    match r
    case Success(t) => Success(Clean(t))
    case Failure(e) => Failure(e)
  }

  /** The library's CSV reader is the application's, followed by the clean-up. */
  lemma ReadCsvCleansAppReading(parse: Strategy -> Option<Table>)
    ensures ReadCsv(parse) == MapClean(AppReadCsv(parse))
  {
  }

  /** One CSV attempt of the library as written: `_clean` runs inside the same
      `try`, so a clean-up that raises makes the attempt fail like a parse error. */
  function CleanedAttempt(parse: Strategy -> Option<Table>): Strategy -> Option<Table> {
    s => if parse(s).Some? then CleanAsWritten(parse(s).value) else None
  }

  /** `_read_csv` as written: the first attempt that both parses and survives
      the clean-up as written. Since that clean-up fails on every table with
      a column, only a reading without columns ever gets through. */
  function ReadCsvAsWritten(parse: Strategy -> Option<Table>): (r: Result<Table, ReadError>)
    ensures r.Failure? <==> forall i :: 0 <= i < |Strategies()| ==>
      parse(Strategies()[i]).None? || |parse(Strategies()[i]).value.header| > 0
    ensures r.Failure? ==> r.error == CsvUndetected
    ensures r.Success? ==> |r.value.header| == 0
    ensures r.Success? ==> exists k :: (0 <= k < |Strategies()| && parse(Strategies()[k]).Some?
      && r.value == Clean(parse(Strategies()[k]).value))
  {
    var attempt := CleanedAttempt(parse);
    match FirstSuccess(Strategies(), attempt)
    case Some((k, t)) =>
      assert attempt(Strategies()[k]) == Some(t);
      Success(t)
    case None =>
      assert forall i :: 0 <= i < |Strategies()| ==> attempt(Strategies()[i]).None?;
      Failure(CsvUndetected)
  }

  /** Where the reader as written and the intended one part ways: when the
      utf-8/comma attempt parses, the intended reader returns it, while the
      reader as written fails as soon as every parsed table has a column. */
  lemma CsvAsWrittenFailsWhereIntendedReads(parse: Strategy -> Option<Table>)
    requires parse(Strategy(Utf8, ',')).Some?
    requires forall s :: parse(s).Some? ==> |parse(s).value.header| > 0
    ensures ReadCsv(parse) == Success(Clean(parse(Strategy(Utf8, ',')).value))
    ensures ReadCsvAsWritten(parse) == Failure(CsvUndetected)
  {
    CsvCommaUtf8Wins(parse);
  }

  /** The two-column file `a,b` / `1,2` as the utf-8/comma attempt reads it. */
  function TwoColumnSample(): Table {
    Frame([Header("a", IntType), Header("b", IntType)], [Row(0, [Int(1), Int(2)])])
  }

  /** A parser that reads the sample with utf-8 and a comma and fails otherwise. */
  function SampleParse(s: Strategy): Option<Table> {
    if s == Strategy(Utf8, ',') then Some(TwoColumnSample()) else None
  }

  /** A concrete input: the intended reader returns a table with columns,
      the reader as written raises "CSV com encoding/separador não detectado". */
  lemma CsvTwoColumnSample()
    ensures ReadCsv(SampleParse).Success? && |ReadCsv(SampleParse).value.header| > 0
    ensures ReadCsvAsWritten(SampleParse) == Failure(CsvUndetected)
  {
    SampleParseFacts(SampleParse);
    CsvAsWrittenFailsWhereIntendedReads(SampleParse);
  }

  lemma SampleParseFacts(parse: Strategy -> Option<Table>)
    requires parse == SampleParse
    ensures parse(Strategy(Utf8, ',')).Some?
    ensures forall s :: parse(s).Some? ==> |parse(s).value.header| > 0
    ensures |Clean(parse(Strategy(Utf8, ',')).value).header| > 0
  {
    var t := TwoColumnSample();
    assert parse(Strategy(Utf8, ',')) == Some(t);
    forall s | parse(s).Some?
      ensures |parse(s).value.header| > 0
    {
      assert parse(s) == Some(t);
    }
    SampleHasKeptColumn(t);
  }

  /** The sample's first column survives the intended clean-up. */
  lemma SampleHasKeptColumn(t: Table)
    requires t == TwoColumnSample()
    ensures |Clean(t).header| > 0
  {
    NamedAKept(t);
    CleanAsWrittenLosesColumns(t, 0);
  }

  lemma NamedAKept(t: Table)
    requires |t.header| > 0 && t.header[0].name == "a"
    ensures !IsPlaceholder(Strip(t.header[0].name))
  {
    StripStripped("a");
  }

  // -------------------------------------------------------------- Excel

  /** The library's Excel reader: the workbook's first sheet, cleaned. `workbook`
      is the list of sheet names, or None when the file cannot be opened. */
  function ReadExcel(workbook: Option<seq<string>>, readSheet: string -> Option<Table>): (r: Result<Table, ReadError>)
    ensures r.Success? <==>
      workbook.Some? && |workbook.value| > 0 && readSheet(workbook.value[0]).Some?
    ensures r.Success? ==> r.value == Clean(readSheet(workbook.value[0]).value)
    ensures r.Failure? ==> r.error == ExcelUnreadable
  {
    match workbook
    case None => Failure(ExcelUnreadable)
    case Some(sheets) =>
      if |sheets| == 0 then Failure(ExcelUnreadable)
      else match readSheet(sheets[0])
        case None => Failure(ExcelUnreadable)
        case Some(t) => Success(Clean(t))
  }

  /** The application's Excel reader: the sheet the user picked, as parsed. */
  function AppReadExcel(workbook: Option<seq<string>>, choice: nat, readSheet: string -> Option<Table>): (r: Result<Table, ReadError>)
    requires workbook.Some? && |workbook.value| > 0 ==> choice < |workbook.value|
    ensures r.Success? <==>
      workbook.Some? && |workbook.value| > 0 && readSheet(workbook.value[choice]).Some?
    ensures r.Success? ==> r.value == readSheet(workbook.value[choice]).value
    ensures r.Failure? ==> r.error == ExcelUnreadable
  {
    match workbook
    case None => Failure(ExcelUnreadable)
    case Some(sheets) =>
      if |sheets| == 0 then Failure(ExcelUnreadable)
      else match readSheet(sheets[choice])
        case None => Failure(ExcelUnreadable)
        case Some(t) => Success(t)
  }

  /** The library's Excel reader is the application's reading of the first
      sheet, followed by the clean-up. */
  lemma ReadExcelCleansFirstSheet(workbook: Option<seq<string>>, readSheet: string -> Option<Table>)
    ensures ReadExcel(workbook, readSheet) == MapClean(AppReadExcel(workbook, 0, readSheet))
  {
  }

  /** `_read_excel` as written: the clean-up's `IndexingError` propagates, so
      a first sheet with a column is an error. */
  function ReadExcelAsWritten(workbook: Option<seq<string>>, readSheet: string -> Option<Table>): (r: Result<Table, ReadError>)
    ensures ReadExcel(workbook, readSheet).Failure? ==> r == ReadExcel(workbook, readSheet)
    ensures r.Success? <==>
      ReadExcel(workbook, readSheet).Success? && |readSheet(workbook.value[0]).value.header| == 0
    ensures r.Success? ==> r == ReadExcel(workbook, readSheet) && |r.value.header| == 0
    ensures ReadExcel(workbook, readSheet).Success? && r.Failure? ==> r.error == Unalignable
  {
    match workbook
    case None => Failure(ExcelUnreadable)
    case Some(sheets) =>
      if |sheets| == 0 then Failure(ExcelUnreadable)
      else match readSheet(sheets[0])
        case None => Failure(ExcelUnreadable)
        case Some(t) =>
          match CleanAsWritten(t)
          case None => Failure(Unalignable)
          case Some(c) => Success(c)
  }

  // --------------------------------------------------------------- JSON

  /** A decoded JSON value, as far as the reader inspects it. */
  datatype Json = Object(members: seq<(string, Json)>) | Array(elements: seq<Json>) | Scalar(literal: string)

  /** A line that is not whitespace only, i.e. whose `strip()` is non-empty
      (`NonBlankIffStripNonEmpty`). */
  predicate NonBlank(line: string) {
    exists i :: 0 <= i < |line| && !IsSpace(line[i])
  }

  lemma NonBlankIffStripNonEmpty(line: string)
    ensures NonBlank(line) <==> |Strip(line)| > 0
  {
    StripEmptyIffBlank(line);
  }

  /** `[json.loads(line) for line in lines if line.strip()]`: None as soon as a
      non-blank line does not parse (`ParseLinesFails`, `ParseLinesRecords`). */
  function ParseLines(lines: seq<string>, loads: string -> Option<Json>): Option<seq<Json>>
    decreases |lines|
  {
    if |lines| == 0 then Some([])
    else
      var rest := ParseLines(lines[1..], loads);
      if !NonBlank(lines[0]) then rest
      else match loads(lines[0])
        case None => None
        case Some(j) =>
          match rest
          case None => None
          case Some(js) => Some([j] + js)
  }

  /** Some non-blank line does not parse. */
  predicate SomeLineFails(lines: seq<string>, loads: string -> Option<Json>) {
    exists k :: 0 <= k < |lines| && NonBlank(lines[k]) && loads(lines[k]).None?
  }

  /** The reading fails exactly when some non-blank line does not parse. */
  lemma {:induction false} ParseLinesFails(lines: seq<string>, loads: string -> Option<Json>)
    ensures ParseLines(lines, loads).None? <==> SomeLineFails(lines, loads)
    decreases |lines|
  {
    if |lines| > 0 {
      var tail := lines[1..];
      ParseLinesFails(tail, loads);
      if SomeLineFails(tail, loads) {
        var k :| 0 <= k < |tail| && NonBlank(tail[k]) && loads(tail[k]).None?;
        assert lines[k + 1] == tail[k];
      }
      if SomeLineFails(lines, loads) && !(NonBlank(lines[0]) && loads(lines[0]).None?) {
        var k :| 0 <= k < |lines| && NonBlank(lines[k]) && loads(lines[k]).None?;
        assert k > 0 && tail[k - 1] == lines[k];
      }
    }
  }

  /** A successful reading yields one record per non-blank line, in order. */
  lemma {:induction false} ParseLinesRecords(lines: seq<string>, loads: string -> Option<Json>)
    ensures var r := ParseLines(lines, loads);
      r.Some? ==> |r.value| == |Filter(lines, NonBlank)|
    ensures var r := ParseLines(lines, loads);
      r.Some? ==> forall k :: 0 <= k < |r.value| ==> loads(Filter(lines, NonBlank)[k]) == Some(r.value[k])
    decreases |lines|
  {
    if |lines| > 0 {
      var tail := lines[1..];
      ParseLinesRecords(tail, loads);
      var r := ParseLines(lines, loads);
      var ft := Filter(tail, NonBlank);
      var f := Filter(lines, NonBlank);
      if !NonBlank(lines[0]) {
        assert f == ft && r == ParseLines(tail, loads);
      } else if r.Some? {
        var js := ParseLines(tail, loads).value;
        assert f == [lines[0]] + ft;
        assert r.value == [loads(lines[0]).value] + js;
        forall k | 0 < k < |r.value|
          ensures loads(f[k]) == Some(r.value[k])
        {
          assert r.value[k] == js[k - 1] && f[k] == ft[k - 1];
        }
      }
    }
  }

  /** A whitespace-only line changes nothing in the NDJSON reading. */
  lemma {:induction false} ParseLinesSkipsBlank(a: seq<string>, blank: string, b: seq<string>, loads: string -> Option<Json>)
    requires !NonBlank(blank)
    ensures ParseLines(a + [blank] + b, loads) == ParseLines(a + b, loads)
    decreases |a|
  {
    if |a| == 0 {
      assert a + [blank] + b == [blank] + b;
      assert a + b == b;
      ParseLinesCons(blank, b, loads);
    } else {
      ParseLinesSkipsBlank(a[1..], blank, b, loads);
      SplitHead(a, [blank], b);
      ParseLinesSameTail(a[0], a[1..] + [blank] + b, a[1..] + b, loads);
    }
  }

  lemma ParseLinesSameTail(line: string, s: seq<string>, t: seq<string>, loads: string -> Option<Json>)
    requires ParseLines(s, loads) == ParseLines(t, loads)
    ensures ParseLines([line] + s, loads) == ParseLines([line] + t, loads)
  {
    ParseLinesCons(line, s, loads);
    ParseLinesCons(line, t, loads);
  }

  /** One unfolding of `ParseLines` on a first line and the rest. */
  lemma ParseLinesCons(line: string, rest: seq<string>, loads: string -> Option<Json>)
    ensures ParseLines([line] + rest, loads) ==
      if !NonBlank(line) then ParseLines(rest, loads)
      else if loads(line).None? || ParseLines(rest, loads).None? then None
      else Some([loads(line).value] + ParseLines(rest, loads).value)
  {
    assert ([line] + rest)[0] == line && ([line] + rest)[1..] == rest;
  }

  /** The document the library hands to `json_normalize`: the whole text if it
      parses, a lone object wrapped into a one-element list, otherwise the list
      of the non-blank lines parsed one by one. */
  function JsonDocument(text: string, loads: string -> Option<Json>): (r: Option<Json>)
    ensures var whole := loads(Strip(text));
      && (whole.Some? && whole.value.Object? ==> r == Some(Array([whole.value])))
      && (whole.Some? && !whole.value.Object? ==> r == whole)
    ensures loads(Strip(text)).None? ==>
      (r.Some? <==> ParseLines(Lines(text), loads).Some?)
    ensures loads(Strip(text)).None? && r.Some? ==>
      r.value == Array(ParseLines(Lines(text), loads).value)
  {
    var raw := Strip(text);
    match loads(raw)
    case Some(d) => Some(if d.Object? then Array([d]) else d)
    case None =>
      match ParseLines(SplitLines(raw), loads)
      case None => None
      case Some(records) => Some(Array(records))
  }

  /** The lines of the stripped document. */
  function Lines(text: string): seq<string> {
    SplitLines(Strip(text))
  }

  /** The library's JSON reader: the normalised document, cleaned. */
  function ReadJson(text: string, loads: string -> Option<Json>, normalize: Json -> Option<Table>): (r: Result<Table, ReadError>)
    ensures r.Success? <==> JsonDocument(text, loads).Some? && normalize(JsonDocument(text, loads).value).Some?
    ensures r.Success? ==> r.value == Clean(normalize(JsonDocument(text, loads).value).value)
    ensures r.Failure? ==> r.error == JsonUnreadable
  {
    match JsonDocument(text, loads)
    case None => Failure(JsonUnreadable)
    case Some(d) =>
      match normalize(d)
      case None => Failure(JsonUnreadable)
      case Some(t) => Success(Clean(t))
  }

  /** `_read_json` as written: the clean-up's `IndexingError` propagates, so
      a normalised table with a column is an error. */
  function ReadJsonAsWritten(text: string, loads: string -> Option<Json>, normalize: Json -> Option<Table>): (r: Result<Table, ReadError>)
    ensures ReadJson(text, loads, normalize).Failure? ==> r == ReadJson(text, loads, normalize)
    ensures r.Success? <==> (ReadJson(text, loads, normalize).Success?
      && |normalize(JsonDocument(text, loads).value).value.header| == 0)
    ensures r.Success? ==> r == ReadJson(text, loads, normalize) && |r.value.header| == 0
    ensures ReadJson(text, loads, normalize).Success? && r.Failure? ==> r.error == Unalignable
  {
    match ReadJson(text, loads, normalize)
    case Failure(e) => Failure(e)
    case Success(_) =>
      var t := normalize(JsonDocument(text, loads).value).value;
      match CleanAsWritten(t)
      case None => Failure(Unalignable)
      case Some(c) => Success(c)
  }

  /** `json_normalize` yields one row per record of a list. */
  ghost predicate RowPerRecord(normalize: Json -> Option<Table>) {
    forall records :: normalize(Array(records)).Some? ==> |normalize(Array(records)).value.rows| == |records|
  }

  /** When the whole text is not one JSON document, a successful reading has
      one row per non-blank line, and every non-blank line parsed. */
  lemma ReadJsonLineRows(text: string, loads: string -> Option<Json>, normalize: Json -> Option<Table>)
    requires loads(Strip(text)).None?
    requires RowPerRecord(normalize)
    ensures ReadJson(text, loads, normalize).Success? ==>
      |ReadJson(text, loads, normalize).value.rows| == |Filter(Lines(text), NonBlank)|
      && !SomeLineFails(Lines(text), loads)
  {
    ParseLinesRecords(Lines(text), loads);
    ParseLinesFails(Lines(text), loads);
  }

  /** A document that is a single JSON object reads as a one-row table. */
  lemma JsonObjectIsOneRow(text: string, loads: string -> Option<Json>, normalize: Json -> Option<Table>)
    requires loads(Strip(text)).Some? && loads(Strip(text)).value.Object?
    requires RowPerRecord(normalize)
    ensures ReadJson(text, loads, normalize).Success? ==> |ReadJson(text, loads, normalize).value.rows| == 1
  {
    assert JsonDocument(text, loads) == Some(Array([loads(Strip(text)).value]));
  }

  /** The application's inline JSON reader. Normalisation sits inside the same
      try block, so a whole document that parses but does not normalise also
      falls back to the line-by-line reading. No wrapping, no cleaning. */
  function AppReadJson(text: string, loads: string -> Option<Json>, normalize: Json -> Option<Table>): (r: Result<Table, ReadError>)
    ensures var whole := loads(Strip(text));
      whole.Some? && normalize(whole.value).Some? ==> r == Success(normalize(whole.value).value)
    ensures var whole := loads(Strip(text));
      !(whole.Some? && normalize(whole.value).Some?) ==>
        (r.Success? <==> ParseLines(Lines(text), loads).Some?
                         && normalize(Array(ParseLines(Lines(text), loads).value)).Some?)
    ensures r.Failure? ==> r.error == JsonUnreadable
  {
    var raw := Strip(text);
    var whole := match loads(raw) case Some(d) => normalize(d) case None => None;
    if whole.Some? then Success(whole.value)
    else match ParseLines(SplitLines(raw), loads)
      case None => Failure(JsonUnreadable)
      case Some(records) =>
        match normalize(Array(records))
        case None => Failure(JsonUnreadable)
        case Some(t) => Success(t)
  }

  /** Where the two readers part ways: a whole document that parses to a
      non-object but does not normalise fails in the library and is retried
      line by line in the application. */
  lemma AppJsonRetriesWhereLibraryFails(text: string, loads: string -> Option<Json>, normalize: Json -> Option<Table>)
    requires loads(Strip(text)).Some? && !loads(Strip(text)).value.Object?
    requires normalize(loads(Strip(text)).value).None?
    requires ParseLines(Lines(text), loads).Some?
    requires normalize(Array(ParseLines(Lines(text), loads).value)).Some?
    ensures ReadJson(text, loads, normalize).Failure?
    ensures AppReadJson(text, loads, normalize).Success?
  {
  }

  // ------------------------------------------------------------ routing

  /** Everything the foreign parsers would return for one uploaded file. */
  datatype Source = Source(
    csv: Strategy -> Option<Table>,
    workbook: Option<seq<string>>,
    sheet: string -> Option<Table>,
    text: string,
    loads: string -> Option<Json>,
    normalize: Json -> Option<Table>)

  /** The library's entry point: route by extension, read, clean. */
  function ReadAny(fileName: string, src: Source): (r: Result<Table, ReadError>)
    ensures Route(fileName).Failure? <==> r == Failure(UnsupportedFormat)
    ensures Route(fileName) == Success(Csv) ==> r == ReadCsv(src.csv)
    ensures Route(fileName) == Success(Excel) ==> r == ReadExcel(src.workbook, src.sheet)
    ensures Route(fileName) == Success(Json) ==> r == ReadJson(src.text, src.loads, src.normalize)
    ensures r.Success? ==> forall h :: h in r.value.header ==> IsStripped(h.name) && !IsPlaceholder(h.name)
    ensures r.Success? ==> forall i :: 0 <= i < |r.value.rows| ==> r.value.rows[i].index == i
  {
    match Route(fileName)
    case Failure(e) => Failure(e)
    case Success(Csv) => ReadCsv(src.csv)
    case Success(Excel) => ReadExcel(src.workbook, src.sheet)
    case Success(Json) => ReadJson(src.text, src.loads, src.normalize)
  }

  /** `read_any` as written: the same routing to the readers as written.
      Whatever the format, a table it returns has no column. */
  function ReadAnyAsWritten(fileName: string, src: Source): (r: Result<Table, ReadError>)
    ensures Route(fileName).Failure? <==> r == Failure(UnsupportedFormat)
    ensures Route(fileName) == Success(Csv) ==> r == ReadCsvAsWritten(src.csv)
    ensures Route(fileName) == Success(Excel) ==> r == ReadExcelAsWritten(src.workbook, src.sheet)
    ensures Route(fileName) == Success(Json) ==> r == ReadJsonAsWritten(src.text, src.loads, src.normalize)
    ensures r.Success? ==> |r.value.header| == 0
  {
    match Route(fileName)
    case Failure(e) => Failure(e)
    case Success(Csv) => ReadCsvAsWritten(src.csv)
    case Success(Excel) => ReadExcelAsWritten(src.workbook, src.sheet)
    case Success(Json) => ReadJsonAsWritten(src.text, src.loads, src.normalize)
  }

  /** Any file the intended reader turns into a table with columns is not
      read that way by the reader as written. */
  lemma ReadAnyAsWrittenLosesColumns(fileName: string, src: Source)
    requires ReadAny(fileName, src).Success? && |ReadAny(fileName, src).value.header| > 0
    ensures ReadAnyAsWritten(fileName, src) != ReadAny(fileName, src)
  {
  }

  /** The application's loading step: route, read inline, drop placeholder columns. */
  function AppLoad(fileName: string, src: Source, sheetChoice: nat): (r: Result<Table, ReadError>)
    requires src.workbook.Some? && |src.workbook.value| > 0 ==> sheetChoice < |src.workbook.value|
    ensures Route(fileName).Failure? <==> r == Failure(UnsupportedFormat)
    ensures Route(fileName) == Success(Csv) ==> r == MapDrop(AppReadCsv(src.csv))
    ensures Route(fileName) == Success(Excel) ==> r == MapDrop(AppReadExcel(src.workbook, sheetChoice, src.sheet))
    ensures Route(fileName) == Success(Json) ==> r == MapDrop(AppReadJson(src.text, src.loads, src.normalize))
    ensures r.Success? ==> forall h :: h in r.value.header ==> !IsPlaceholder(h.name)
  {
    match Route(fileName)
    case Failure(e) => Failure(e)
    case Success(Csv) => MapDrop(AppReadCsv(src.csv))
    case Success(Excel) => MapDrop(AppReadExcel(src.workbook, sheetChoice, src.sheet))
    case Success(Json) => MapDrop(AppReadJson(src.text, src.loads, src.normalize))
  }

  function MapDrop(r: Result<Table, ReadError>): (o: Result<Table, ReadError>)
    ensures o.Success? ==> forall h :: h in o.value.header ==> !IsPlaceholder(h.name)
  {
    match r
    case Success(t) => Success(DropPlaceholders(t))
    case Failure(e) => Failure(e)
  }
}

=== FILE: ranking.dfy ===
/** The Top-N cut on aggregated rows: `sort_values("valor", ascending=False).head(n)`. */
module Ranking {
  import opened Seqs
  import opened Sorting
  import opened Reductions
  import opened Grouping

  predicate IsNumber<K>(p: Point<K>) { p.value.Num? }

  predicate IsNaN<K>(p: Point<K>) { p.value.NaN? }

  /** The sort key of a descending sort; NaN rows are kept apart before sorting. */
  function Descending<K>(p: Point<K>): real {
    if p.value.Num? then -p.value.x else 0.0
  }

  /** A descending sort with NaN last puts `p` strictly before `q`. */
  predicate Outranks<K>(p: Point<K>, q: Point<K>) {
    p.value.Num? && (q.value.NaN? || p.value.x > q.value.x)
  }

  /** No row outranks a row placed before it. */
  predicate RankedDesc<K>(s: seq<Point<K>>) {
    forall i, j :: 0 <= i < j < |s| ==> !Outranks(s[j], s[i])
  }

  /** Numbers in descending order, then the NaN rows in their original order. */
  function SortDesc<K>(ps: seq<Point<K>>): (r: seq<Point<K>>)
    ensures RankedDesc(r)
    ensures multiset(r) == multiset(ps)
  {
    SortDescRanked(ps);
    FilterPartition(ps, IsNumber, IsNaN);
    SortBy(Filter(ps, IsNumber), Descending) + Filter(ps, IsNaN)
  }

  lemma SortDescRanked<K>(ps: seq<Point<K>>)
    ensures RankedDesc(SortBy(Filter(ps, IsNumber), Descending) + Filter(ps, IsNaN))
  {
    var sorted := SortBy(Filter(ps, IsNumber), Descending);
    var nans := Filter(ps, IsNaN);
    var r := sorted + nans;
    SortedAreNumbers(ps);
    forall i, j | 0 <= i < j < |r|
      ensures !Outranks(r[j], r[i])
    {
      if j >= |sorted| {
        NaNNeverOutranks(ps, j - |sorted|, r[i]);
        assert r[j] == nans[j - |sorted|];
      } else {
        SortedNeverOutranks(ps, i, j);
        assert r[i] == sorted[i] && r[j] == sorted[j];
      }
    }
  }

  /** A NaN row outranks nothing. */
  lemma NaNNeverOutranks<K>(ps: seq<Point<K>>, k: nat, q: Point<K>)
    requires k < |Filter(ps, IsNaN)|
    ensures !Outranks(Filter(ps, IsNaN)[k], q)
  {
    var nans := Filter(ps, IsNaN);
    assert nans[k] in nans;
    assert IsNaN(nans[k]);
  }

  /** Among the numbers sorted by `Descending`, a later row never outranks an earlier one. */
  lemma SortedNeverOutranks<K>(ps: seq<Point<K>>, i: nat, j: nat)
    requires i < j < |SortBy(Filter(ps, IsNumber), Descending)|
    ensures var sorted := SortBy(Filter(ps, IsNumber), Descending);
      !Outranks(sorted[j], sorted[i])
  {
    var sorted := SortBy(Filter(ps, IsNumber), Descending);
    SortedAreNumbers(ps);
    assert SortedBy(sorted, Descending);
    assert Descending(sorted[i]) <= Descending(sorted[j]);
    assert sorted[i].value.Num? && sorted[j].value.Num?;
  }

  /** The sorted part holds only numbers. */
  lemma SortedAreNumbers<K>(ps: seq<Point<K>>)
    ensures var sorted := SortBy(Filter(ps, IsNumber), Descending);
      forall k :: 0 <= k < |sorted| ==> sorted[k].value.Num?
  {
    var nums := Filter(ps, IsNumber);
    var sorted := SortBy(nums, Descending);
    forall k | 0 <= k < |sorted|
      ensures sorted[k].value.Num?
    {
      assert sorted[k] in multiset(sorted);
      assert sorted[k] in nums;
    }
  }

  /** Cutting a ranked sequence: the prefix stays ranked and nothing in the
      remainder outranks anything in the prefix. */
  lemma RankedCut<K>(s: seq<Point<K>>, k: nat)
    requires RankedDesc(s) && k <= |s|
    ensures RankedDesc(s[..k])
    ensures forall p, q :: p in multiset(s[k..]) && q in s[..k] ==> !Outranks(p, q)
  {
    forall p, q | p in multiset(s[k..]) && q in s[..k]
      ensures !Outranks(p, q)
    {
      var j :| 0 <= j < |s[k..]| && s[k..][j] == p;
      var i :| 0 <= i < k && s[..k][i] == q;
      assert s[i] == q && s[k + j] == p;
    }
  }

  /** `r` is a Top-`n` cut of `ps`: everything when `n` is not positive,
      otherwise exactly min(n, |ps|) rows of `ps`, ranked, with no row left
      out outranking a row kept. */
  predicate TopCut<K(==)>(ps: seq<Point<K>>, r: seq<Point<K>>, n: int) {
    (n <= 0 ==> r == ps)
    && (n > 0 ==>
      |r| == (if n < |ps| then n else |ps|) && multiset(r) <= multiset(ps) && RankedDesc(r)
      && forall p, q :: p in multiset(ps) - multiset(r) && q in r ==> !Outranks(p, q))
  }

  /** The `n` best rows when `n` is positive, every row otherwise. The kept rows
      come from the input, in ranked order, and no row left out outranks a
      row that was kept. */
  function TopN<K>(ps: seq<Point<K>>, n: int): (r: seq<Point<K>>)
    ensures n <= 0 ==> r == ps
    ensures n > 0 ==> |r| == if n < |ps| then n else |ps|
    ensures multiset(r) <= multiset(ps)
    ensures n > 0 ==> RankedDesc(r)
    ensures n > 0 ==>
      forall p, q :: p in multiset(ps) - multiset(r) && q in r ==> !Outranks(p, q)
    ensures TopCut(ps, r, n)
  {
    if n <= 0 then ps
    else
      var s := SortDesc(ps);
      var r := Take(s, n);
      CutMultiset(s, |r|);
      RankedCut(s, |r|);
      r
  }

  /** A cut at least as large as the input keeps every row. */
  lemma TopNLargeKeepsAll<K>(ps: seq<Point<K>>, n: int)
    requires n >= |ps|
    ensures multiset(TopN(ps, n)) == multiset(ps)
  {
    if n > 0 {
      var s := SortDesc(ps);
      assert Take(s, n) == s;
    }
  }

  /** A prefix takes its own elements out of the whole, leaving the rest. */
  lemma CutMultiset<T>(s: seq<T>, k: nat)
    requires k <= |s|
    ensures multiset(s[..k]) <= multiset(s)
    ensures multiset(s) - multiset(s[..k]) == multiset(s[k..])
  {
    assert s == s[..k] + s[k..];
    assert multiset(s) == multiset(s[..k]) + multiset(s[k..]);
  }
}

=== FILE: reductions.dfy ===
/** The reductions a group of values can be summarised by, and the Portuguese
    labels the app offers for them. Values are exact reals; pandas' float64
    rounding is not modelled. */
module Reductions {
  import opened Wrappers
  import opened Sorting

  /** A reduced value: a number, or NaN when a reduction has nothing to work on. */
  datatype Value = Num(x: real) | NaN

  datatype Func = Sum | Mean | Count | Median | Max | Min

  /** The label under which the app lists each reduction. */
  function Label(f: Func): string {
    match f
    case Sum => "soma"
    case Mean => "média"
    case Count => "contagem"
    case Median => "mediana"
    case Max => "máximo"
    case Min => "mínimo"
  }

  /** The labels in the order the app's selector shows them. */
  const Labels: seq<string> := ["soma", "média", "contagem", "mediana", "máximo", "mínimo"]

  /** The label-to-reduction table; an unknown label falls back to a sum. */
  function HowMap(how: string): Func {
    if how == "média" then Mean
    else if how == "contagem" then Count
    else if how == "mediana" then Median
    else if how == "máximo" then Max
    else if how == "mínimo" then Min
    else Sum
  }

  /** Every reduction is found again from its label, and the labels are
      exactly the app's list. */
  lemma LabelRoundTrip(f: Func)
    ensures HowMap(Label(f)) == f
    ensures Label(f) in Labels
  {
  }

  /** A label outside the app's list is treated as "soma". */
  lemma HowMapUnknownIsSum(how: string)
    requires how !in Labels
    ensures HowMap(how) == Sum
  {
  }

  // ---------------------------------------------------------- plain numbers

  /** The values that are present, in order (NaN and None are skipped). */
  function Present(vs: seq<Option<real>>): (r: seq<real>)
    ensures |r| <= |vs|
    ensures forall x :: x in r ==> Some(x) in vs
    ensures forall i :: 0 <= i < |vs| && vs[i].Some? ==> vs[i].value in r
  {
    if |vs| == 0 then []
    else
      assert forall i :: 1 <= i < |vs| ==> vs[i] == vs[1..][i - 1];
      (if vs[0].Some? then [vs[0].value] else []) + Present(vs[1..])
  }

  function Total(xs: seq<real>): real {
    if |xs| == 0 then 0.0 else xs[0] + Total(xs[1..])
  }

  function MaxOf(xs: seq<real>): (r: real)
    requires |xs| > 0
    ensures r in xs
    ensures forall x :: x in xs ==> x <= r
  {
    if |xs| == 1 then xs[0]
    else
      var m := MaxOf(xs[1..]);
      assert forall x :: x in xs ==> x == xs[0] || x in xs[1..];
      if xs[0] >= m then xs[0] else m
  }

  function MinOf(xs: seq<real>): (r: real)
    requires |xs| > 0
    ensures r in xs
    ensures forall x :: x in xs ==> r <= x
  {
    if |xs| == 1 then xs[0]
    else
      var m := MinOf(xs[1..]);
      assert forall x :: x in xs ==> x == xs[0] || x in xs[1..];
      if xs[0] <= m then xs[0] else m
  }

  /** A sum of values that all lie in [lo, hi] lies between n*lo and n*hi. */
  lemma {:induction false} TotalBounds(xs: seq<real>, lo: real, hi: real)
    requires forall x :: x in xs ==> lo <= x <= hi
    ensures |xs| as real * lo <= Total(xs) <= |xs| as real * hi
  {
    if |xs| > 0 {
      var rest := xs[1..];
      assert xs[0] in xs && forall x :: x in rest ==> x in xs;
      TotalBounds(rest, lo, hi);
      var m := |rest| as real;
      var t := Total(rest);
      assert m * lo <= t <= m * hi;
      assert |xs| as real * lo == m * lo + lo && |xs| as real * hi == m * hi + hi by {
        assert |xs| as real == m + 1.0;
      }
      assert Total(xs) == xs[0] + t;
    }
  }

  /** The arithmetic mean, exactly. */
  function MeanOf(xs: seq<real>): (r: real)
    requires |xs| > 0
    ensures MinOf(xs) <= r <= MaxOf(xs)
    ensures AveragesTo(xs, r)
  {
    MeanBounds(xs);
    MeanAverages(xs);
    Total(xs) / |xs| as real
  }

  lemma MeanBounds(xs: seq<real>)
    requires |xs| > 0
    ensures MinOf(xs) <= Total(xs) / |xs| as real <= MaxOf(xs)
  {
    var lo, hi := MinOf(xs), MaxOf(xs);
    TotalBounds(xs, lo, hi);
    QuotientBounds(xs, lo, hi);
  }

  lemma MeanAverages(xs: seq<real>)
    requires |xs| > 0
    ensures AveragesTo(xs, Total(xs) / |xs| as real)
  {
    var t, n := Total(xs), |xs| as real;
    assert (t / n) * n == t;
  }

  /** `m` times the number of values gives their total. */
  predicate AveragesTo(xs: seq<real>, m: real) {
    m * |xs| as real == Total(xs)
  }

  /** Values whose total lies between n*lo and n*hi average between lo and hi. */
  lemma QuotientBounds(xs: seq<real>, lo: real, hi: real)
    requires |xs| > 0 && |xs| as real * lo <= Total(xs) <= |xs| as real * hi
    ensures lo <= Total(xs) / |xs| as real <= hi
  {
    var t, n := Total(xs), |xs| as real;
    assert (t / n) * n == t;
  }

  /** The middle element of the sorted values, or the mean of the two middle
      ones when their number is even. */
  function MedianOf(xs: seq<real>): (r: real)
    requires |xs| > 0
    ensures MinOf(xs) <= r <= MaxOf(xs)
    ensures |xs| % 2 == 1 ==> r in xs
  {
    var s := SortBy(xs, x => x);
    var n := |s|;
    assert forall k :: 0 <= k < n ==> s[k] in xs by {
      forall k | 0 <= k < n
        ensures s[k] in xs
      {
        assert s[k] in multiset(s);
      }
    }
    if n % 2 == 1 then s[n / 2]
    else (s[n / 2 - 1] + s[n / 2]) / 2.0
  }

  // ---------------------------------------------------------- reductions

  /** One reduction of a group's values, with pandas' conventions for groups
      without values: the sum is 0, the count is 0, the rest are NaN. */
  function Reduce(f: Func, vs: seq<Option<real>>): (r: Value)
    ensures r.NaN? <==> f != Sum && f != Count && |Present(vs)| == 0
    ensures f == Count ==> r == Num(|Present(vs)| as real)
    ensures r.Num? && f != Sum && f != Count ==>
      MinOf(Present(vs)) <= r.x <= MaxOf(Present(vs))
    ensures f == Sum ==> r == Num(Total(Present(vs)))
    ensures r.Num? && f == Max ==>
      r.x in Present(vs) && forall v :: v in Present(vs) ==> v <= r.x
    ensures r.Num? && f == Min ==>
      r.x in Present(vs) && forall v :: v in Present(vs) ==> r.x <= v
    ensures r.Num? && f == Mean ==> AveragesTo(Present(vs), r.x)
    ensures r.Num? && f == Median && |Present(vs)| % 2 == 1 ==> r.x in Present(vs)
  {
    var ps := Present(vs);
    match f
    case Count => Num(|ps| as real)
    case Sum => Num(Total(ps))
    case Mean => if |ps| == 0 then NaN else Num(MeanOf(ps))
    case Median => if |ps| == 0 then NaN else Num(MedianOf(ps))
    case Max => if |ps| == 0 then NaN else Num(MaxOf(ps))
    case Min => if |ps| == 0 then NaN else Num(MinOf(ps))
  }
}

=== FILE: seqs.dfy ===
/** Generic sequence operations shared by the pipeline stages: order-preserving
    filters, masks, first-encounter de-duplication and prefixes. */
module Seqs {

  /** `a` is `b` with some elements removed and the rest kept in order. */
  predicate SubsequenceOf<T(==)>(a: seq<T>, b: seq<T>)
    decreases |b|
  {
    |a| == 0 ||
    (|b| > 0 && ((a[0] == b[0] && SubsequenceOf(a[1..], b[1..])) || SubsequenceOf(a, b[1..])))
  }

  /** No element occurs twice. */
  predicate NoDuplicates<T(==)>(s: seq<T>) {
    forall i, j :: 0 <= i < j < |s| ==> s[i] != s[j]
  }

  /** Every element satisfying `p` comes before every element that does not. */
  predicate PFirst<T>(s: seq<T>, p: T -> bool) {
    forall i, k :: 0 <= i < k < |s| && p(s[k]) ==> p(s[i])
  }

  /** The elements of `s` that satisfy `p`, in their original order. */
  function Filter<T>(s: seq<T>, p: T -> bool): (r: seq<T>)
    ensures |r| <= |s|
    ensures forall x :: x in r ==> x in s && p(x)
  {
    if |s| == 0 then []
    else (if p(s[0]) then [s[0]] else []) + Filter(s[1..], p)
  }

  /** How many entries of `mask` are true. */
  function Trues(mask: seq<bool>): (r: nat)
    ensures r <= |mask|
  {
    if |mask| == 0 then 0 else (if mask[0] then 1 else 0) + Trues(mask[1..])
  }

  /** The elements of `s` at the positions where `mask` is true, in order. */
  function Select<T>(s: seq<T>, mask: seq<bool>): (r: seq<T>)
    requires |mask| == |s|
    ensures |r| == Trues(mask)
    ensures forall x :: x in r ==> x in s
  {
    if |s| == 0 then []
    else (if mask[0] then [s[0]] else []) + Select(s[1..], mask[1..])
  }

  /** The elements of `s` without repetitions, each at its first occurrence. */
  function Dedup<T(==)>(s: seq<T>): (r: seq<T>)
    ensures NoDuplicates(r)
    ensures forall x :: x in r ==> x in s
    ensures forall i :: 0 <= i < |s| ==> s[i] in r
  {
    if |s| == 0 then []
    else
      var d := Dedup(s[..|s| - 1]);
      if s[|s| - 1] in d then d else d + [s[|s| - 1]]
  }

  /** The first `n` elements of `s`, or all of them when there are fewer. */
  function Take<T>(s: seq<T>, n: nat): (r: seq<T>)
    ensures |r| == if n < |s| then n else |s|
    ensures r == s[..|r|]
  {
    if n < |s| then s[..n] else s
  }

  /** Splitting off the first element of a concatenation. */
  lemma SplitHead<T>(a: seq<T>, m: seq<T>, b: seq<T>)
    requires |a| > 0
    ensures a + m + b == [a[0]] + (a[1..] + m + b)
    ensures a + b == [a[0]] + (a[1..] + b)
  {
  }

  lemma {:induction false} FilterComplete<T>(s: seq<T>, p: T -> bool, x: T)
    requires x in s && p(x)
    ensures x in Filter(s, p)
    decreases |s|
  {
    if s[0] != x {
      assert x in s[1..];
      FilterComplete(s[1..], p, x);
    }
  }

  /** Filtering keeps every occurrence of a kept value and none of a dropped one. */
  lemma {:induction false} FilterCounts<T>(s: seq<T>, p: T -> bool, x: T)
    ensures multiset(Filter(s, p))[x] == if p(x) then multiset(s)[x] else 0
    decreases |s|
  {
    if |s| > 0 {
      FilterCounts(s[1..], p, x);
      assert s == [s[0]] + s[1..];
    }
  }

  lemma {:induction false} FilterIsSubsequence<T>(s: seq<T>, p: T -> bool)
    ensures SubsequenceOf(Filter(s, p), s)
    decreases |s|
  {
    if |s| > 0 {
      FilterIsSubsequence(s[1..], p);
      if !p(s[0]) {
        assert Filter(s, p) == Filter(s[1..], p);
      }
    }
  }

  lemma {:induction false} FilterAllKept<T>(s: seq<T>, p: T -> bool)
    requires forall x :: x in s ==> p(x)
    ensures Filter(s, p) == s
    decreases |s|
  {
    if |s| > 0 {
      FilterAllKept(s[1..], p);
    }
  }

  lemma {:induction false} FilterIdempotent<T>(s: seq<T>, p: T -> bool)
    ensures Filter(Filter(s, p), p) == Filter(s, p)
  {
    FilterAllKept(Filter(s, p), p);
  }

  /** Two filters give the same rows whichever is applied first. */
  lemma {:induction false} FilterCommute<T>(s: seq<T>, p: T -> bool, q: T -> bool)
    ensures Filter(Filter(s, p), q) == Filter(Filter(s, q), p)
    decreases |s|
  {
    if |s| > 0 {
      FilterCommute(s[1..], p, q);
      FilterAppend([s[0]], s[1..], p);
      FilterAppend([s[0]], s[1..], q);
      FilterAppend(Filter([s[0]], p), Filter(s[1..], p), q);
      FilterAppend(Filter([s[0]], q), Filter(s[1..], q), p);
    }
  }

  lemma {:induction false} FilterAppend<T>(a: seq<T>, b: seq<T>, p: T -> bool)
    ensures Filter(a + b, p) == Filter(a, p) + Filter(b, p)
    decreases |a|
  {
    if |a| == 0 {
      assert a + b == b;
    } else {
      FilterAppend(a[1..], b, p);
      var h := if p(a[0]) then [a[0]] else [];
      assert (a + b)[0] == a[0] && (a + b)[1..] == a[1..] + b;
      assert Filter(a + b, p) == h + Filter(a[1..] + b, p);
      assert Filter(a, p) == h + Filter(a[1..], p);
    }
  }

  /** Selecting with a mask computed from `p` is filtering with `p`. */
  lemma {:induction false} SelectByPredicate<T>(s: seq<T>, mask: seq<bool>, p: T -> bool)
    requires |mask| == |s|
    requires forall i :: 0 <= i < |s| ==> mask[i] == p(s[i])
    ensures Select(s, mask) == Filter(s, p)
    decreases |s|
  {
    if |s| > 0 {
      SelectByPredicate(s[1..], mask[1..], p);
    }
  }

  lemma {:induction false} SelectAllKept<T>(s: seq<T>, mask: seq<bool>)
    requires |mask| == |s|
    requires forall i :: 0 <= i < |mask| ==> mask[i]
    ensures Select(s, mask) == s
    decreases |s|
  {
    if |s| > 0 {
      SelectAllKept(s[1..], mask[1..]);
    }
  }

  lemma {:induction false} SelectIsSubsequence<T>(s: seq<T>, mask: seq<bool>)
    requires |mask| == |s|
    ensures SubsequenceOf(Select(s, mask), s)
    decreases |s|
  {
    if |s| > 0 {
      SelectIsSubsequence(s[1..], mask[1..]);
      if !mask[0] {
        assert Select(s, mask) == Select(s[1..], mask[1..]);
      }
    }
  }

  /** Selection commutes with applying a function to every element. */
  lemma {:induction false} SelectMap<T, U>(s: seq<T>, mask: seq<bool>, f: T -> U)
    requires |mask| == |s|
    ensures Select(seq(|s|, i requires 0 <= i < |s| => f(s[i])), mask)
         == seq(|Select(s, mask)|, i requires 0 <= i < |Select(s, mask)| => f(Select(s, mask)[i]))
    decreases |s|
  {
    if |s| > 0 {
      var fs := seq(|s|, i requires 0 <= i < |s| => f(s[i]));
      assert fs[1..] == seq(|s[1..]|, i requires 0 <= i < |s[1..]| => f(s[1..][i]));
      SelectMap(s[1..], mask[1..], f);
    }
  }

  lemma {:induction false} SelectComplete<T>(s: seq<T>, mask: seq<bool>, i: nat)
    requires |mask| == |s| && i < |s| && mask[i]
    ensures s[i] in Select(s, mask)
    decreases |s|
  {
    if i > 0 {
      SelectComplete(s[1..], mask[1..], i - 1);
    }
  }

  lemma {:induction false} SubsequenceMembers<T>(a: seq<T>, b: seq<T>)
    requires SubsequenceOf(a, b)
    ensures forall x :: x in a ==> x in b
    decreases |b|
  {
    if |a| > 0 {
      if a[0] == b[0] && SubsequenceOf(a[1..], b[1..]) {
        SubsequenceMembers(a[1..], b[1..]);
        assert a == [a[0]] + a[1..];
      } else {
        SubsequenceMembers(a, b[1..]);
      }
    }
  }

  lemma {:induction false} SubsequenceOfSelf<T>(s: seq<T>)
    ensures SubsequenceOf(s, s)
    decreases |s|
  {
    if |s| > 0 {
      SubsequenceOfSelf(s[1..]);
    }
  }

  /** Appending one element to the larger sequence keeps the relation. */
  lemma {:induction false} SubsequenceSnocRight<T>(a: seq<T>, b: seq<T>, x: T)
    requires SubsequenceOf(a, b)
    ensures SubsequenceOf(a, b + [x])
    decreases |b|
  {
    if |a| > 0 {
      assert (b + [x])[1..] == b[1..] + [x];
      if a[0] == b[0] && SubsequenceOf(a[1..], b[1..]) {
        SubsequenceSnocRight(a[1..], b[1..], x);
      } else {
        SubsequenceSnocRight(a, b[1..], x);
      }
    }
  }

  /** Appending the same element to both sides keeps the relation. */
  lemma {:induction false} SubsequenceSnocBoth<T>(a: seq<T>, b: seq<T>, x: T)
    requires SubsequenceOf(a, b)
    ensures SubsequenceOf(a + [x], b + [x])
    decreases |b|
  {
    if |a| == 0 {
      assert a + [x] == [x];
      SubsequenceOnlyLast(b, x);
    } else {
      assert (b + [x])[1..] == b[1..] + [x];
      assert (a + [x])[1..] == a[1..] + [x];
      if a[0] == b[0] && SubsequenceOf(a[1..], b[1..]) {
        SubsequenceSnocBoth(a[1..], b[1..], x);
      } else {
        SubsequenceSnocBoth(a, b[1..], x);
      }
    }
  }

  lemma {:induction false} SubsequenceOnlyLast<T>(b: seq<T>, x: T)
    ensures SubsequenceOf([x], b + [x])
    decreases |b|
  {
    if |b| == 0 {
      assert [x][1..] == [];
    } else {
      assert (b + [x])[1..] == b[1..] + [x];
      SubsequenceOnlyLast(b[1..], x);
    }
  }

  lemma {:induction false} DedupIsSubsequence<T>(s: seq<T>)
    ensures SubsequenceOf(Dedup(s), s)
    decreases |s|
  {
    if |s| > 0 {
      var init := s[..|s| - 1];
      assert s == init + [s[|s| - 1]];
      DedupIsSubsequence(init);
      if s[|s| - 1] in Dedup(init) {
        SubsequenceSnocRight(Dedup(init), init, s[|s| - 1]);
      } else {
        SubsequenceSnocBoth(Dedup(init), init, s[|s| - 1]);
      }
    }
  }

  /** De-duplicating a sequence that has no repetitions changes nothing. */
  lemma {:induction false} DedupOfDistinct<T>(s: seq<T>)
    requires NoDuplicates(s)
    ensures Dedup(s) == s
    decreases |s|
  {
    if |s| > 0 {
      var init := s[..|s| - 1];
      DedupOfDistinct(init);
      assert s[|s| - 1] !in init;
      assert s == init + [s[|s| - 1]];
    }
  }

  /** "p-elements first" survives removal of elements. */
  lemma {:induction false} PFirstSubsequence<T>(a: seq<T>, b: seq<T>, p: T -> bool)
    requires SubsequenceOf(a, b) && PFirst(b, p)
    ensures PFirst(a, p)
    decreases |b|
  {
    if |a| > 0 {
      assert PFirst(b[1..], p);
      if a[0] == b[0] && SubsequenceOf(a[1..], b[1..]) {
        PFirstSubsequence(a[1..], b[1..], p);
        SubsequenceMembers(a[1..], b[1..]);
        forall i, k | 0 <= i < k < |a| && p(a[k])
          ensures p(a[i])
        {
          if i == 0 {
            assert a[k] in a[1..];
            var m :| 0 <= m < |b[1..]| && b[1..][m] == a[k];
            assert b[m + 1] == a[k];
          } else {
            assert a[1..][i - 1] == a[i] && a[1..][k - 1] == a[k];
          }
        }
      } else {
        PFirstSubsequence(a, b[1..], p);
      }
    }
  }

  /** An element at two positions is counted at least twice. */
  lemma RepeatCount<T>(s: seq<T>, i: nat, j: nat)
    requires i < j < |s| && s[i] == s[j]
    ensures multiset(s)[s[i]] >= 2
  {
    assert s == s[..j] + [s[j]] + s[j + 1..];
    assert s[i] in s[..j];
  }

  /** In a sequence without duplicates every element is counted once. */
  lemma {:induction false} DistinctCount<T>(s: seq<T>, x: T)
    requires NoDuplicates(s)
    ensures multiset(s)[x] <= 1
  {
    if |s| > 0 {
      assert s == [s[0]] + s[1..];
      DistinctCount(s[1..], x);
      if s[0] == x {
        assert x !in s[1..];
      }
    }
  }

  /** Reordering keeps a sequence free of duplicates. */
  lemma PermutationKeepsDistinct<T>(a: seq<T>, b: seq<T>)
    requires multiset(a) == multiset(b) && NoDuplicates(b)
    ensures NoDuplicates(a)
  {
    forall i, j | 0 <= i < j < |a|
      ensures a[i] != a[j]
    {
      if a[i] == a[j] {
        RepeatCount(a, i, j);
        DistinctCount(b, a[i]);
      }
    }
  }

  /** Two complementary filters split a sequence between them. */
  lemma {:induction false} FilterPartition<T>(s: seq<T>, p: T -> bool, q: T -> bool)
    requires forall x :: p(x) != q(x)
    ensures multiset(Filter(s, p)) + multiset(Filter(s, q)) == multiset(s)
  {
    if |s| > 0 {
      var h, tail := [s[0]], s[1..];
      var a, b := Filter(tail, p), Filter(tail, q);
      FilterPartition(tail, p, q);
      assert s == h + tail;
      if p(s[0]) {
        assert Filter(s, p) == h + a && Filter(s, q) == b;
        calc {
          multiset(Filter(s, p)) + multiset(Filter(s, q));
          multiset(h) + multiset(a) + multiset(b);
          multiset(h) + multiset(tail);
        }
      } else {
        assert Filter(s, q) == h + b && Filter(s, p) == a;
        calc {
          multiset(Filter(s, p)) + multiset(Filter(s, q));
          multiset(a) + (multiset(h) + multiset(b));
          multiset(h) + multiset(tail);
        }
      }
    }
  }

  /** Keeping a subsequence of a subsequence gives a subsequence. */
  lemma {:induction false} SubsequenceTrans<T>(a: seq<T>, b: seq<T>, c: seq<T>)
    requires SubsequenceOf(a, b) && SubsequenceOf(b, c)
    ensures SubsequenceOf(a, c)
    decreases |c|
  {
    if |a| > 0 {
      if SubsequenceOf(b, c[1..]) {
        SubsequenceTrans(a, b, c[1..]);
      } else if a[0] == b[0] && SubsequenceOf(a[1..], b[1..]) {
        SubsequenceTrans(a[1..], b[1..], c[1..]);
      } else {
        SubsequenceTrans(a, b[1..], c[1..]);
      }
    }
  }

  /** Filtering twice is filtering once by both conditions. */
  lemma {:induction false} FilterFuse<T>(s: seq<T>, p: T -> bool, q: T -> bool, both: T -> bool)
    requires forall x :: both(x) == (p(x) && q(x))
    ensures Filter(Filter(s, p), q) == Filter(s, both)
    decreases |s|
  {
    if |s| > 0 {
      FilterFuse(s[1..], p, q, both);
      FilterAppend(Filter([s[0]], p), Filter(s[1..], p), q);
      assert Filter(s, p) == Filter([s[0]], p) + Filter(s[1..], p);
    }
  }

  /** Filters that agree on every element keep the same elements. */
  lemma {:induction false} FilterCongruent<T>(s: seq<T>, p: T -> bool, q: T -> bool)
    requires forall x :: x in s ==> p(x) == q(x)
    ensures Filter(s, p) == Filter(s, q)
  {
    if |s| > 0 {
      assert forall x :: x in s[1..] ==> x in s;
      FilterCongruent(s[1..], p, q);
    }
  }

  /** How `Filter` unfolds on a non-empty sequence. */
  lemma FilterHead<T>(s: seq<T>, p: T -> bool)
    requires |s| > 0
    ensures Filter(s, p) == (if p(s[0]) then [s[0]] else []) + Filter(s[1..], p)
  {
  }

  /** Extending both sides by the same head keeps a subsequence. */
  lemma SubsequenceBothCons<T>(x: T, a: seq<T>, b: seq<T>)
    requires SubsequenceOf(a, b)
    ensures SubsequenceOf([x] + a, [x] + b)
  {
    assert ([x] + a)[1..] == a && ([x] + b)[1..] == b;
  }

  /** Extending only the longer side keeps a subsequence. */
  lemma SubsequenceRightCons<T>(x: T, a: seq<T>, b: seq<T>)
    requires SubsequenceOf(a, b)
    ensures SubsequenceOf(a, [x] + b)
  {
    assert ([x] + b)[1..] == b;
  }

  /** Filtering keeps a subsequence a subsequence. */
  lemma {:induction false} FilterMonotone<T>(a: seq<T>, b: seq<T>, p: T -> bool)
    requires SubsequenceOf(a, b)
    ensures SubsequenceOf(Filter(a, p), Filter(b, p))
    decreases |b|
  {
    if |a| == 0 {
    } else if a[0] == b[0] && SubsequenceOf(a[1..], b[1..]) {
      FilterMonotone(a[1..], b[1..], p);
      FilterHead(a, p);
      FilterHead(b, p);
      if p(a[0]) {
        SubsequenceBothCons(a[0], Filter(a[1..], p), Filter(b[1..], p));
      } else {
        assert Filter(a, p) == Filter(a[1..], p) && Filter(b, p) == Filter(b[1..], p);
      }
    } else {
      FilterMonotone(a, b[1..], p);
      FilterHead(b, p);
      if p(b[0]) {
        SubsequenceRightCons(b[0], Filter(a, p), Filter(b[1..], p));
      } else {
        assert Filter(b, p) == Filter(b[1..], p);
      }
    }
  }

  /** Removing repeats keeps a filtered subsequence a subsequence. */
  lemma FilterDedupSubsequence<T>(s: seq<T>, p: T -> bool, c: seq<T>)
    requires SubsequenceOf(Filter(s, p), c)
    ensures SubsequenceOf(Filter(Dedup(s), p), c)
  {
    DedupIsSubsequence(s);
    FilterMonotone(Dedup(s), s, p);
    SubsequenceTrans(Filter(Dedup(s), p), Filter(s, p), c);
  }

  lemma FilterNoneKept<T>(s: seq<T>, p: T -> bool)
    requires forall x :: x in s ==> !p(x)
    ensures Filter(s, p) == []
  {
  }

  /** The first components of a list of pairs, in order. */
  function Firsts<A, B>(ps: seq<(A, B)>): (r: seq<A>)
    ensures |r| == |ps|
    ensures forall k :: 0 <= k < |ps| ==> r[k] == ps[k].0
  {
    seq(|ps|, k requires 0 <= k < |ps| => ps[k].0)
  }
}

=== FILE: sorting.dfy ===
/** A stable insertion sort by a numeric key, used for medians, value counts,
    time buckets and the Top-N cut. */
module Sorting {

  /** Keys never decrease along `s`. */
  predicate SortedBy<T>(s: seq<T>, key: T -> real) {
    forall i, j :: 0 <= i < j < |s| ==> key(s[i]) <= key(s[j])
  }

  /** `s` with `x` placed before the first element whose key is not smaller. */
  function Insert<T>(x: T, s: seq<T>, key: T -> real): (r: seq<T>)
    ensures multiset(r) == multiset(s) + multiset{x}
    ensures |r| == |s| + 1
  {
    if |s| == 0 then [x]
    else if key(x) <= key(s[0]) then [x] + s
    else
      assert s == [s[0]] + s[1..];
      [s[0]] + Insert(x, s[1..], key)
  }

  /** Inserting into a sorted sequence keeps it sorted. */
  lemma {:induction false} InsertSorted<T>(x: T, s: seq<T>, key: T -> real)
    requires SortedBy(s, key)
    ensures SortedBy(Insert(x, s, key), key)
    decreases |s|
  {
    if |s| > 0 && key(x) > key(s[0]) {
      var tail := s[1..];
      InsertSorted(x, tail, key);
      var rest := Insert(x, tail, key);
      assert s == [s[0]] + tail;
      forall k | 0 <= k < |rest|
        ensures key(s[0]) <= key(rest[k])
      {
        assert rest[k] in multiset(rest);
        if rest[k] != x {
          assert rest[k] in multiset(tail);
          var m :| 0 <= m < |tail| && tail[m] == rest[k];
          assert s[m + 1] == rest[k];
        }
      }
      var r := Insert(x, s, key);
      assert r == [s[0]] + rest;
      forall i, j | 0 <= i < j < |r|
        ensures key(r[i]) <= key(r[j])
      {
        assert r[j] == rest[j - 1];
        if i > 0 {
          assert r[i] == rest[i - 1];
        }
      }
    }
  }

  /** `s` reordered by ascending key. */
  function SortBy<T>(s: seq<T>, key: T -> real): (r: seq<T>)
    ensures SortedBy(r, key)
    ensures multiset(r) == multiset(s)
    ensures |r| == |s|
  {
    if |s| == 0 then []
    else
      assert s == [s[0]] + s[1..];
      var sorted := SortBy(s[1..], key);
      InsertSorted(s[0], sorted, key);
      Insert(s[0], sorted, key)
  }
}

=== FILE: stats.dfy ===
/** `basic_stats`: the shape, missing-value total, duplicate-row count,
    numeric summary and most frequent categories of a table. */
module Stats {
  import opened Wrappers
  import opened Seqs
  import opened Sorting
  import opened Tables
  import opened Reductions
  import opened Aggregation

  // ---------------------------------------------------------- missing values

  /** The number of missing cells in a list of cells. */
  function MissingIn(s: seq<Cell>): nat {
    if |s| == 0 then 0
    else MissingIn(s[..|s| - 1]) + (if s[|s| - 1].Missing? then 1 else 0)
  }

  /** The count is the number of occurrences of `Missing`. */
  lemma {:induction false} MissingInCounts(s: seq<Cell>)
    ensures MissingIn(s) == multiset(s)[Missing]
  {
    if |s| > 0 {
      MissingInCounts(s[..|s| - 1]);
      assert s == s[..|s| - 1] + [s[|s| - 1]];
    }
  }

  /** Missing cells counted row by row. */
  function ByRows(m: seq<seq<Cell>>): nat {
    if |m| == 0 then 0 else ByRows(m[..|m| - 1]) + MissingIn(m[|m| - 1])
  }

  /** Column `j` of a matrix of cells. */
  function ColumnOf(m: seq<seq<Cell>>, j: nat): (r: seq<Cell>)
    requires forall i :: 0 <= i < |m| ==> j < |m[i]|
    ensures |r| == |m|
    ensures forall i :: 0 <= i < |m| ==> r[i] == m[i][j]
  {
    seq(|m|, i requires 0 <= i < |m| => m[i][j])
  }

  /** Missing cells counted column by column over the first `k` columns. */
  function ByColumns(m: seq<seq<Cell>>, k: nat): nat
    requires forall i :: 0 <= i < |m| ==> k <= |m[i]|
  {
    if k == 0 then 0 else ByColumns(m, k - 1) + MissingIn(ColumnOf(m, k - 1))
  }

  function Cells(t: Table): (m: seq<seq<Cell>>)
    ensures |m| == |t.rows|
    ensures forall i :: 0 <= i < |m| ==> m[i] == t.rows[i].cells && |m[i]| == |t.header|
  {
    seq(|t.rows|, i requires 0 <= i < |t.rows| => t.rows[i].cells)
  }

  lemma {:induction false} ByColumnsOfNoRows(m: seq<seq<Cell>>, k: nat)
    requires |m| == 0
    ensures ByColumns(m, k) == 0
  {
    if k > 0 {
      ByColumnsOfNoRows(m, k - 1);
      assert ColumnOf(m, k - 1) == [];
    }
  }

  /** Appending a row adds that row's missing cells among the first `k` columns. */
  lemma {:induction false} ByColumnsSnoc(m: seq<seq<Cell>>, row: seq<Cell>, k: nat)
    requires forall i :: 0 <= i < |m| ==> k <= |m[i]|
    requires k <= |row|
    ensures ByColumns(m + [row], k) == ByColumns(m, k) + MissingIn(row[..k])
  {
    if k == 0 {
      assert row[..0] == [];
    } else {
      var m' := m + [row];
      var x := row[k - 1];
      var step := if x.Missing? then 1 else 0;
      ByColumnsSnoc(m, row, k - 1);
      ColumnOfSnoc(m, row, k - 1);
      MissingSnoc(ColumnOf(m, k - 1), x);
      MissingPrefixStep(row, k);

    }
  }

  lemma ColumnOfSnoc(m: seq<seq<Cell>>, row: seq<Cell>, j: nat)
    requires forall i :: 0 <= i < |m| ==> j < |m[i]|
    requires j < |row|
    ensures ColumnOf(m + [row], j) == ColumnOf(m, j) + [row[j]]
  {
  }

  lemma MissingPrefixStep(row: seq<Cell>, k: nat)
    requires 0 < k <= |row|
    ensures MissingIn(row[..k]) == MissingIn(row[..k - 1]) + (if row[k - 1].Missing? then 1 else 0)
  {
    assert row[..k] == row[..k - 1] + [row[k - 1]];
    MissingSnoc(row[..k - 1], row[k - 1]);
  }

  lemma MissingSnoc(s: seq<Cell>, c: Cell)
    ensures MissingIn(s + [c]) == MissingIn(s) + (if c.Missing? then 1 else 0)
  {
  }

  /** Counting column by column and row by row give the same total. */
  lemma {:induction false} ColumnsEqualRows(m: seq<seq<Cell>>, w: nat)
    requires forall i :: 0 <= i < |m| ==> |m[i]| == w
    ensures ByColumns(m, w) == ByRows(m)
  {
    if |m| == 0 {
      ByColumnsOfNoRows(m, w);
    } else {
      var front := m[..|m| - 1];
      var row := m[|m| - 1];
      assert m == front + [row];
      ColumnsEqualRows(front, w);
      ByColumnsSnoc(front, row, w);
      assert row[..w] == row;
    }
  }

  /** A row-by-row count is zero exactly when no row holds a missing cell. */
  lemma {:induction false} ByRowsZero(m: seq<seq<Cell>>)
    ensures ByRows(m) == 0 <==> forall i :: 0 <= i < |m| ==> Missing !in m[i]
  {
    if |m| > 0 {
      var front := m[..|m| - 1];
      ByRowsZero(front);
      assert forall i :: 0 <= i < |front| ==> front[i] == m[i];
      MissingInCounts(m[|m| - 1]);
      assert Missing in m[|m| - 1] <==> multiset(m[|m| - 1])[Missing] > 0;
    }
  }

  /** `df.isnull().sum().sum()`: the missing cells of every column, added up.
      The total equals the row-by-row count and is zero exactly when no cell
      is missing. */
  function NullsTotal(t: Table): (r: nat)
    ensures r == ByRows(Cells(t))
    ensures r == 0 <==>
      forall i, j :: 0 <= i < |t.rows| && 0 <= j < |t.header| ==> t.rows[i].cells[j] != Missing
  {
    var m := Cells(t);
    ColumnsEqualRows(m, |t.header|);
    ByRowsZero(m);
    assert forall i :: 0 <= i < |m| ==> (Missing in m[i] <==>
      exists j :: 0 <= j < |t.header| && t.rows[i].cells[j] == Missing);
    ByColumns(m, |t.header|)
  }

  // ---------------------------------------------------------- duplicate rows

  /** Row `i` holds the same values as some earlier row (index labels are not compared). */
  predicate Repeats(t: Table, i: int)
    requires 0 <= i < |t.rows|
  {
    exists j :: 0 <= j < i && t.rows[j].cells == t.rows[i].cells
  }

  /** The positions `duplicated()` marks with its default `keep="first"`. */
  function RepeatedRows(t: Table, n: nat): set<nat>
    requires n <= |t.rows|
  {
    set i: nat | i < n && Repeats(t, i)
  }

  /** The distinct row contents among the first `n` rows. */
  function DistinctRows(t: Table, n: nat): set<seq<Cell>>
    requires n <= |t.rows|
  {
    set i | 0 <= i < n :: t.rows[i].cells
  }

  /** One more row adds its contents to the distinct rows, and is a repeat
      exactly when those contents were already there. */
  lemma RowStep(t: Table, i: nat)
    requires i < |t.rows|
    ensures DistinctRows(t, i + 1) == DistinctRows(t, i) + {t.rows[i].cells}
    ensures Repeats(t, i) <==> t.rows[i].cells in DistinctRows(t, i)
    ensures |RepeatedRows(t, i + 1)| == |RepeatedRows(t, i)| + if Repeats(t, i) then 1 else 0
  {
    if t.rows[i].cells in DistinctRows(t, i) {
      var j :| 0 <= j < i && t.rows[j].cells == t.rows[i].cells;
    }
    if Repeats(t, i) {
      assert RepeatedRows(t, i + 1) == RepeatedRows(t, i) + {i};
    } else {
      assert RepeatedRows(t, i + 1) == RepeatedRows(t, i);
    }
  }

  /** `df.duplicated().sum()`: how many rows repeat an earlier row. A table
      without columns (or rows) counts none, as pandas does for an empty frame.
      Otherwise the repeats and the distinct rows together account for every row. */
  method CountDuplicates(t: Table) returns (d: nat)
    ensures |t.header| == 0 ==> d == 0
    ensures |t.header| > 0 ==> d == |RepeatedRows(t, |t.rows|)|
    ensures |t.header| > 0 ==> d + |DistinctRows(t, |t.rows|)| == |t.rows|
  {
    if |t.header| == 0 {
      return 0;
    }
    var seen: set<seq<Cell>> := {};
    d := 0;
    var i := 0;
    while i < |t.rows|
      invariant 0 <= i <= |t.rows|
      invariant seen == DistinctRows(t, i)
      invariant d == |RepeatedRows(t, i)|
      invariant d + |seen| == i
    {
      var cells := t.rows[i].cells;
      RowStep(t, i);
      if cells in seen {
        d := d + 1;
      } else {
        seen := seen + {cells};
      }
      i := i + 1;
    }
  }

  // ---------------------------------------------------------- numeric summary

  /** The positions 0..n-1. */
  function Range(n: nat): (r: seq<nat>)
    ensures |r| == n
    ensures forall k :: 0 <= k < n ==> r[k] == k
  {
    seq(n, k => k)
  }

  predicate IsIntColumn(h: Header) { h.dtype == IntType }

  /** The positions of the columns whose header satisfies `p`, left to right. */
  function Positions(hs: seq<Header>, p: Header -> bool): (r: seq<nat>)
    ensures forall k :: 0 <= k < |r| ==> r[k] < |hs| && p(hs[r[k]])
    ensures forall j :: 0 <= j < |hs| && p(hs[j]) ==> j in r
    ensures Increasing(r)
  {
    var all := Range(|hs|);
    var keep := (j: nat) => j < |hs| && p(hs[j]);
    var r := Filter<nat>(all, keep);
    FilterIsSubsequence<nat>(all, keep);
    IncreasingSubsequence(r, all);
    forall j | 0 <= j < |hs| && p(hs[j])
      ensures j in r
    {
      assert all[j] == j;
      FilterComplete<nat>(all, keep, j);
    }
    assert forall k :: 0 <= k < |r| ==> r[k] in r && keep(r[k]);
    r
  }

  function IsNumericHeader(h: Header): bool { IsNumericType(h.dtype) }

  /** The columns `describe()` reports on. Given a frame of numeric columns,
      pandas describes the non-boolean ones when there are any, and falls
      back to describing the (all boolean) columns as categories otherwise. */
  function DescribedPositions(t: Table): (r: seq<nat>)
    ensures forall k :: 0 <= k < |r| ==> r[k] < |t.header| && IsNumericType(t.header[r[k]].dtype)
  {
    var ints := Positions(t.header, IsIntColumn);
    if |ints| > 0 then ints else Positions(t.header, IsNumericHeader)
  }

  /** One column of the summary: numbers are summarised by count, mean, minimum,
      median and maximum; boolean columns by count and number of distinct values. */
  datatype Summary =
    | Numbers(name: string, count: nat, mean: Value, min: Value, median: Value, max: Value)
    | Flags(name: string, count: nat, unique: nat)

  /** The present values of column `j`. */
  function ColumnValues(t: Table, j: nat): seq<Option<real>>
    requires j < |t.header|
  {
    Values(Column(t, j))
  }

  /** The summary of a numeric column: how many values are present, and
      their mean, minimum, median and maximum (NaN when none is present). */
  function NumberSummary(name: string, vs: seq<Option<real>>): (r: Summary)
    ensures r.Numbers? && r.name == name && r.count == |Present(vs)|
    ensures (r.min.NaN? <==> r.count == 0) && (r.max.NaN? <==> r.count == 0)
    ensures r.count > 0 ==>
      r.min.Num? && r.mean.Num? && r.median.Num? && r.max.Num? &&
      r.min.x <= r.mean.x <= r.max.x && r.min.x <= r.median.x <= r.max.x
  {
    var mean, min, median, max := Reduce(Mean, vs), Reduce(Min, vs), Reduce(Median, vs), Reduce(Max, vs);
    assert |Present(vs)| > 0 ==> min.x == MinOf(Present(vs)) && max.x == MaxOf(Present(vs));
    Numbers(name, |Present(vs)|, mean, min, median, max)
  }

  /** One column of `describe()`: numbers for an integer column, count and
      distinct values for a boolean one. */
  function Summarise(t: Table, j: nat): (r: Summary)
    requires j < |t.header|
    ensures r.name == t.header[j].name
    ensures r.count <= |t.rows|
    ensures r.Numbers? <==> t.header[j].dtype == IntType
    ensures r.Numbers? ==> (r.min.NaN? <==> r.count == 0) && (r.max.NaN? <==> r.count == 0)
    ensures r.Numbers? && r.count > 0 ==>
      r.min.Num? && r.mean.Num? && r.median.Num? && r.max.Num? &&
      r.min.x <= r.mean.x <= r.max.x && r.min.x <= r.median.x <= r.max.x
  {
    if t.header[j].dtype == IntType then
      NumberSummary(t.header[j].name, ColumnValues(t, j))
    else
      var present := Filter(Column(t, j), IsPresent);
      Flags(t.header[j].name, |present|, |Dedup(present)|)
  }

  predicate IsPresent(c: Cell) { !c.Missing? }

  /** There are no numeric positions exactly when no column is numeric. */
  lemma NoNumericPositions(t: Table)
    ensures |Positions(t.header, IsNumericHeader)| == 0 <==>
      forall j :: 0 <= j < |t.header| ==> !IsNumericType(t.header[j].dtype)
  {
    var nums := Positions(t.header, IsNumericHeader);
    if |nums| == 0 {
      forall j | 0 <= j < |t.header|
        ensures !IsNumericType(t.header[j].dtype)
      {
        assert IsNumericHeader(t.header[j]) ==> j in nums;
      }
    } else {
      assert nums[0] < |t.header| && IsNumericType(t.header[nums[0]].dtype);
    }
  }

  /** Without boolean columns every numeric column is described. */
  lemma DescribedWithoutFlags(t: Table)
    ensures (forall j :: 0 <= j < |t.header| ==> t.header[j].dtype != BoolType) ==>
      forall j :: 0 <= j < |t.header| && IsNumericType(t.header[j].dtype) ==> j in DescribedPositions(t)
  {
    forall j | 0 <= j < |t.header| && IsNumericType(t.header[j].dtype) && t.header[j].dtype != BoolType
      ensures j in DescribedPositions(t)
    {
      assert IsIntColumn(t.header[j]);
      assert j in Positions(t.header, IsIntColumn);
    }
  }

  /** `df[num_cols].describe()` when there are numeric columns, `None` otherwise.
      Every numeric column is reported when none is boolean. */
  function DescribeNum(t: Table): (r: Option<seq<Summary>>)
    ensures r.None? <==> forall j :: 0 <= j < |t.header| ==> !IsNumericType(t.header[j].dtype)
    ensures r.Some? ==> |r.value| == |DescribedPositions(t)|
    ensures r.Some? ==> forall k :: 0 <= k < |r.value| ==>
      r.value[k].name == t.header[DescribedPositions(t)[k]].name
    ensures r.Some? && (forall j :: 0 <= j < |t.header| ==> t.header[j].dtype != BoolType) ==>
      forall j :: 0 <= j < |t.header| && IsNumericType(t.header[j].dtype) ==> j in DescribedPositions(t)
  {
    NoNumericPositions(t);
    DescribedWithoutFlags(t);
    if |Positions(t.header, IsNumericHeader)| == 0 then None
    else
      var ps := DescribedPositions(t);
      Some(seq(|ps|, k requires 0 <= k < |ps| => Summarise(t, ps[k])))
  }

  // ---------------------------------------------------------- top categories

  function ByCountDesc(p: (string, nat)): real { -(p.1 as real) }

  /** `value_counts()`: each distinct text with the number of times it occurs,
      most frequent first. */
  function ValueCounts(texts: seq<string>): (r: seq<(string, nat)>)
    ensures forall k :: 0 <= k < |r| ==> r[k].0 in texts && r[k].1 == multiset(texts)[r[k].0]
    ensures forall i :: 0 <= i < |texts| ==> texts[i] in Firsts(r)
    ensures NoDuplicates(Firsts(r))
    ensures forall i, j :: 0 <= i < j < |r| ==> r[i].1 >= r[j].1
  {
    var ds := Dedup(texts);
    var counted := seq(|ds|, k requires 0 <= k < |ds| => (ds[k], multiset(texts)[ds[k]]));
    var r := SortBy(counted, ByCountDesc);
    ValueCountsFacts(texts, ds, counted, r);
    assert forall i, j :: 0 <= i < j < |r| ==> ByCountDesc(r[i]) <= ByCountDesc(r[j]);
    r
  }

  /** The sorted pairs are the counted pairs, so each value is listed once
      with its count. */
  lemma ValueCountsFacts(texts: seq<string>, ds: seq<string>, counted: seq<(string, nat)>, r: seq<(string, nat)>)
    requires ds == Dedup(texts)
    requires counted == seq(|ds|, k requires 0 <= k < |ds| => (ds[k], multiset(texts)[ds[k]]))
    requires multiset(r) == multiset(counted)
    ensures forall k :: 0 <= k < |r| ==> r[k].0 in texts && r[k].1 == multiset(texts)[r[k].0]
    ensures forall i :: 0 <= i < |texts| ==> texts[i] in Firsts(r)
    ensures NoDuplicates(Firsts(r))
  {
    CountedPairs(texts, ds, counted, r);
    PairsDistinct(ds, counted);
    PermutationKeepsDistinct(r, counted);
    FirstsDistinct(texts, r);
    CountedComplete(texts, ds, counted, r);
  }

  lemma CountedComplete(texts: seq<string>, ds: seq<string>, counted: seq<(string, nat)>, r: seq<(string, nat)>)
    requires forall i :: 0 <= i < |texts| ==> texts[i] in ds
    requires |counted| == |ds| && forall k :: 0 <= k < |ds| ==> counted[k].0 == ds[k]
    requires multiset(r) == multiset(counted)
    ensures forall i :: 0 <= i < |texts| ==> texts[i] in Firsts(r)
  {
    forall i | 0 <= i < |texts|
      ensures texts[i] in Firsts(r)
    {
      assert texts[i] in ds;
      var k :| 0 <= k < |ds| && ds[k] == texts[i];
      CountedListed(counted, r, k);
    }
  }

  /** An entry of the counted pairs is still listed after sorting them. */
  lemma CountedListed(counted: seq<(string, nat)>, r: seq<(string, nat)>, k: nat)
    requires multiset(r) == multiset(counted) && k < |counted|
    ensures counted[k].0 in Firsts(r)
  {
    var e := counted[k];
    assert e in multiset(counted);
    assert e in multiset(r);
    var m :| 0 <= m < |r| && r[m] == e;
    assert Firsts(r)[m] == e.0;
  }

  lemma CountedPairs(texts: seq<string>, ds: seq<string>, counted: seq<(string, nat)>, r: seq<(string, nat)>)
    requires ds == Dedup(texts)
    requires counted == seq(|ds|, k requires 0 <= k < |ds| => (ds[k], multiset(texts)[ds[k]]))
    requires multiset(r) == multiset(counted)
    ensures forall k :: 0 <= k < |r| ==> r[k].0 in texts && r[k].1 == multiset(texts)[r[k].0]
  {
    forall k | 0 <= k < |r|
      ensures r[k].0 in texts && r[k].1 == multiset(texts)[r[k].0]
    {
      assert r[k] in multiset(r);
      var m :| 0 <= m < |counted| && counted[m] == r[k];
      assert r[k] == (ds[m], multiset(texts)[ds[m]]);
    }
  }

  /** Distinct pairs whose count is determined by their value have distinct values. */
  lemma FirstsDistinct(texts: seq<string>, r: seq<(string, nat)>)
    requires NoDuplicates(r)
    requires forall k :: 0 <= k < |r| ==> r[k].1 == multiset(texts)[r[k].0]
    ensures NoDuplicates(Firsts(r))
  {
  }

  lemma PairsDistinct(ds: seq<string>, counted: seq<(string, nat)>)
    requires NoDuplicates(ds) && |counted| == |ds|
    requires forall k :: 0 <= k < |ds| ==> counted[k].0 == ds[k]
    ensures NoDuplicates(counted)
  {
    forall i, j | 0 <= i < j < |counted|
      ensures counted[i] != counted[j]
    {
      assert counted[i].0 != counted[j].0;
    }
  }

  /** `value_counts().head(n)`: the `n` most frequent values, each with its
      count, most frequent first (`TopValuesCutoff` for what is left out). */
  function TopValues(texts: seq<string>, n: nat): (r: seq<(string, nat)>)
    ensures |r| <= n
    ensures forall k :: 0 <= k < |r| ==> r[k].0 in texts && r[k].1 == multiset(texts)[r[k].0]
    ensures forall i, j :: 0 <= i < j < |r| ==> r[i].1 >= r[j].1
  {
    var all := ValueCounts(texts);
    var r := Take(all, n);
    r
  }

  /** No value is listed twice. */
  lemma TopValuesDistinct(texts: seq<string>, n: nat)
    ensures NoDuplicates(Firsts(TopValues(texts, n)))
  {
    var all := ValueCounts(texts);
    var r := TopValues(texts, n);
    assert r == Take(all, n);
    assert Firsts(r) == Firsts(all)[..|r|];
  }

  /** Every value left out of the top `n` occurs no more often than any value
      listed. */
  lemma TopValuesCutoff(texts: seq<string>, n: nat)
    ensures var r := TopValues(texts, n);
      forall v, k :: v in texts && v !in Firsts(r) && 0 <= k < |r| ==> multiset(texts)[v] <= r[k].1
  {
    var all := ValueCounts(texts);
    var r := TopValues(texts, n);
    assert r == Take(all, n);
    forall v, k | v in texts && v !in Firsts(r) && 0 <= k < |r|
      ensures multiset(texts)[v] <= r[k].1
    {
      var i :| 0 <= i < |texts| && texts[i] == v;
      var m :| 0 <= m < |all| && Firsts(all)[m] == v;
      assert m >= |r| by {
        assert Firsts(r) == Firsts(all)[..|r|];
      }
      assert all[m].1 == multiset(texts)[v];
      assert r[k] == all[k];
    }
  }

  /** A list shorter than `n` leaves nothing out. */
  lemma TopValuesShortIsAll(texts: seq<string>, n: nat)
    ensures var r := TopValues(texts, n);
      |r| < n ==> forall v :: v in texts ==> v in Firsts(r)
  {
    var all := ValueCounts(texts);
    var r := TopValues(texts, n);
    assert r == Take(all, n);
    forall v | v in texts && |r| < n
      ensures v in Firsts(r)
    {
      var i :| 0 <= i < |texts| && texts[i] == v;
      assert r == all;
    }
  }

  /** The text of every cell of column `j`, as `astype(str)` writes it. */
  function ColumnTexts(t: Table, j: nat): (r: seq<string>)
    requires j < |t.header|
    ensures |r| == |t.rows|
    ensures forall i :: 0 <= i < |t.rows| ==> r[i] == CellText(t.rows[i].cells[j])
  {
    seq(|t.rows|, i requires 0 <= i < |t.rows| => CellText(t.rows[i].cells[j]))
  }

  predicate IsTextHeader(h: Header) { !IsNumericType(h.dtype) }

  /** The entry of column `j`: its name and its ten most frequent texts. */
  function TopEntry(t: Table, j: nat): (string, seq<(string, nat)>)
    requires j < |t.header|
  {
    (t.header[j].name, TopValues(ColumnTexts(t, j), 10))
  }

  /** The entries of the first ten non-numeric columns, left to right
      (`TopCategoriesFirstTen`). */
  function TopCategories(t: Table): (r: seq<(string, seq<(string, nat)>)>)
    ensures |r| <= 10
  {
    var cols := Take(Positions(t.header, IsTextHeader), 10);
    seq(|cols|, k requires 0 <= k < |cols| => TopEntry(t, cols[k]))
  }

  /** Positions listed left to right, each once. */
  predicate Increasing(s: seq<nat>) {
    forall i, k :: 0 <= i < k < |s| ==> s[i] < s[k]
  }

  /** Keeping some positions of an increasing list keeps it increasing. */
  lemma {:induction false} IncreasingSubsequence(a: seq<nat>, b: seq<nat>)
    requires SubsequenceOf(a, b) && Increasing(b)
    ensures Increasing(a)
    decreases |b|
  {
    if |a| > 0 {
      assert Increasing(b[1..]);
      if a[0] == b[0] && SubsequenceOf(a[1..], b[1..]) {
        IncreasingSubsequence(a[1..], b[1..]);
        SubsequenceMembers(a[1..], b[1..]);
        forall i, k | 0 <= i < k < |a|
          ensures a[i] < a[k]
        {
          if i == 0 {
            assert a[k] == a[1..][k - 1];
            assert a[k] in a[1..];
            assert a[k] in b[1..];
            var m :| 0 <= m < |b[1..]| && b[1..][m] == a[k];
            assert b[m + 1] == a[k];
          } else {
            assert a[1..][i - 1] == a[i] && a[1..][k - 1] == a[k];
          }
        }
      } else {
        IncreasingSubsequence(a, b[1..]);
      }
    }
  }

  /** `cols` are the first (at most ten) non-numeric columns, left to right:
      a non-numeric column left out lies to the right of all ten listed ones. */
  predicate FirstTextColumns(t: Table, cols: seq<nat>) {
    |cols| <= 10 && Increasing(cols)
    && (forall k :: 0 <= k < |cols| ==> cols[k] < |t.header| && IsTextHeader(t.header[cols[k]]))
    && (forall j: nat :: j < |t.header| && IsTextHeader(t.header[j]) && j !in cols ==>
          |cols| == 10 && forall k :: 0 <= k < |cols| ==> cols[k] < j)
  }

  /** The report lists, in table order, the first at most ten non-numeric
      columns, each with its ten most frequent texts. */
  lemma {:induction false} TopCategoriesFirstTen(t: Table)
    ensures exists cols :: (FirstTextColumns(t, cols) && |cols| == |TopCategories(t)| &&
      forall k :: 0 <= k < |cols| ==> TopCategories(t)[k] == TopEntry(t, cols[k]))
  {
    var n := |t.header|;
    var all := Positions(t.header, IsTextHeader);
    var cols := Take(all, 10);
    assert Increasing(cols) by {
      forall i, k | 0 <= i < k < |cols|
        ensures cols[i] < cols[k]
      {
        assert cols[i] == all[i] && cols[k] == all[k];
      }
    }
    forall k | 0 <= k < |cols|
      ensures cols[k] < n && IsTextHeader(t.header[cols[k]])
    {
      assert cols[k] == all[k];
    }
    forall j: nat | j < n && IsTextHeader(t.header[j]) && j !in cols
      ensures |cols| == 10 && forall k :: 0 <= k < |cols| ==> cols[k] < j
    {
      assert j in all;
      var m :| 0 <= m < |all| && all[m] == j;
      assert m >= |cols|;
      forall k | 0 <= k < |cols|
        ensures cols[k] < j
      {
        assert cols[k] == all[k];
      }
    }
    assert FirstTextColumns(t, cols);
  }

  // ---------------------------------------------------------- the report

  datatype Report = Report(
    rows: nat, columns: nat, nullsTotal: nat, duplicates: nat,
    describe: Option<seq<Summary>>, top: seq<(string, seq<(string, nat)>)>)

  /** `basic_stats(df)`. */
  method BasicStats(t: Table) returns (s: Report)
    ensures s.rows == |t.rows| && s.columns == |t.header|
    ensures s.nullsTotal == 0 <==>
      forall i, j :: 0 <= i < |t.rows| && 0 <= j < |t.header| ==> t.rows[i].cells[j] != Missing
    ensures s.nullsTotal == NullsTotal(t)
    ensures |t.header| == 0 ==> s.duplicates == 0
    ensures |t.header| > 0 ==> s.duplicates == |RepeatedRows(t, |t.rows|)|
    ensures |t.header| > 0 ==> s.duplicates + |DistinctRows(t, |t.rows|)| == |t.rows|
    ensures s.describe == DescribeNum(t)
    ensures s.describe.None? <==> forall j :: 0 <= j < |t.header| ==> !IsNumericType(t.header[j].dtype)
    ensures s.top == TopCategories(t)
    ensures |s.top| <= 10
  {
    var d := CountDuplicates(t);
    var nulls := NullsTotal(t);
    var described := DescribeNum(t);
    var top := TopCategories(t);
    s := Report(|t.rows|, |t.header|, nulls, d, described, top);
  }
}

=== FILE: table.dfy ===
/** The in-memory table every stage passes along: named, typed columns and
    labelled rows of tagged cell values (a pandas DataFrame without pandas). */
module Tables {
  import opened Wrappers
  import opened Text

  /** One cell. `Time` holds a timestamp as an epoch count; `Missing` is pandas' NaN/None/NaT. */
  datatype Cell = Int(n: int) | Str(s: string) | Bool(b: bool) | Time(ns: int) | Missing

  /** The column dtype reported by the parser. */
  datatype DType = IntType | BoolType | DateTimeType | ObjectType

  datatype Header = Header(name: string, dtype: DType)

  /** A row with its index label (`index`) and one cell per column. */
  datatype Row = Row(index: int, cells: seq<Cell>)

  datatype Frame = Frame(header: seq<Header>, rows: seq<Row>)

  /** Every row has exactly one cell per column. */
  predicate Rectangular(f: Frame) {
    forall i :: 0 <= i < |f.rows| ==> |f.rows[i].cells| == |f.header|
  }

  type Table = f: Frame | Rectangular(f) witness Frame([], [])

  /** pandas' `is_numeric_dtype`: integer columns and, in pandas, boolean ones. */
  predicate IsNumericType(d: DType) {
    d == IntType || d == BoolType
  }

  function Names(hs: seq<Header>): (r: seq<string>)
    ensures |r| == |hs|
    ensures forall j :: 0 <= j < |hs| ==> r[j] == hs[j].name
  {
    seq(|hs|, j requires 0 <= j < |hs| => hs[j].name)
  }

  /** Position of the first column called `name`. */
  function ColumnIndex(hs: seq<Header>, name: string): (r: nat)
    requires name in Names(hs)
    ensures r < |hs| && hs[r].name == name
    ensures forall j :: 0 <= j < r ==> hs[j].name != name
  {
    if hs[0].name == name then 0
    else
      assert name in Names(hs[1..]) by {
        var k :| 0 <= k < |hs| && Names(hs)[k] == name;
        assert Names(hs[1..])[k - 1] == name;
      }
      1 + ColumnIndex(hs[1..], name)
  }

  /** The cells of column `j`, top to bottom. */
  function Column(t: Table, j: nat): (r: seq<Cell>)
    requires j < |t.header|
    ensures |r| == |t.rows|
    ensures forall i :: 0 <= i < |t.rows| ==> r[i] == t.rows[i].cells[j]
  {
    seq(|t.rows|, i requires 0 <= i < |t.rows| => t.rows[i].cells[j])
  }

  /** pandas' `astype(str)` of one cell. Missing cells read "nan"; timestamps
      are shown by their epoch count. */
  function CellText(c: Cell): string {
    match c
    case Int(n) => IntToString(n)
    case Str(s) => s
    case Bool(b) => if b then "True" else "False"
    case Time(ns) => "@" + IntToString(ns)
    case Missing => "nan"
  }

  /** The number a cell contributes to a numeric reduction or comparison;
      booleans count as 0/1 and anything else is skipped like NaN. */
  function NumericValue(c: Cell): Option<int> {
    match c
    case Int(n) => Some(n)
    case Bool(b) => Some(if b then 1 else 0)
    case _ => None
  }

  /** pandas' `reset_index(drop=True)`: the same rows labelled 0..n-1. */
  function Reindex(rows: seq<Row>): (r: seq<Row>)
    ensures |r| == |rows|
    ensures forall i :: 0 <= i < |r| ==> r[i] == Row(i, rows[i].cells)
  {
    seq(|rows|, i requires 0 <= i < |rows| => Row(i, rows[i].cells))
  }
}

=== FILE: text.dfy ===
/** String helpers with the meaning Python's `str` methods give them:
    `strip`, `lower`, `startswith`/`endswith`, `in` and `splitlines`. */
module Text {

  /** The characters Python's `str.isspace` accepts. */
  predicate IsSpace(c: char) {
    c == ' ' || c == '\t' || c == '\n' || c == '\r' || c == '\U{000B}' || c == '\U{000C}'
    || ('\U{001C}' <= c <= '\U{001F}') || c == '\U{0085}' || c == '\U{00A0}' || c == '\U{1680}'
    || ('\U{2000}' <= c <= '\U{200A}') || c == '\U{2028}' || c == '\U{2029}' || c == '\U{202F}'
    || c == '\U{205F}' || c == '\U{3000}'
  }

  /** No whitespace at either end. */
  predicate IsStripped(s: string) {
    |s| == 0 || (!IsSpace(s[0]) && !IsSpace(s[|s| - 1]))
  }

  /** `s` with its leading whitespace removed. */
  function TrimStart(s: string): (r: string)
    ensures |r| <= |s|
    ensures r == s[|s| - |r|..]
    ensures forall i :: 0 <= i < |s| - |r| ==> IsSpace(s[i])
    ensures |r| == 0 || !IsSpace(r[0])
  {
    if |s| > 0 && IsSpace(s[0]) then TrimStart(s[1..]) else s
  }

  /** `s` with its trailing whitespace removed. */
  function TrimEnd(s: string): (r: string)
    ensures |r| <= |s|
    ensures r == s[..|r|]
    ensures forall i :: |r| <= i < |s| ==> IsSpace(s[i])
    ensures |r| == 0 || !IsSpace(r[|r| - 1])
  {
    if |s| > 0 && IsSpace(s[|s| - 1]) then TrimEnd(s[..|s| - 1]) else s
  }

  /** `s[a..b]` is what remains of `s` once whitespace-only ends are cut. */
  predicate CutsSpace(s: string, a: int, b: int) {
    0 <= a <= b <= |s|
    && (forall i :: 0 <= i < a ==> IsSpace(s[i]))
    && (forall i :: b <= i < |s| ==> IsSpace(s[i]))
  }

  /** Python's `str.strip()` with no argument: the piece of `s` left after
      cutting whitespace from both ends, with no whitespace at either end. */
  function Strip(s: string): (r: string)
    ensures IsStripped(r)
    ensures |r| <= |s|
    ensures exists a, b :: CutsSpace(s, a, b) && r == s[a..b]
  {
    var t := TrimStart(s);
    var r := TrimEnd(t);
    TrimBoth(s, t, r);
    r
  }

  /** A leading piece `t` of `s` cut down to a trailing piece `r` of it
      sits in `s` between whitespace-only ends. */
  lemma TrimBoth(s: string, t: string, r: string)
    requires |t| <= |s| && t == s[|s| - |t|..]
    requires forall i :: 0 <= i < |s| - |t| ==> IsSpace(s[i])
    requires |r| <= |t| && r == t[..|r|]
    requires forall i :: |r| <= i < |t| ==> IsSpace(t[i])
    ensures CutsSpace(s, |s| - |t|, |s| - |t| + |r|)
    ensures r == s[|s| - |t|..|s| - |t| + |r|]
  {
    var a := |s| - |t|;
    forall i | a + |r| <= i < |s|
      ensures IsSpace(s[i])
    {
      assert s[i] == t[i - a];
    }
  }

  /** Stripping a string that has no surrounding whitespace returns it unchanged;
      in particular `Strip` is idempotent. */
  lemma StripStripped(s: string)
    requires IsStripped(s)
    ensures Strip(s) == s
  {
    assert TrimStart(s) == s;
  }

  lemma {:induction false} StripIdempotent(s: string)
    ensures Strip(Strip(s)) == Strip(s)
  {
    StripStripped(Strip(s));
  }

  /** A string strips to nothing exactly when every character is whitespace. */
  lemma {:induction false} StripEmptyIffBlank(s: string)
    ensures |Strip(s)| == 0 <==> forall i :: 0 <= i < |s| ==> IsSpace(s[i])
  {
    var t := TrimStart(s);
    if |Strip(s)| == 0 {
      assert |t| == 0;
    } else {
      assert !IsSpace(Strip(s)[0]);
      assert Strip(s)[0] == t[0];
      assert t[0] == s[|s| - |t|];
      assert !IsSpace(s[|s| - |t|]);
    }
  }

  /** Python's `str.lower()` restricted to ASCII letters. */
  function LowerChar(c: char): (r: char)
    ensures 'A' <= c <= 'Z' ==> 'a' <= r <= 'z'
    ensures !('A' <= c <= 'Z') ==> r == c
  {
    if 'A' <= c <= 'Z' then (c as int + 32) as char else c
  }

  function Lower(s: string): (r: string)
    ensures |r| == |s|
    ensures forall i :: 0 <= i < |s| ==> r[i] == LowerChar(s[i])
  {
    seq(|s|, i requires 0 <= i < |s| => LowerChar(s[i]))
  }

  lemma LowerIdempotent(s: string)
    ensures Lower(Lower(s)) == Lower(s)
  {
  }

  predicate StartsWith(s: string, prefix: string) {
    |prefix| <= |s| && s[..|prefix|] == prefix
  }

  predicate EndsWith(s: string, suffix: string) {
    |suffix| <= |s| && s[|s| - |suffix|..] == suffix
  }

  /** Python's `sub in s`. */
  predicate Contains(s: string, sub: string) {
    exists i :: 0 <= i <= |s| - |sub| && OccursAt(s, sub, i)
  }

  predicate OccursAt(s: string, sub: string, i: int) {
    0 <= i <= |s| - |sub| && s[i..i + |sub|] == sub
  }

  /** The line boundaries Python's `str.splitlines` recognises (`\r\n` is one boundary). */
  predicate IsLineBreak(c: char) {
    c == '\n' || c == '\r' || c == '\U{000B}' || c == '\U{000C}' || c == '\U{001C}' || c == '\U{001D}'
    || c == '\U{001E}' || c == '\U{0085}' || c == '\U{2028}' || c == '\U{2029}'
  }

  // The splitting below is written for any set of boundary characters `brk`
  // and used with `IsLineBreak`. It walks positions of `s` rather than
  // slicing it.

  /** The first boundary at or after position `j`, or `|s|` when there is none. */
  function NextBreak(s: string, j: nat, brk: char -> bool): (r: nat)
    requires j <= |s|
    ensures j <= r <= |s|
    ensures forall i :: j <= i < r ==> !brk(s[i])
    ensures r < |s| ==> brk(s[r])
    decreases |s| - j
  {
    if j == |s| || brk(s[j]) then j else NextBreak(s, j + 1, brk)
  }

  /** The terminator of the line ending at position `i` of `s`: "\r\n", the
      single boundary character at `i`, or "" for a last line without one. */
  function Terminator(s: string, i: nat): (r: string)
    requires i <= |s|
    ensures i + |r| <= |s|
    ensures i < |s| ==> |r| > 0
    ensures r == s[i..i + |r|]
  {
    if i == |s| then ""
    else if s[i] == '\r' && i + 1 < |s| && s[i + 1] == '\n' then "\r\n"
    else [s[i]]
  }

  /** The lines of `s[j..]` without their terminators. */
  function SplitFrom(s: string, j: nat, brk: char -> bool): (r: seq<string>)
    requires j <= |s|
    ensures forall k, i :: 0 <= k < |r| && 0 <= i < |r[k]| ==> !brk(r[k][i])
    ensures j == |s| <==> |r| == 0
    decreases |s| - j
  {
    if j == |s| then []
    else
      var i := NextBreak(s, j, brk);
      var line := s[j..i];
      assert forall m :: 0 <= m < |line| ==> line[m] == s[j + m];
      if i == |s| then [line]
      else [line] + SplitFrom(s, i + |Terminator(s, i)|, brk)
  }

  /** The terminators `SplitFrom` drops, one per line. */
  function EndsFrom(s: string, j: nat, brk: char -> bool): seq<string>
    requires j <= |s|
    decreases |s| - j
  {
    if j == |s| then []
    else
      var i := NextBreak(s, j, brk);
      if i == |s| then [""]
      else [Terminator(s, i)] + EndsFrom(s, i + |Terminator(s, i)|, brk)
  }

  /** Python's `str.splitlines()`: the lines of `s` without their terminators;
      a final terminator does not start an empty last line. */
  function SplitLines(s: string): (r: seq<string>)
    ensures forall k, i :: 0 <= k < |r| && 0 <= i < |r[k]| ==> !IsLineBreak(r[k][i])
    ensures |s| == 0 <==> |r| == 0
  {
    SplitFrom(s, 0, IsLineBreak)
  }

  /** The terminators `splitlines` drops, as `splitlines(keepends=True)` keeps them. */
  function LineEnds(s: string): seq<string> {
    EndsFrom(s, 0, IsLineBreak)
  }

  /** A line terminator: "\r\n" or one boundary character. */
  predicate IsTerminator(e: string, brk: char -> bool) {
    (e == "\r\n" && brk('\r')) || (|e| == 1 && brk(e[0]))
  }

  /** Each line followed by its terminator, concatenated. */
  function Rejoin(lines: seq<string>, ends: seq<string>): string
    requires |lines| == |ends|
  {
    if |lines| == 0 then "" else lines[0] + ends[0] + Rejoin(lines[1..], ends[1..])
  }

  lemma SliceThree(s: string, a: nat, b: nat, c: nat)
    requires a <= b <= c <= |s|
    ensures s[a..] == s[a..b] + s[b..c] + s[c..]
  {
  }

  lemma RejoinCons(line: string, end: string, lines: seq<string>, ends: seq<string>)
    requires |lines| == |ends|
    ensures Rejoin([line] + lines, [end] + ends) == line + end + Rejoin(lines, ends)
  {
    assert ([line] + lines)[1..] == lines && ([end] + ends)[1..] == ends;
  }

  /** One line `s[j..i]`, its terminator `s[i..next]` and a rejoined rest `s[next..]` make `s[j..]`. */
  lemma RejoinStep(s: string, j: nat, i: nat, next: nat, lines: seq<string>, ends: seq<string>)
    requires j <= i <= next <= |s|
    requires |lines| == |ends|
    requires Rejoin(lines, ends) == s[next..]
    ensures Rejoin([s[j..i]] + lines, [s[i..next]] + ends) == s[j..]
  {
    RejoinCons(s[j..i], s[i..next], lines, ends);
    SliceThree(s, j, i, next);
  }

  /** One terminator per line. */
  lemma {:induction false} EndsCount(s: string, j: nat, brk: char -> bool)
    requires j <= |s|
    ensures |EndsFrom(s, j, brk)| == |SplitFrom(s, j, brk)|
    decreases |s| - j
  {
    if j < |s| {
      var i := NextBreak(s, j, brk);
      if i < |s| {
        var next := i + |Terminator(s, i)|;
        EndsCount(s, next, brk);
        assert |SplitFrom(s, j, brk)| == 1 + |SplitFrom(s, next, brk)|;
        assert |EndsFrom(s, j, brk)| == 1 + |EndsFrom(s, next, brk)|;
      }
    }
  }

  /** Every terminator but the last is a real one; the last is one or "". */
  lemma {:induction false} EndsShape(s: string, j: nat, brk: char -> bool)
    requires j <= |s|
    ensures forall k :: 0 <= k < |EndsFrom(s, j, brk)| - 1 ==> IsTerminator(EndsFrom(s, j, brk)[k], brk)
    ensures |EndsFrom(s, j, brk)| > 0 ==>
      var last := EndsFrom(s, j, brk)[|EndsFrom(s, j, brk)| - 1];
      IsTerminator(last, brk) || last == ""
    decreases |s| - j
  {
    if j < |s| {
      var i := NextBreak(s, j, brk);
      if i < |s| {
        var e := Terminator(s, i);
        var next := i + |e|;
        EndsShape(s, next, brk);
        var ends, more := EndsFrom(s, j, brk), EndsFrom(s, next, brk);
        assert ends == [e] + more;
        assert IsTerminator(e, brk);
        forall k | 1 <= k < |ends| - 1
          ensures IsTerminator(ends[k], brk)
        {
          assert ends[k] == more[k - 1];
        }
        if |more| == 0 {
          assert ends[|ends| - 1] == e;
        } else {
          assert ends[|ends| - 1] == more[|more| - 1];
        }
      }
    }
  }

  /** How `SplitFrom` and `EndsFrom` unfold at a boundary `i < |s|`. */
  lemma FromStep(s: string, j: nat, brk: char -> bool)
    requires j < |s|
    requires NextBreak(s, j, brk) < |s|
    ensures var i := NextBreak(s, j, brk);
      var next := i + |Terminator(s, i)|;
      SplitFrom(s, j, brk) == [s[j..i]] + SplitFrom(s, next, brk) &&
      EndsFrom(s, j, brk) == [s[i..next]] + EndsFrom(s, next, brk)
  {
  }

  /** How `SplitFrom` and `EndsFrom` unfold when no boundary is left. */
  lemma FromLast(s: string, j: nat, brk: char -> bool)
    requires j < |s|
    requires NextBreak(s, j, brk) == |s|
    ensures SplitFrom(s, j, brk) == [s[j..]] && EndsFrom(s, j, brk) == [""]
  {
    assert s[j..NextBreak(s, j, brk)] == s[j..];
  }

  /** Putting every line's terminator back gives the text again. */
  lemma {:induction false} SplitRoundTrip(s: string, j: nat, brk: char -> bool)
    requires j <= |s|
    ensures |EndsFrom(s, j, brk)| == |SplitFrom(s, j, brk)|
    ensures Rejoin(SplitFrom(s, j, brk), EndsFrom(s, j, brk)) == s[j..]
    decreases |s| - j
  {
    EndsCount(s, j, brk);
    if j < |s| {
      var i := NextBreak(s, j, brk);
      if i == |s| {
        FromLast(s, j, brk);
        assert Rejoin([s[j..]], [""]) == s[j..] + "" + Rejoin([], []);
      } else {
        var next := i + |Terminator(s, i)|;
        SplitRoundTrip(s, next, brk);
        FromStep(s, j, brk);
        RejoinStep(s, j, i, next, SplitFrom(s, next, brk), EndsFrom(s, next, brk));
      }
    }
  }

  /** `splitlines` loses nothing but the terminators: with every line's
      terminator put back the text comes back whole. Every line but the last
      ends in a terminator, and the last ends in one or in nothing. */
  lemma SplitLinesRoundTrip(s: string)
    ensures |LineEnds(s)| == |SplitLines(s)|
    ensures Rejoin(SplitLines(s), LineEnds(s)) == s
    ensures forall k :: 0 <= k < |LineEnds(s)| - 1 ==> IsTerminator(LineEnds(s)[k], IsLineBreak)
    ensures |LineEnds(s)| > 0 ==>
      IsTerminator(LineEnds(s)[|LineEnds(s)| - 1], IsLineBreak) || LineEnds(s)[|LineEnds(s)| - 1] == ""
  {
    EndsShape(s, 0, IsLineBreak);
    SplitRoundTrip(s, 0, IsLineBreak);
  }

  /** A text without line boundaries is a single line. */
  lemma SplitLinesSingle(s: string)
    requires |s| > 0
    requires forall i :: 0 <= i < |s| ==> !IsLineBreak(s[i])
    ensures SplitLines(s) == [s]
  {
    assert NextBreak(s, 0, IsLineBreak) == |s|;
    assert s[0..|s|] == s;
  }

  function DigitChar(d: nat): char
    requires d < 10
  {
    "0123456789"[d]
  }

  /** Decimal notation of a natural number. */
  function NatToString(n: nat): (r: string)
    ensures |r| > 0
    ensures forall i :: 0 <= i < |r| ==> '0' <= r[i] <= '9'
  {
    if n < 10 then [DigitChar(n)] else NatToString(n / 10) + [DigitChar(n % 10)]
  }

  /** Python's `str(n)` for an integer. */
  function IntToString(n: int): string {
    if n < 0 then "-" + NatToString(-n) else NatToString(n)
  }
}

=== FILE: wrappers.dfy ===
/** Failure-compatible result types used for the pipeline's error paths. */
module Wrappers {

  /** A value that may be absent: a parser that gave up, a column that is missing. */
  datatype Option<+T> = None | Some(value: T)

  /** Either a successful value or the error that stopped the operation. */
  datatype Result<+R, +E> = Success(value: R) | Failure(error: E) {

    predicate IsFailure() {
      Failure?
    }

    function PropagateFailure<U>(): Result<U, E>
      requires Failure?
    {
      Failure(error)
    }

    function Extract(): R
      requires Success?
    {
      value
    }
  }
}
